=== FILE: README.md ===
# Hunter regression digest and CSV pipeline, in Dafny

This project models the decision logic of a small performance-regression
pipeline for Apache Cassandra's nightly LWT (lightweight transaction) tests.

- **CSV pipeline.** Each night's `performance-report.json` is reduced to
  one row of read and write figures. The row is stamped with a
  timestamp and two commit SHAs. It is then routed by test type to one of
  six history CSV files. The change-point detector (hunter) reads those
  files.
- **Digest.** The detector's output is filtered to the changes that are
  bad in their metric's direction and beyond a threshold. Each kept change
  is rendered as a sentence. The sentences are reconciled against a
  ledger of changes already mailed, and only new ones go into the e-mail.
- **Legacy digest.** An earlier version that splits the first detector
  result into "bad" and "bad beyond the threshold" lists and mails one of
  them unconditionally.

Everything is pure. Files, SHA lookups and the detector's parsed JSON are
parameters. Results that raise in Python are `Result` values whose error
names the exception. Python `set` iteration order is left open: methods pick
an order with `:|`, and their contracts hold for every order.

Modules, one per file:

- `Wrappers`: `Option`, `Result` and the Python exceptions that matter.
- `Strings`: `str` operations on `seq<char>`, including `split`,
  `replace`, `rstrip`/`lstrip` with character-set semantics and
  `readlines` of a file opened in text mode, whose universal-newline
  translation turns `'\r\n'` and a lone `'\r'` into `'\n'`.
- `Collections`: distinctness, set enumeration, `Counter` filtering and
  `Series.unique`.
- `Detector`: the detector's JSON objects, and the date key of a
  detection time.
- `Digest`: `src/scripts/create_send_email.py`.
- `LegacyDigest`: `src/scripts/cassandra_email/create_send_email.py`.
- `EtlUtils`: the pure helpers of `src/scripts/utils.py`, and a small data-frame
  model (column names and rows of JSON-like cells).
- `Calendar`: `datetime`, `timedelta(days=1)`, `int()` and `strftime` for the
  retrospective date key.
- `HunterFrames`: `extract_metrics_df`, unit stripping, `pd.concat` and
  `create_hunter_df`.
- `HunterCsv`: `generate_hunter_df` and `get_hunter_df_w_test_type`.
- `HunterRouting`: the main block of `src/scripts/create_hunter_csv.py`. It covers
  test-type routing, the prospective append to the six histories and the
  retrospective rebuild.

Facts of the code that a reader might not expect:

- The digest classifies a metric by the prefixes `totalOps` and `opRate`. Every
  other name counts as latency-like. There is no table of known metrics and
  no "unknown metric" error.
- `Counter` over a `set` counts every element once, so duplicate renderings
  collapse into one line. They are never dropped.
- On the repository's test fixture, the filter keeps 7 lines, not 9. A
  `p95` fall and an `opRate` rise are improvements.
- The per-date SHA cache stores the cassandra SHA under one key for both
  repositories. A date seen in an earlier detector dict therefore shows
  the cassandra SHA in the fallout-tests slot too. This quirk is modelled
  as written and stated in `Digest.SeenDateShowsCassandraTwice` and
  `Digest.SeenDateRendersCassandraTwice`.
- Every `git_shas.get(date, lookup(date))` evaluates its default, so both
  SHA lookups run for every kept change and every time entry, cached date
  or not. The first lookup that raises aborts the whole digest.
- The digest appends each file's new lines to the ledger before it reads
  the next file. When a later file is empty or a lookup for it raises, the
  run stops without a mail. The lines already appended are never mailed,
  and every later run treats them as sent.
- `datetime(int(p[0]), int(p[1]), int(p[2]))` converts each piece before
  the next is indexed. A folder name that is not a number raises
  `ValueError`, not `IndexError`, even when it has too few pieces.
  CPython's `datetime` converts its arguments to C `int`s first, so a
  number beyond 2^31 - 1, such as the year of `2147483648_01_01`, raises
  `OverflowError` rather than the range check's `ValueError`.
- The prospective save writes the history files one by one. A bucket no
  run reached raises `NameError` only after the files before it have been
  written.

## Model

| member | source | states |
|---|---|---|
| Detector.Get | src/scripts/cassandra_email/create_send_email.py:37 | `d[key]` is absent exactly when no entry has the key; otherwise the value is the one stored under the key |
| Detector.DateKey | src/scripts/create_send_email.py:76 | the SHA lookup key is the detection time up to its first space, with every `-` turned into `_`; the key holds no space or dash |
| Digest.Render | src/scripts/create_send_email.py:67-74 | a rendered change is the test and time it belongs to, then the two commit SHAs, then the metric's verdict with the detector's own percent text, then one newline, and nothing else |
| Digest.RenderShowsShas | src/scripts/create_send_email.py:67-74 | the commits can be read back from a rendering: the same change rendered with different SHA phrases gives different lines |
| Digest.RenderIsLine | src/scripts/create_send_email.py:67-74 | with fields free of `'\n'` and `'\r'` a rendering is exactly one newline-terminated line, as `readlines` gives lines back |
| Digest.Remember | src/scripts/create_send_email.py:91-94 | one cache update adds the date; an unseen date gets the cassandra SHA and a seen one keeps its entry, so the fallout-tests SHA is never stored |
| Digest.RememberAllFacts | src/scripts/create_send_email.py:88-94 | after the update loop, every entry's date is cached and every cached value is the cassandra SHA of its date |
| Digest.EntryPairs | src/scripts/create_send_email.py:77 | a time entry contributes exactly its changes, each paired with the entry |
| Digest.Candidates | src/scripts/create_send_email.py:75-77 | the comprehension visits exactly the (time entry, change) pairs of the dict's entries |
| Digest.KeptCandidates | src/scripts/create_send_email.py:78-83 | a candidate is kept iff it is bad in its direction and strictly beyond the threshold (`< -t` for `totalOps`/`opRate`, `> t` otherwise); equality is never kept |
| Digest.Slots | src/scripts/create_send_email.py:70-72 | a cached date shows its cached value in both slots; an uncached one shows the cassandra and the fallout-tests lookups |
| Digest.Select | src/scripts/create_send_email.py:47-86 | the selection holds exactly the renderings of kept changes of non-empty dicts, each with the SHAs its dict sees |
| Digest.SelectComplete | src/scripts/create_send_email.py:47-86 | every kept change of every non-empty dict, under that dict's first key, is in the selection, rendered with the SHAs that dict sees |
| Digest.SelectSound | src/scripts/create_send_email.py:47-86 | every selected line is the rendering of a kept change of some non-empty dict; empty dicts contribute nothing |
| Digest.FirstDictSlots | src/scripts/create_send_email.py:70-72 | the first dict sees an empty cache, so its two SHA slots are the two lookups |
| Digest.SeenDateShowsCassandraTwice | src/scripts/create_send_email.py:88-94 | a date already seen in an earlier non-empty dict shows the cassandra SHA in both slots |
| Digest.SeenDateRendersCassandraTwice | src/scripts/create_send_email.py:66-94 | a kept change on such a date is rendered with the cassandra SHA in both commit slots |
| Digest.FirstFailing | src/scripts/create_send_email.py:70-94 | reference: the first lookup call that raises, absent iff every call succeeds |
| Digest.SelectChecked | src/scripts/create_send_email.py:47-94 | with raising lookups the selection fails iff some lookup call raises, with the first such call's exception; otherwise every date of every non-empty dict was looked up successfully and the selection is built from those values |
| Digest.SignificantChanges | src/scripts/create_send_email.py:47-101 | a raising lookup propagates its exception; otherwise the `Counter` filter returns the selection without repetition and loses none of it |
| Digest.NewChanges | src/scripts/create_send_email.py:154 | a change is new iff it is in the batch and not among the ledger's lines |
| Digest.CreateLedgerEntry | src/scripts/create_send_email.py:154-161 | the new changes, once each, are returned joined and appended to the ledger; with none, `None` is returned and the ledger is unchanged |
| Digest.ReconcileIdempotent | src/scripts/create_send_email.py:154-161 | after the append the ledger reads back as its old lines followed by the new ones, still ends a line, and reconciling the same batch again finds nothing new |
| Digest.EmailBody | src/scripts/create_send_email.py:122-123 | a template without the `'\n\n\n'` marker is returned unchanged and the changes are lost |
| Digest.EmailBodyInsertsOnce | src/scripts/create_send_email.py:122-123 | a template holding the marker once gets the changes between its two blank lines and is otherwise unchanged |
| Digest.Subject | src/scripts/create_send_email.py:174-181 | the subject is `The most significant (+/- t%)`, one space, and `performance regressions detected by hunter`, with nothing in between |
| Digest.DigestStep | src/scripts/create_send_email.py:209-214 | one file's reconciliation against the re-read ledger keeps the ledger's lines equal to the old lines followed by everything appended |
| Digest.DigestStepLines | src/scripts/create_send_email.py:209-216 | after one more file, the lines appended are exactly those of the files seen so far that the old ledger lacked, none repeated |
| Digest.ReconcileStep | src/scripts/create_send_email.py:209-216 | reconciling one more file keeps the ledger ending a line, its lines the old ones followed by the distinct new lines of the files seen so far |
| Digest.FileChanges | src/scripts/create_send_email.py:206-209 | an empty results file raises `IndexError`; otherwise the selection of its last line's dictionary, failing iff a SHA lookup raises with that lookup's error, each selected line once |
| Digest.Completed | src/scripts/create_send_email.py:204-209 | the selections before the first file whose selection raises, each one succeeded, and the next file, if any, raised |
| Digest.ReconcileAll | src/scripts/create_send_email.py:204-216 | the ledger grows by exactly the appended text, which is the joined new texts; on a well-formed ledger its lines are the old ones followed by the distinct new lines of the files; when every change is already there nothing is appended |
| Digest.RunDigest | src/scripts/create_send_email.py:199-223 | the run raises iff some file's selection raises, with the first such error, after the files before it were appended to the ledger and without a mail; otherwise a mail goes out iff the joined new text, stripped of leading newline characters, is non-empty, with that text in the body; the ledger grows by exactly the appended lines, the new lines of the files reconciled; when every change is already in the ledger nothing is appended and no mail is sent |
| LegacyDigest.Render | src/scripts/cassandra_email/create_send_email.py:51-56 | the legacy sentence starts like the digest's and puts the verdict after a tab, ending in `%.` and a newline |
| LegacyDigest.RenderSpansTwoLines | src/scripts/cassandra_email/create_send_email.py:51-56 | with newline-free fields a legacy sentence reads back as exactly two lines |
| LegacyDigest.BeyondIsHighlyBad | src/scripts/cassandra_email/create_send_email.py:64-74 | for a non-negative threshold the nested sign-then-threshold test is the digest's filter, and "bad" is that filter at threshold 0, so a 0% change is never bad |
| LegacyDigest.NegativeThresholdDiffers | src/scripts/cassandra_email/create_send_email.py:71-74 | for every negative threshold the two differ: some change passes the digest's filter but not the nested test |
| LegacyDigest.Classify | src/scripts/cassandra_email/create_send_email.py:42-74 | the beyond-threshold list is a subsequence of the bad list, in the same order |
| LegacyDigest.ClassifyIsDigestFilter | src/scripts/cassandra_email/create_send_email.py:49-74 | the bad list renders the changes bad at threshold 0 and the beyond list those beyond the threshold, in input order with repetitions kept |
| LegacyDigest.Select | src/scripts/cassandra_email/create_send_email.py:29-75 | an empty input gives `None`; an empty first dict raises `StopIteration`; a first dict without `lwt-fixed-100-partitions` raises `KeyError` |
| LegacyDigest.SelectReadsFirstDictOnly | src/scripts/cassandra_email/create_send_email.py:29-75 | dicts after the first are never read, because the loop returns in its first iteration |
| LegacyDigest.SelectedLists | src/scripts/cassandra_email/create_send_email.py:30-37 | the lists hold the fixed key's changes, labelled with the dict's first key as test type |
| LegacyDigest.TemplateBody | src/scripts/cassandra_email/constants.py:21-22 | the template holds the marker once, so the body is greeting, blank line, text, newline, signature |
| LegacyDigest.Body | src/scripts/cassandra_email/create_send_email.py:89-95 | the body holds the chosen list joined by newlines between the greeting and the signature, even when the list is empty |
| LegacyDigest.Subject | src/scripts/cassandra_email/create_send_email.py:109-118 | with the flag on the subject is exactly `All performance regressions detected by hunter`; with it off it is the digest's threshold subject |
| LegacyDigest.Main | src/scripts/cassandra_email/create_send_email.py:136-147 | the mail is produced iff the first dict exists, is non-empty and has the fixed key; an empty input raises `TypeError` at unpacking |
| LegacyDigest.MainMailsBeyondThreshold | src/scripts/cassandra_email/constants.py:18 | with the shipped flag the mail lists the first dict's fixed-key changes beyond 11%, in detector order with repetitions kept |
| EtlUtils.In | src/scripts/utils.py:166-167 | `needle in v` is a substring test on a string and a membership test on a list; anything else raises |
| EtlUtils.GetRelevantDict | src/scripts/utils.py:164-169 | the merge fails iff `stats` is missing or some entry's `test` field cannot be searched |
| EtlUtils.GetRelevantDictIsLastWins | src/scripts/utils.py:164-169 | every key takes its value from the last entry whose `test` holds both `result-success` and the phase |
| EtlUtils.NoRelevantEntryGivesEmpty | src/scripts/utils.py:164-169 | without a relevant entry the result is `{}` |
| EtlUtils.AddSuffixToCol | src/scripts/utils.py:67-72 | every column name gets the suffix; column count, order and data are unchanged |
| EtlUtils.SuffixRoundTrip | src/scripts/utils.py:67-72 | cutting the suffix off again gives back every original name |
| EtlUtils.SuffixKeepsDistinct | src/scripts/utils.py:67-72 | distinct column names stay distinct |
| EtlUtils.PhaseSuffixesDisjoint | src/scripts/create_hunter_csv.py:64-65 | no `.read` name equals a `.write` name |
| EtlUtils.ColumnIndex | src/scripts/utils.py:47-49 | a name is found at its first position, and absent only when no column has it |
| EtlUtils.SetColumn | src/scripts/utils.py:47-49 | a scalar assignment keeps the rows and overwrites an existing column in place or appends a new one |
| EtlUtils.SetColumnCells | src/scripts/utils.py:47-49 | the assigned column reads the value in every row and no other column changes |
| EtlUtils.AddColsToMetricsDf | src/scripts/utils.py:46-50 | the result keeps every column and row and has `time`, `commit` and `fallout_tests_commit` |
| EtlUtils.AddColsCells | src/scripts/utils.py:46-50 | every row reads the given time and the two commits, and every other cell is unchanged |
| EtlUtils.LogContent | src/scripts/utils.py:99-100 | a log text without line breaks, or of one line, is read back unchanged |
| EtlUtils.ShaFromContent | src/scripts/utils.py:101 | extraction raises iff the text lacks `Git SHA: ` or the newline symbol is empty; the first is `IndexError`, the second `ValueError` |
| EtlUtils.ShaFromContentSound | src/scripts/utils.py:101 | the SHA is the text right after the first `Git SHA: `, up to the next newline symbol, the next marker or the end, and holds neither |
| EtlUtils.ShaOfMarkerLine | src/scripts/utils.py:101 | conversely, a text whose single marker is followed by a SHA and the newline symbol gives back exactly that SHA |
| EtlUtils.FirstNonEmpty | src/scripts/utils.py:106-111 | the result is `''` iff every SHA is empty; otherwise it is the first non-empty one |
| EtlUtils.AllOkFacts | src/scripts/utils.py:98-102 | the list is built iff every file's extraction succeeds, and then holds each file's SHA in order |
| EtlUtils.PerFile | src/scripts/utils.py:98-102 | each log file is read on its own, in order |
| EtlUtils.CassandraSha | src/scripts/utils.py:97-111 | no file gives `''`; any file without a SHA marker makes the lookup raise; otherwise the result is the first non-empty SHA among the files, or `''` |
| EtlUtils.FalloutTestsSha | src/scripts/utils.py:126-142 | no file gives `''`; otherwise the result is the text before the first comma of the first file's space-joined lines |
| EtlUtils.GetListOfDictFromJson | src/scripts/utils.py:226-235 | an empty file raises `IndexError`; otherwise the result is a one-element list |
| EtlUtils.LastLineWins | src/scripts/utils.py:233-235 | the element kept is the last line's object |
| Collections.Enumerate | src/scripts/create_send_email.py:158 | iterating a set yields each element exactly once |
| Collections.CountedOnce | src/scripts/create_send_email.py:96-99 | the `Counter` filter keeps exactly the elements that occur once |
| Collections.CountedOnceOfDistinct | src/scripts/create_send_email.py:96-99 | on a sequence without repetitions the filter drops nothing |
| Collections.Unique | src/scripts/create_hunter_csv.py:358 | `Series.unique` has no repetitions and keeps every element |
| Strings.Split | src/scripts/create_hunter_csv.py:158 | the pieces join back to the text with the separator and hold no separator themselves |
| Strings.RStrip | src/scripts/create_hunter_csv.py:151-156 | `rstrip` removes a suffix made only of the given characters, and the result does not end in one of them |
| Strings.RStripIdempotent | src/scripts/create_hunter_csv.py:151-156 | stripping twice strips nothing more |
| Strings.LStrip | src/scripts/create_send_email.py:219-220 | `lstrip` removes a prefix made only of the given characters, and the result does not start with one of them |
| Strings.Universal | src/scripts/create_send_email.py:209-210 | the universal-newline translation leaves no `'\r'` and never lengthens the text |
| Strings.UniversalPlain | src/scripts/create_send_email.py:209-210 | a text without `'\r'` is left unchanged |
| Strings.ReadLinesRoundTrip | src/scripts/create_send_email.py:209-210 | `readlines` loses nothing but the translation: the lines concatenate back to the translated file, or to the file itself when it holds no `'\r'`; none is empty and all but the last end in their only newline |
| Strings.UniversalAppend | src/scripts/create_send_email.py:209-210 | the translation of a concatenation is the concatenation of the translations, unless the cut separates a `'\r'` from the `'\n'` after it |
| Strings.UniversalCrLf | src/scripts/create_send_email.py:209-210 | wherever it stands in the file, a `'\r\n'` pair is read as one `'\n'` and the text on either side is translated on its own |
| Strings.UniversalLoneCr | src/scripts/create_send_email.py:209-210 | wherever it stands, a `'\r'` not followed by `'\n'` is read as one `'\n'` |
| Strings.ReadLinesConcat | src/scripts/create_send_email.py:156-161 | appending whole `'\r'`-free lines to a file that ends a line adds exactly those lines to what `readlines` returns |
| Calendar.MakeDate | src/scripts/create_hunter_csv.py:172-174 | `datetime(y, m, d)` succeeds iff the date exists between years 1 and 9999; it raises `OverflowError` iff an argument does not fit a C `int`, and `ValueError` otherwise |
| Calendar.NextDay | src/scripts/create_hunter_csv.py:175 | adding a day overflows only on 9999-12-31 and otherwise gives a valid date |
| Calendar.PrevOfNext | src/scripts/create_hunter_csv.py:175 | the day before the next day is the day itself, using an independent `PrevDay` |
| Calendar.NextOfPrev | src/scripts/create_hunter_csv.py:175 | every day but the first is the next day of the day before it |
| Calendar.NextDayIsLater | src/scripts/create_hunter_csv.py:175 | the next day is strictly later |
| Calendar.ShowNat | src/scripts/create_hunter_csv.py:176 | the decimal digits read back as the number, with no leading zero; one digit exactly below 10 |
| Calendar.Pad | src/scripts/create_hunter_csv.py:176 | zero padding keeps the value and reaches the width; a result longer than the width has no leading zero |
| Calendar.PadTwoDigits | src/scripts/create_hunter_csv.py:176 | `%d` and `%m` print a day or a month below 100 as exactly two digits |
| Calendar.FormatYDM | src/scripts/create_hunter_csv.py:176 | `%Y_%d_%m` is the year's digits, `_`, the two-digit day, `_`, the two-digit month |
| Calendar.DateOfPieces | src/scripts/create_hunter_csv.py:172-175 | with three number pieces the result is `datetime` of their values; it is `IndexError` iff the pieces run out while all present ones are numbers; `OverflowError` only with three number pieces; every other failure is `ValueError` |
| Calendar.ParseYMD | src/scripts/create_hunter_csv.py:170-175 | the same over the `_`-pieces of the folder name; a parsed date is always valid |
| Calendar.ParseYMDHugeYear | src/scripts/create_hunter_csv.py:170-175 | a folder whose year does not fit a C `int` raises `OverflowError` |
| Calendar.ParseYMDNotANumber | src/scripts/create_hunter_csv.py:170-175 | a name without `_` that is not a number raises `ValueError` |
| Calendar.ParseFormatted | src/scripts/create_hunter_csv.py:170-175 | a folder name written `%Y_%m_%d` parses back to its date |
| Calendar.RetrospectiveKey | src/scripts/create_hunter_csv.py:170-176 | a name that does not parse raises as the parse does; a parsed 9999-12-31 raises `OverflowError`; otherwise the key is the `%Y_%d_%m` of the date whose previous day is the folder's |
| Calendar.RetrospectiveKeyOfFolder | src/scripts/create_hunter_csv.py:170-176 | the key of a folder is the next day written `%Y_%d_%m` |
| Calendar.RetrospectiveKeyOverflows | src/scripts/create_hunter_csv.py:172-175 | the folder of the last representable date raises `OverflowError` |
| HunterFrames.ExtractMetricsDf | src/scripts/create_hunter_csv.py:40-46 | the frame has the two phase rows under the short names, and a column neither phase has raises `KeyError` |
| HunterFrames.ExtractedCells | src/scripts/create_hunter_csv.py:40-46 | every figure lands in its own phase's row under its renamed column |
| HunterFrames.StripCell | src/scripts/create_hunter_csv.py:151-156 | a text cell keeps a prefix that does not end in a unit character, and every character removed is a unit character; non-text cells become NaN |
| HunterFrames.StripUnits | src/scripts/create_hunter_csv.py:151-156 | the step raises `KeyError` iff there is no `opRate` column; otherwise shape and columns are kept |
| HunterFrames.StripUnitsCells | src/scripts/create_hunter_csv.py:151-156 | `totalOps` is untouched, `opRate` loses trailing ` op/sec` characters and every other column trailing ` ms` characters: each kept text is a prefix that does not end in a unit character, and only unit characters are removed |
| HunterFrames.StripUnitsReading | src/scripts/create_hunter_csv.py:151-156 | a number followed by its unit is stripped to exactly the number |
| HunterFrames.StripUnitsIdempotent | src/scripts/create_hunter_csv.py:151-156 | stripping twice strips no more than once |
| HunterFrames.UnionColumns | src/scripts/create_hunter_csv.py:67 | the concatenation's columns are those of either frame, the first frame's first |
| HunterFrames.ConcatRows | src/scripts/create_hunter_csv.py:275-276 | `pd.concat` stacks the rows of both frames over the union of their columns |
| HunterFrames.ConcatRowsCells | src/scripts/create_hunter_csv.py:275-276 | every cell is that of the frame its row came from, NaN where that frame lacks the column |
| HunterFrames.ConcatAll | src/scripts/create_hunter_csv.py:351-356 | `pd.concat([])` raises `ValueError` and nothing else does |
| HunterFrames.ConcatAllRows | src/scripts/create_hunter_csv.py:351-356 | the concatenation holds as many rows as all the frames together |
| HunterFrames.CombineFirst | src/scripts/create_hunter_csv.py:68-71 | each value is the first row's where that is not NaN, and the second row's where it is |
| HunterFrames.CreateHunterDf | src/scripts/create_hunter_csv.py:61-72 | a frame with fewer than two rows raises; otherwise the result is one row |
| HunterFrames.BlendIsSideBySide | src/scripts/create_hunter_csv.py:61-72 | with distinct names the blended row is the read row under `.read` names followed by the write row under `.write` names |
| HunterFrames.BlendCells | src/scripts/create_hunter_csv.py:61-72 | column `c.read` holds the read row's `c` and `c.write` the write row's `c` |
| HunterFrames.RenamedDistinct | src/scripts/constants.py:68-80 | the short column names are distinct |
| HunterFrames.PhaseFigures | src/scripts/create_hunter_csv.py:40-72 | extraction, unit stripping and blending compose: cell `c.read` holds the read phase's figure for `c` stripped of its units, and `c.write` the write phase's |
| HunterCsv.Timestamp | src/scripts/create_hunter_csv.py:160 | the timestamp is the folder date with `_` turned into `-`, followed by ` 23:00:00 +0000` |
| HunterCsv.TimestampDateKey | src/scripts/create_hunter_csv.py:160 | the digest's date key of such a timestamp is the folder's date again |
| HunterCsv.FolderTimestampDateKey | src/scripts/create_hunter_csv.py:158-160 | in particular for every folder named `%Y_%m_%d` |
| HunterCsv.PathComponent | src/scripts/create_hunter_csv.py:158 | component `k` exists iff the path has more than `k` parts; otherwise `IndexError` |
| HunterCsv.ComponentOfJoin | src/scripts/create_hunter_csv.py:158 | a component of a path joined from separator-free parts is that part |
| HunterCsv.ReportPathComponents | src/scripts/create_hunter_csv.py:218 | under the results directory, component 4 is the date folder and component 5 the test type |
| HunterCsv.RunCommits | src/scripts/create_hunter_csv.py:164-179 | prospective runs use the nightly SHAs; retrospective runs look up the retrospective key and fail when it does, with its error |
| HunterCsv.GenerateHunterDf | src/scripts/create_hunter_csv.py:129-192 | no report or an empty `stats` list gives an empty frame; no `stats` raises `KeyError`; otherwise it fails iff picking the read entry, the write entry, the extraction, path component 4 or the SHAs of the mode raise, with the first of those errors, and succeeds with one row |
| HunterCsv.GeneratedRow | src/scripts/create_hunter_csv.py:158-192 | the generated row reads its folder's timestamp and its mode's two commit SHAs |
| HunterCsv.GeneratedFigures | src/scripts/create_hunter_csv.py:146-192 | the generated row holds, under `c.read` and `c.write`, the last relevant read and write entry's figure for `c`, stripped of its units |
| HunterCsv.GetHunterDfWTestType | src/scripts/create_hunter_csv.py:209-222 | empty input gives `(empty, '')`; a typed result is the generated non-empty frame with path component 5; an empty component falls through to `None`; it raises iff the generation does, with its error, or a non-empty frame lacks path component 5 (`IndexError`) |
| HunterCsv.TypedIffNonEmpty | src/scripts/create_hunter_csv.py:211-222 | a run has an empty test type iff its frame is empty |
| HunterRouting.Route | src/scripts/create_hunter_csv.py:330-349 | the bucket is the first of the six markers the test type contains; no bucket iff it contains none |
| HunterRouting.MarkerInTestName | src/scripts/constants.py:39-47 | a test name `lwt-<mode>-<size>-partitions` contains the marker of its own mode and size and no other |
| HunterRouting.RouteOfTestName | src/scripts/create_hunter_csv.py:274-293 | the test name of a bucket's mode and size is routed to that bucket |
| HunterRouting.LwtBucketsDistinct | src/scripts/constants.py:39-42 | no two LWT tests share a bucket |
| HunterRouting.EachLwtTestHitsItsOwnBucket | src/scripts/constants.py:39-47 | each of the six LWT test names lands in its own bucket |
| HunterRouting.Unpack | src/scripts/create_hunter_csv.py:266-267 | unpacking succeeds iff every report gave a typed result; the runs keep their order |
| HunterRouting.Kept | src/scripts/create_hunter_csv.py:264-270 | the kept runs are exactly those with a test type and a non-empty frame |
| HunterRouting.Assign | src/scripts/create_hunter_csv.py:272-295 | only the six buckets are ever assigned |
| HunterRouting.LastRoutedTo | src/scripts/create_hunter_csv.py:272-295 | reference: the last run routed to a bucket, absent iff no run routes there |
| HunterRouting.AssignIsLastWins | src/scripts/create_hunter_csv.py:272-295 | a bucket is assigned iff some run routes there, and then holds the history followed by only the last such run |
| HunterRouting.SaveAssigned | src/scripts/create_hunter_csv.py:297-302 | the six variables are saved in bucket order; all six are written iff all were assigned; otherwise the ones before the first unassigned variable are written and that one raises `NameError` |
| HunterRouting.AssignAll | src/scripts/create_hunter_csv.py:272-302 | all six buckets are assigned iff each is reached by a kept run |
| HunterRouting.ProspectiveRun | src/scripts/create_hunter_csv.py:237-302 | an untyped report raises before anything is written; otherwise the run completes iff every bucket is reached by a kept run, each file written is its history with exactly the last kept run of its bucket appended, and a stop is the `NameError` of the first bucket no kept run reached |
| HunterRouting.Buckets | src/scripts/create_hunter_csv.py:322-349 | there are six buckets, each of rectangular frames |
| HunterRouting.RoutedFrames | src/scripts/create_hunter_csv.py:330-349 | reference: each frame of a bucket comes from a run routed to it with a non-empty frame |
| HunterRouting.BucketsKeepAll | src/scripts/create_hunter_csv.py:322-349 | each bucket holds every non-empty frame routed to it, in order |
| HunterRouting.ConcatBuckets | src/scripts/create_hunter_csv.py:351-356 | stacking succeeds iff no bucket is empty, and stacks each bucket on its own |
| HunterRouting.CsvNameInjective | src/scripts/create_hunter_csv.py:363 | distinct test types give distinct file names |
| HunterRouting.TypesOf | src/scripts/create_hunter_csv.py:327-328 | the recorded test types are exactly the non-empty types of the runs |
| HunterRouting.Saves | src/scripts/create_hunter_csv.py:360-380 | every file written is named after a routed test type and holds that type's bucket |
| HunterRouting.SavesComplete | src/scripts/create_hunter_csv.py:360-380 | every routed test type gets its file |
| HunterRouting.SavesNamesDistinct | src/scripts/create_hunter_csv.py:358-380 | the unique test types give files with distinct names |
| HunterRouting.WriteBuckets | src/scripts/create_hunter_csv.py:351-380 | every file written is named after a test type seen that routes |
| HunterRouting.WriteBucketsOk | src/scripts/create_hunter_csv.py:351-356 | the retrospective rebuild succeeds iff every bucket received a non-empty frame |
| HunterRouting.StackedBucket | src/scripts/create_hunter_csv.py:351-356 | each stacked bucket is the stack of all the frames routed to it |
| HunterRouting.WriteBucketsFiles | src/scripts/create_hunter_csv.py:351-380 | each file is named after a test type seen and holds every non-empty frame of that type's bucket |
| HunterRouting.WriteBucketsCovers | src/scripts/create_hunter_csv.py:358-380 | every test type seen that routes gets a file |
| HunterRouting.WriteBucketsNamesDistinct | src/scripts/create_hunter_csv.py:358-380 | no two files share a name |
| HunterRouting.ConcatBucketsError | src/scripts/create_hunter_csv.py:351-356 | the only exception of the stacking is `ValueError` |
| HunterRouting.RetrospectiveRun | src/scripts/create_hunter_csv.py:305-380 | an untyped report raises at unpacking; otherwise the run succeeds iff every bucket received a non-empty frame, fails with `ValueError` if not, and then writes one file per test type seen that routes, named after it and holding every non-empty frame of its bucket stacked in order, no two with the same name |

## Left out

- Network and credentials: SMTP sending (`read_txt_send_email`'s session)
  and AWS Secrets Manager. Only the subject and the body text are modelled.
- File and directory I/O: `open`, append and write, `glob`, `os.listdir`,
  `cd_into_proj_dir`, `to_csv` and `read_csv`. Files are strings or frames
  given as parameters, and writes are returned values.
- `get_git_sha_for_cassandra`, `get_git_sha_for_fallout_tests`,
  `get_commit_hash_cass_fall_tests` and `get_yesterday_date`. They read
  the file system, Git or the clock, so they become function parameters.
  Their string parts are modelled in `EtlUtils` over given file texts.
- The glob in `get_git_sha_for_cassandra` is repeated once per LWT test with
  the same pattern, so only the last result's files are read. The model
  takes that list of files as given.
- `get_paths_to_six_json`: its result is taken as the list of
  reports per test. Only the first path of each list is read.
- JSON and float parsing. The detector output is an already-parsed
  datatype, and each percent is its original text together with a `real`.
  Report files are parsed JSON values.
- pandas internals: dtypes, the index, and the `AttributeError` that
  `.str` raises on a non-text column. A data frame is column names plus
  rows of cells. The cells are JSON-like values, with `Missing` for NaN.
- `int()` accepts surrounding whitespace, digit-group underscores and
  non-ASCII Unicode decimal digits (Arabic-Indic ones, say). The model's `ParseInt`
  accepts only an optional sign and ASCII digits and rejects those forms; folder names never
  contain them.
- `%Y` is formatted as glibc does, without zero padding below year 1000.
- The constants `THRESH_PERF_REGRESS`, `TEMPLATE_MSG`, `NEWLINE_SYMBOL`
  and `LOG_FILE_W_MSG` of the digest are not defined in
  `src/scripts/constants.py`, so they are parameters. The legacy constants
  are used as shipped.
- `src/scripts/cassandra_email/utils.py` is not part of this model. The
  legacy `main` starts from the list of detector dicts its JSON reader
  returns.
- Logging calls (`logging.info`, `logging.error`, `get_error_log`) have no
  effect on results and are left out. A test type that no marker matches
  only reaches `get_error_log` and is otherwise dropped.
- The routing functions of `HunterRouting` take the router as a
  parameter so that their proofs do not unfold the markers. The script's
  own `Route` is plugged in by `ProspectiveRun` and `RetrospectiveRun`.
- HunterRouting.Assign: its own contract bounds only the keys.
  What each bucket holds is stated by `AssignIsLastWins` and `AssignAll`.
- HunterRouting.Buckets: its own contract states only the shape. What each
  bucket holds is stated by `BucketsKeepAll`.
- LegacyDigest.Select: the legacy SHA lookups are taken as total
  functions. Only `Digest.SelectChecked` models a lookup that raises.
- EtlUtils.ShaOfMarkerLine: it covers texts with a single marker. With a
  second marker on the same line the SHA stops at that marker, as
  `EtlUtils.ShaFromContentSound` states.
- EtlUtils.CassandraSha: when a file raises, it does not say which file's
  exception is returned. In the code it is the first failing file's.
- Digest.RunDigest: it takes each file's selection outcome (`Digest.FileChanges`)
  as an input rather than computing it between appends, since a selection
  reads only the results file and the SHA lookups, never the ledger.
- Digest.RunDigest: the statements about the ledger's lines assume that
  the old ledger ends a line and that every rendering is one line, which
  holds for the sentences this program writes (`Digest.RenderIsLine`).

=== FILE: calendar.dfy ===
/** The Gregorian date arithmetic behind the retrospective date key of
    src/scripts/create_hunter_csv.py: parsing a `Y_M_D` folder name with
    `int()` and `datetime(...)`, adding one day with `timedelta(days=1)`,
    and formatting with `strftime`. */
module Calendar {
  import opened Wrappers
  import opened Strings

  datatype Date = Date(year: int, month: int, day: int)

  /** `datetime`'s range: years 1 to 9999. */
  const MIN_YEAR: int := 1
  const MAX_YEAR: int := 9999

  predicate IsLeap(y: int) {
    (y % 4 == 0 && y % 100 != 0) || y % 400 == 0
  }

  function DaysIn(y: int, m: int): (n: int)
    requires 1 <= m <= 12
    ensures 28 <= n <= 31
  {
    if m == 2 then (if IsLeap(y) then 29 else 28)
    else if m == 4 || m == 6 || m == 9 || m == 11 then 30
    else 31
  }

  /** The dates `datetime(y, m, d)` accepts. */
  predicate Valid(d: Date) {
    MIN_YEAR <= d.year <= MAX_YEAR && 1 <= d.month <= 12 && 1 <= d.day <= DaysIn(d.year, d.month)
  }

  /** The range of a C `int`, to which CPython's `datetime` converts each of
      its arguments before checking the date. */
  const INT_MIN: int := -0x8000_0000
  const INT_MAX: int := 0x7FFF_FFFF

  predicate FitsCInt(n: int) {
    INT_MIN <= n <= INT_MAX
  }

  /** `datetime(y, m, d)`: the date; `OverflowError` when an argument does
      not fit a C `int`; otherwise `ValueError` out of range. */
  function MakeDate(y: int, m: int, d: int): (r: Result<Date>)
    ensures r.Ok? <==> Valid(Date(y, m, d))
    ensures r.Ok? ==> r.value == Date(y, m, d)
    ensures r == Err(OverflowError) <==> !(FitsCInt(y) && FitsCInt(m) && FitsCInt(d))
    ensures r.Err? ==> r == Err(OverflowError) || r == Err(ValueError)
  {
    if !(FitsCInt(y) && FitsCInt(m) && FitsCInt(d)) then Err(OverflowError)
    else if Valid(Date(y, m, d)) then Ok(Date(y, m, d))
    else Err(ValueError)
  }

  /** `date + timedelta(days=1)`: `OverflowError` past 9999-12-31. */
  function NextDay(d: Date): (r: Result<Date>)
    requires Valid(d)
    ensures r.Err? <==> d == Date(MAX_YEAR, 12, 31)
    ensures r.Ok? ==> Valid(r.value)
  {
    if d.day < DaysIn(d.year, d.month) then Ok(Date(d.year, d.month, d.day + 1))
    else if d.month < 12 then Ok(Date(d.year, d.month + 1, 1))
    else if d.year < MAX_YEAR then Ok(Date(d.year + 1, 1, 1))
    else Err(OverflowError)
  }

  /** Reference: the day before, independent of `NextDay`. */
  function PrevDay(d: Date): (r: Option<Date>)
    requires Valid(d)
    ensures r.None? <==> d == Date(MIN_YEAR, 1, 1)
    ensures r.Some? ==> Valid(r.value)
  {
    if d.day > 1 then Some(Date(d.year, d.month, d.day - 1))
    else if d.month > 1 then Some(Date(d.year, d.month - 1, DaysIn(d.year, d.month - 1)))
    else if d.year > MIN_YEAR then Some(Date(d.year - 1, 12, 31))
    else None
  }

  /** The next day's previous day is the day itself ... */
  lemma PrevOfNext(d: Date)
    requires Valid(d) && NextDay(d).Ok?
    ensures PrevDay(NextDay(d).value) == Some(d)
  {
  }

  /** ... and every day but the first is the next day of its previous day. */
  lemma NextOfPrev(d: Date)
    requires Valid(d) && PrevDay(d).Some?
    ensures NextDay(PrevDay(d).value) == Ok(d)
  {
  }

  /** The next day is strictly later in (year, month, day) order. */
  lemma NextDayIsLater(d: Date)
    requires Valid(d) && NextDay(d).Ok?
    ensures Before(d, NextDay(d).value)
  {
  }

  predicate Before(a: Date, b: Date) {
    a.year < b.year || (a.year == b.year && (a.month < b.month || (a.month == b.month && a.day < b.day)))
  }

  // ---------------------------------------------------------------- digits

  predicate IsDigit(c: char) {
    '0' <= c <= '9'
  }

  function DigitValue(c: char): int
    requires IsDigit(c)
  {
    c as int - '0' as int
  }

  function DigitChar(n: int): (c: char)
    requires 0 <= n <= 9
    ensures IsDigit(c) && DigitValue(c) == n
  {
    ('0' as int + n) as char
  }

  /** The value of a string of decimal digits, most significant first. */
  function DigitsValue(s: string): nat
    requires forall i :: 0 <= i < |s| ==> IsDigit(s[i])
    decreases |s|
  {
    if |s| == 0 then 0
    else DigitsValue(s[..|s| - 1]) * 10 + DigitValue(s[|s| - 1])
  }

  /** Python's `int(s)` on an optional sign followed by ASCII digits; every
      other text is a `ValueError`. */
  function ParseInt(s: string): (r: Result<int>)
    ensures r.Ok? ==> |s| > 0
  {
    if |s| > 0 && (s[0] == '+' || s[0] == '-') then
      var body := s[1..];
      if |body| > 0 && forall i :: 0 <= i < |body| ==> IsDigit(body[i]) then
        Ok(if s[0] == '-' then -(DigitsValue(body) as int) else DigitsValue(body))
      else Err(ValueError)
    else if |s| > 0 && forall i :: 0 <= i < |s| ==> IsDigit(s[i]) then Ok(DigitsValue(s))
    else Err(ValueError)
  }

  /** The decimal digits of `n`, without leading zeros (`"0"` for zero). */
  function ShowNat(n: nat): (s: string)
    ensures |s| > 0 && forall i :: 0 <= i < |s| ==> IsDigit(s[i])
    ensures DigitsValue(s) == n
    ensures |s| == 1 || s[0] != '0'
    ensures n < 10 <==> |s| == 1
    decreases n
  {
    var last := [DigitChar(n % 10)];
    if n < 10 then last
    else
      var s := ShowNat(n / 10) + last;
      assert s[..|s| - 1] == ShowNat(n / 10);
      s
  }

  /** At least `width` digits, padded with leading zeros (`%d`, `%m`). */
  function Pad(n: nat, width: nat): (s: string)
    ensures |s| > 0 && forall i :: 0 <= i < |s| ==> IsDigit(s[i])
    ensures DigitsValue(s) == n
    ensures |s| >= width
    ensures |s| > width ==> |s| == 1 || s[0] != '0'
    decreases width
  {
    var digits := ShowNat(n);
    if |digits| >= width then digits
    else
      var s := "0" + Pad(n, width - 1);
      LeadingZero(Pad(n, width - 1));
      s
  }

  /** `%d` and `%m` print a day or a month as exactly two digits. */
  lemma {:induction false} PadTwoDigits(n: nat)
    requires n < 100
    ensures |Pad(n, 2)| == 2
  {
    if n >= 10 {
      assert ShowNat(n) == ShowNat(n / 10) + [DigitChar(n % 10)];
    }
  }

  /** A leading zero does not change the value. */
  lemma {:induction false} LeadingZero(s: string)
    requires forall i :: 0 <= i < |s| ==> IsDigit(s[i])
    ensures forall i :: 0 <= i < |"0" + s| ==> IsDigit(("0" + s)[i])
    ensures DigitsValue("0" + s) == DigitsValue(s)
    decreases |s|
  {
    if |s| > 0 {
      var t := "0" + s;
      assert t[..|t| - 1] == "0" + s[..|s| - 1];
      LeadingZero(s[..|s| - 1]);
    }
  }

  /** Digits are never `_`, so a formatted date splits back at its `_`s. */
  lemma DigitsHaveNoUnderscore(s: string)
    requires forall i :: 0 <= i < |s| ==> IsDigit(s[i])
    ensures '_' !in s
  {
  }

  /** `strftime('%Y_%d_%m')` with glibc's `%Y` (no padding below year 1000). */
  function FormatYDM(d: Date): (r: string)
    requires Valid(d)
    ensures var y := |ShowNat(d.year)|;
      && |r| == y + 6
      && r[..y] == ShowNat(d.year) && r[y] == '_' && r[y + 3] == '_'
      && r[y + 1..y + 3] == Pad(d.day, 2) && r[y + 4..] == Pad(d.month, 2)
  {
    PadTwoDigits(d.day);
    PadTwoDigits(d.month);
    var year, day, month := ShowNat(d.year), Pad(d.day, 2), Pad(d.month, 2);
    var r := year + "_" + day + "_" + month;
    assert r[..|year|] == year;
    assert r[|year| + 1..|year| + 3] == day;
    assert r[|year| + 4..] == month;
    r
  }

  /** `strftime('%Y_%m_%d')`, the form of the results folders. */
  function FormatYMD(d: Date): string
    requires Valid(d)
  {
    ShowNat(d.year) + "_" + Pad(d.month, 2) + "_" + Pad(d.day, 2)
  }

  /** The first `n` pieces exist and each is a number `int()` accepts. */
  predicate NumberPieces(pieces: seq<string>, n: nat) {
    n <= |pieces| && forall i :: 0 <= i < n ==> ParseInt(pieces[i]).Ok?
  }

  /** `datetime(int(p[0]), int(p[1]), int(p[2]))` over the pieces `p`,
      evaluated left to right: each piece is converted before the next one is
      indexed, so a missing piece raises `IndexError` only once the pieces
      before it are numbers; a number beyond a C `int` raises `OverflowError`
      once all three are converted; a piece that is not a number, or a date
      out of range, raises `ValueError`. */
  function DateOfPieces(pieces: seq<string>): (r: Result<Date>)
    ensures r.Ok? ==> Valid(r.value)
    ensures NumberPieces(pieces, 3) ==>
      r == MakeDate(ParseInt(pieces[0]).value, ParseInt(pieces[1]).value, ParseInt(pieces[2]).value)
    ensures r == Err(IndexError) <==> |pieces| < 3 && NumberPieces(pieces, |pieces|)
    ensures r == Err(OverflowError) ==> NumberPieces(pieces, 3)
    ensures r.Err? ==> r == Err(IndexError) || r == Err(OverflowError) || r == Err(ValueError)
  {
    if |pieces| == 0 then Err(IndexError)
    else
      var y :- ParseInt(pieces[0]);
      if |pieces| < 2 then Err(IndexError)
      else
        var m :- ParseInt(pieces[1]);
        if |pieces| < 3 then Err(IndexError)
        else
          var d :- ParseInt(pieces[2]);
          MakeDate(y, m, d)
  }

  /** `date_val.split('_')` read as a date, as above. */
  function ParseYMD(dateVal: string): (r: Result<Date>)
    ensures r.Ok? ==> Valid(r.value)
    ensures NumberPieces(Split(dateVal, "_"), 3) ==>
      r == MakeDate(ParseInt(Split(dateVal, "_")[0]).value, ParseInt(Split(dateVal, "_")[1]).value,
                    ParseInt(Split(dateVal, "_")[2]).value)
    ensures r == Err(IndexError) <==>
      |Split(dateVal, "_")| < 3 && NumberPieces(Split(dateVal, "_"), |Split(dateVal, "_")|)
    ensures r == Err(OverflowError) ==> NumberPieces(Split(dateVal, "_"), 3)
    ensures r.Err? ==> r == Err(IndexError) || r == Err(OverflowError) || r == Err(ValueError)
  {
    DateOfPieces(Split(dateVal, "_"))
  }

  /** A folder name without `_` that is not a number fails at its first
      conversion, before any missing piece is indexed. */
  lemma ParseYMDNotANumber(dateVal: string)
    requires !Contains(dateVal, "_") && ParseInt(dateVal).Err?
    ensures ParseYMD(dateVal) == Err(ValueError)
  {
    assert Split(dateVal, "_") == [dateVal];
  }

  /** A folder year too large for a C `int` overflows in `datetime`, not in
      its range check. */
  lemma ParseYMDHugeYear(y: string, m: string, d: string)
    requires '_' !in y && '_' !in m && '_' !in d
    requires ParseInt(y).Ok? && ParseInt(y).value > INT_MAX
    requires ParseInt(m).Ok? && ParseInt(d).Ok?
    ensures ParseYMD(y + "_" + m + "_" + d) == Err(OverflowError)
  {
    SplitThree(y, m, d);
  }

  /** The retrospective lookup key: the folder's date plus one day, with day
      and month swapped. A name that does not parse raises as `ParseYMD`
      does, and 9999-12-31 has no next day. */
  function RetrospectiveKey(dateVal: string): (r: Result<string>)
    ensures ParseYMD(dateVal).Err? ==> r == Err(ParseYMD(dateVal).error)
    ensures ParseYMD(dateVal).Ok? ==> (r.Err? <==> ParseYMD(dateVal).value == Date(MAX_YEAR, 12, 31))
    ensures ParseYMD(dateVal).Ok? && r.Err? ==> r.error == OverflowError
    ensures r.Ok? ==> ParseYMD(dateVal).Ok? && exists next ::
      Valid(next) && PrevDay(next) == Some(ParseYMD(dateVal).value) && r.value == FormatYDM(next)
  {
    var date :- ParseYMD(dateVal);
    var next :- NextDay(date);
    PrevOfNext(date);
    Ok(FormatYDM(next))
  }

  /** A three-piece `_`-join splits back into its pieces. */
  lemma SplitThree(a: string, b: string, c: string)
    requires '_' !in a && '_' !in b && '_' !in c
    ensures Split(a + "_" + b + "_" + c, "_") == [a, b, c]
  {
    SplitThreeChar(a, b, c, '_');
  }

  /** A folder name written `%Y_%m_%d` parses back to its date. */
  lemma ParseFormatted(d: Date)
    requires Valid(d)
    ensures ParseYMD(FormatYMD(d)) == Ok(d)
  {
    var y, m, dd := ShowNat(d.year), Pad(d.month, 2), Pad(d.day, 2);
    DigitsHaveNoUnderscore(y);
    DigitsHaveNoUnderscore(m);
    DigitsHaveNoUnderscore(dd);
    SplitThree(y, m, dd);
    UnsignedParse(y);
    UnsignedParse(m);
    UnsignedParse(dd);
  }

  lemma UnsignedParse(s: string)
    requires |s| > 0 && forall i :: 0 <= i < |s| ==> IsDigit(s[i])
    ensures ParseInt(s) == Ok(DigitsValue(s))
  {
    assert IsDigit(s[0]);
  }

  /** For a folder of any date but the last, the key is the next day's date
      in `%Y_%d_%m`. */
  lemma RetrospectiveKeyOfFolder(d: Date)
    requires Valid(d) && d != Date(MAX_YEAR, 12, 31)
    ensures RetrospectiveKey(FormatYMD(d)) == Ok(FormatYDM(NextDay(d).value))
  {
    ParseFormatted(d);
  }

  /** The last representable date has no next day. */
  lemma RetrospectiveKeyOverflows()
    ensures RetrospectiveKey(FormatYMD(Date(MAX_YEAR, 12, 31))) == Err(OverflowError)
  {
    ParseFormatted(Date(MAX_YEAR, 12, 31));
  }
}

=== FILE: collections.dfy ===
/** Sequence and set helpers: distinctness, enumerating a Python `set` in
    some unspecified order, and the `collections.Counter` filter that keeps
    the elements seen exactly once. */
module Collections {

  predicate Distinct<T(==)>(xs: seq<T>) {
    forall i, j :: 0 <= i < j < |xs| ==> xs[i] != xs[j]
  }

  /** Iterating a Python `set`: every element exactly once, in an order the
      language leaves unspecified (here: whatever `:|` picks). */
  method Enumerate<T(==)>(s: set<T>) returns (xs: seq<T>)
    ensures Distinct(xs)
    ensures forall x :: x in xs <==> x in s
    ensures |xs| == |s|
  {
    xs := [];
    var rest := s;
    while rest != {}
      invariant rest <= s
      invariant Distinct(xs)
      invariant forall x :: x in xs <==> x in s && x !in rest
      invariant |xs| + |rest| == |s|
      decreases |rest|
    {
      var x :| x in rest;
      xs := xs + [x];
      rest := rest - {x};
    }
  }

  /** The elements of `ys` whose count in `m` is exactly one, in order. */
  function KeepCountedOnce<T(==,!new)>(ys: seq<T>, m: multiset<T>): (r: seq<T>)
    ensures forall x :: x in r <==> x in ys && m[x] == 1
    decreases |ys|
  {
    if |ys| == 0 then []
    else if m[ys[0]] == 1 then [ys[0]] + KeepCountedOnce(ys[1..], m)
    else KeepCountedOnce(ys[1..], m)
  }

  /** `[k for k, v in Counter(xs).items() if v == 1]`: the elements that occur
      exactly once in `xs`, in order of first occurrence. */
  function CountedOnce<T(==,!new)>(xs: seq<T>): (r: seq<T>)
    ensures forall x :: x in r <==> x in xs && multiset(xs)[x] == 1
  {
    KeepCountedOnce(xs, multiset(xs))
  }

  /** In a sequence without repetitions every element is counted once. */
  lemma {:induction false} DistinctCountsOne<T>(xs: seq<T>)
    requires Distinct(xs)
    ensures forall x :: x in xs ==> multiset(xs)[x] == 1
    decreases |xs|
  {
    if |xs| > 0 {
      DistinctCountsOne(xs[1..]);
      assert xs == [xs[0]] + xs[1..];
      assert xs[0] !in xs[1..];
    }
  }

  lemma {:induction false} KeepAll<T(!new)>(ys: seq<T>, m: multiset<T>)
    requires forall x :: x in ys ==> m[x] == 1
    ensures KeepCountedOnce(ys, m) == ys
    decreases |ys|
  {
    if |ys| > 0 {
      KeepAll(ys[1..], m);
    }
  }

  /** The `Counter` filter drops nothing from a sequence without repetitions,
      such as the enumeration of a set. */
  lemma CountedOnceOfDistinct<T(!new)>(xs: seq<T>)
    requires Distinct(xs)
    ensures CountedOnce(xs) == xs
  {
    DistinctCountsOne(xs);
    KeepAll(xs, multiset(xs));
  }

  /** `pd.Series(xs).unique()`: each element once, in order of first
      occurrence, leaving out those in `seen`. */
  function UniqueFrom<T(==,!new)>(xs: seq<T>, seen: seq<T>): (r: seq<T>)
    ensures Distinct(r)
    ensures forall x :: x in r <==> x in xs && x !in seen
    decreases |xs|
  {
    if |xs| == 0 then []
    else if xs[0] in seen then UniqueFrom(xs[1..], seen)
    else
      var rest := UniqueFrom(xs[1..], seen + [xs[0]]);
      assert xs[0] !in rest;
      [xs[0]] + rest
  }

  function Unique<T(==,!new)>(xs: seq<T>): (r: seq<T>)
    ensures Distinct(r)
    ensures forall x :: x in r <==> x in xs
  {
    UniqueFrom(xs, [])
  }
}

=== FILE: detector.dfy ===
/** The change-point detector's output, as the digest scripts read it after
    JSON parsing, and the two readings of it that both digest scripts share:
    the direction of a metric and the date key of a detection time. */
module Detector {
  import opened Wrappers
  import opened Strings

  /** A `forward_change_percent` as written by the detector, together with the
      number Python's `float()` reads from it. */
  datatype Percent = Percent(text: string, value: real)

  /** One `{"metric": ..., "forward_change_percent": ...}` object. */
  datatype Change = Change(metric: string, percent: Percent)

  /** One `{"time": ..., "changes": [...]}` object. */
  datatype TimeEntry = TimeEntry(time: string, changes: seq<Change>)

  /** One detector JSON object: test type to its time entries. A Python dict
      keeps its keys in insertion order, so it is a sequence of pairs. */
  type HunterDict = seq<(string, seq<TimeEntry>)>

  /** `d[key]`: the value stored under `key`, if any. */
  function Get(d: HunterDict, key: string): (r: Option<seq<TimeEntry>>)
    ensures r.None? <==> forall i :: 0 <= i < |d| ==> d[i].0 != key
    ensures r.Some? ==> exists i :: 0 <= i < |d| && d[i] == (key, r.value)
    decreases |d|
  {
    if |d| == 0 then None
    else if d[0].0 == key then Some(d[0].1)
    else
      var r := Get(d[1..], key);
      assert forall i :: 1 <= i < |d| ==> d[i] == d[1..][i - 1];
      r
  }

  /** Throughput-like metrics (`totalOps...`, `opRate...`) get worse when they
      go down; every other metric name gets worse when it goes up. */
  predicate IsThroughput(metric: string) {
    StartsWith(metric, "totalOps") || StartsWith(metric, "opRate")
  }

  /** The date a detection time belongs to: `time.replace("-", "_").split(' ')[0]`. */
  function DateKey(time: string): (key: string)
    ensures |key| <= |time|
    ensures forall i :: 0 <= i < |key| ==> key[i] != ' ' && key[i] != '-'
    ensures forall i :: 0 <= i < |key| ==> key[i] == (if time[i] == '-' then '_' else time[i])
    ensures |key| < |time| ==> time[|key|] == ' '
  {
    SplitAtCharHead(ReplaceChar(time, '-', '_'), ' ');
    Split(ReplaceChar(time, '-', '_'), " ")[0]
  }
}

=== FILE: digest.dfy ===
/** The nightly regression digest (src/scripts/create_send_email.py):
    selecting and rendering the detector's bad changes beyond a threshold,
    reconciling them against the ledger of changes already e-mailed, and
    gating and assembling the e-mail body. */
module Digest {
  import opened Wrappers
  import opened Strings
  import opened Collections
  import opened Detector
  import opened EtlUtils

  /** A change worth reporting: bad in its metric's direction and strictly
      beyond the threshold, `-threshold` for throughput-like metrics. */
  predicate IsHighlyBad(c: Change, threshold: real) {
    || (IsThroughput(c.metric) && c.percent.value < -threshold)
    || (!IsThroughput(c.metric) && c.percent.value > threshold)
  }

  /** The opening of a rendered change: which test and when. */
  function Head(testType: string, time: string): string {
    "For the test '" + testType + "' on date and time '" + time + "'"
  }

  /** The commits the test ran on. */
  function ShaPhrase(shas: (string, string)): string {
    " that ran on cassandra Git commit SHA '" + shas.0
      + "' and on fallout-tests Git commit SHA '" + shas.1 + "'"
  }

  /** The commits, and the colon that introduces the verdict on the same line. */
  function Commits(shas: (string, string)): string {
    ShaPhrase(shas) + ": "
  }

  /** The metric and its change, as the detector wrote the percentage. */
  function Verdict(c: Change): string {
    "The metric '" + c.metric + "' changed by " + c.percent.text + "%."
  }

  /** The sentence a kept change is reported as, one line of the e-mail and
      of the ledger. `shas` are the cassandra and fallout-tests commit SHAs
      shown for the change's date. */
  function Render(testType: string, time: string, shas: (string, string), c: Change): (line: string)
    ensures StartsWith(line, Head(testType, time))
    ensures EndsWith(line, Verdict(c) + "\n")
    ensures |line| == |Head(testType, time)| + |Commits(shas)| + |Verdict(c)| + 1
    ensures line[|Head(testType, time)|..|Head(testType, time)| + |Commits(shas)|] == Commits(shas)
  {
    var head, commits, tail := Head(testType, time), Commits(shas), Verdict(c) + "\n";
    ThreeParts(head, commits, tail);
    head + commits + tail
  }

  /** Where each of three concatenated strings sits in the result. */
  lemma ThreeParts(a: string, b: string, c: string)
    ensures StartsWith(a + b + c, a)
    ensures EndsWith(a + b + c, c)
    ensures (a + b + c)[|a|..|a| + |b|] == b
  {
    var s := a + b + c;
    assert s[..|a|] == a;
    assert s[|a|..|a| + |b|] == b;
    assert s[|s| - |c|..] == c;
  }

  /** The commits a rendered line shows can be read back from it: two
      renderings of the same change that differ in the SHAs shown differ. */
  lemma RenderShowsShas(testType: string, time: string, shas: (string, string), shas': (string, string), c: Change)
    requires Render(testType, time, shas, c) == Render(testType, time, shas', c)
    ensures Commits(shas) == Commits(shas')
  {
    var n := |Head(testType, time)|;
    assert Render(testType, time, shas, c)[n..n + |Commits(shas)|] == Commits(shas);
    assert Render(testType, time, shas', c)[n..n + |Commits(shas')|] == Commits(shas');
  }

  /** No character `readlines` ends a line at. */
  predicate NoNewline(s: string) {
    '\n' !in s && '\r' !in s
  }

  /** With fields free of `'\n'` and `'\r'`, a rendering is one
      newline-terminated line, which is what lets `readlines` give it back
      unchanged from the ledger. */
  lemma RenderIsLine(testType: string, time: string, shas: (string, string), c: Change)
    requires NoNewline(testType) && NoNewline(time) && NoNewline(shas.0) && NoNewline(shas.1)
    requires NoNewline(c.metric) && NoNewline(c.percent.text)
    ensures IsLine(Render(testType, time, shas, c))
  {
    HeadNoNewline(testType, time);
    CommitsNoNewline(shas);
    VerdictNoNewline(c);
    var sentence := Head(testType, time) + Commits(shas) + Verdict(c);
    NoNewlineConcat3(Head(testType, time), Commits(shas), Verdict(c));
    LineOfSentence(sentence);
    assert Render(testType, time, shas, c) == sentence + "\n";
  }

  lemma HeadNoNewline(testType: string, time: string)
    requires NoNewline(testType) && NoNewline(time)
    ensures NoNewline(Head(testType, time))
  {
    NoNewlineConcat5("For the test '", testType, "' on date and time '", time, "'");
  }

  lemma ShaPhraseNoNewline(shas: (string, string))
    requires NoNewline(shas.0) && NoNewline(shas.1)
    ensures NoNewline(ShaPhrase(shas))
  {
    CassandraPhraseNoNewline();
    FalloutPhraseNoNewline();
    NoNewlineConcat5(" that ran on cassandra Git commit SHA '", shas.0,
      "' and on fallout-tests Git commit SHA '", shas.1, "'");
  }

  lemma CassandraPhraseNoNewline()
    ensures NoNewline(" that ran on cassandra Git commit SHA '")
  {
    var s := " that ran on cassandra Git commit SHA '";
    assert forall i :: 0 <= i < |s| ==> s[i] != '\n' && s[i] != '\r';
  }

  lemma FalloutPhraseNoNewline()
    ensures NoNewline("' and on fallout-tests Git commit SHA '")
  {
    var s := "' and on fallout-tests Git commit SHA '";
    assert forall i :: 0 <= i < |s| ==> s[i] != '\n' && s[i] != '\r';
  }

  lemma CommitsNoNewline(shas: (string, string))
    requires NoNewline(shas.0) && NoNewline(shas.1)
    ensures NoNewline(Commits(shas))
  {
    ShaPhraseNoNewline(shas);
    NoNewlineConcat3(ShaPhrase(shas), ": ", "");
    assert ShaPhrase(shas) + ": " + "" == Commits(shas);
  }

  lemma VerdictNoNewline(c: Change)
    requires NoNewline(c.metric) && NoNewline(c.percent.text)
    ensures NoNewline(Verdict(c))
  {
    NoNewlineConcat5("The metric '", c.metric, "' changed by ", c.percent.text, "%.");
  }

  lemma LineOfSentence(s: string)
    requires NoNewline(s)
    ensures IsLine(s + "\n")
  {
    assert (s + "\n")[..|s|] == s;
  }

  lemma NoNewlineConcat3(a: string, b: string, c: string)
    requires NoNewline(a) && NoNewline(b) && NoNewline(c)
    ensures NoNewline(a + b + c)
  {
    var s := a + b + c;
    forall i | 0 <= i < |s| ensures s[i] != '\n' && s[i] != '\r' {
      if i < |a| { assert s[i] == a[i]; }
      else if i < |a + b| { assert s[i] == b[i - |a|]; }
      else { assert s[i] == c[i - |a + b|]; }
    }
  }

  lemma NoNewlineConcat5(a: string, b: string, c: string, d: string, e: string)
    requires NoNewline(a) && NoNewline(b) && NoNewline(c) && NoNewline(d) && NoNewline(e)
    ensures NoNewline(a + b + c + d + e)
  {
    var s := a + b + c + d + e;
    forall i | 0 <= i < |s| ensures s[i] != '\n' && s[i] != '\r' {
      if i < |a| { assert s[i] == a[i]; }
      else if i < |a + b| { assert s[i] == b[i - |a|]; }
      else if i < |a + b + c| { assert s[i] == c[i - |a + b|]; }
      else if i < |a + b + c + d| { assert s[i] == d[i - |a + b + c|]; }
      else { assert s[i] == e[i - |a + b + c + d|]; }
    }
  }

  /** The values the two commit-SHA lookups give by date key
      (`get_git_sha_for_cassandra`, `get_git_sha_for_fallout_tests`) once
      they have succeeded; `ShaSource` below has the lookups that may raise. */
  datatype ShaLookup = ShaLookup(cassandra: string -> string, falloutTests: string -> string)

  /** Python's `d.get(key, default)`. */
  function GetOr(cache: map<string, string>, key: string, default: string): string {
    if key in cache then cache[key] else default
  }

  /** The SHAs shown for a date: the cached value if the date is cached (in
      BOTH slots), otherwise the two lookups. */
  function Slots(cache: map<string, string>, key: string, lookup: ShaLookup): (r: (string, string))
    ensures key in cache ==> r.0 == r.1 == cache[key]
    ensures key !in cache ==> r == (lookup.cassandra(key), lookup.falloutTests(key))
  {
    (GetOr(cache, key, lookup.cassandra(key)), GetOr(cache, key, lookup.falloutTests(key)))
  }

  /** One pass of the cache update: the cassandra SHA is stored first, so the
      fallout-tests `get` finds the key present and stores nothing new. */
  function Remember(cache: map<string, string>, key: string, lookup: ShaLookup): (r: map<string, string>)
    ensures r.Keys == cache.Keys + {key}
    ensures key in cache ==> r == cache
    ensures key !in cache ==> r == cache[key := lookup.cassandra(key)]
  {
    var withCassandra := cache[key := GetOr(cache, key, lookup.cassandra(key))];
    withCassandra[key := GetOr(withCassandra, key, lookup.falloutTests(key))]
  }

  /** The cache after the update loop over one dict's time entries. */
  function RememberAll(cache: map<string, string>, entries: seq<TimeEntry>, lookup: ShaLookup): map<string, string>
    decreases |entries|
  {
    if |entries| == 0 then cache
    else RememberAll(Remember(cache, DateKey(entries[0].time), lookup), entries[1..], lookup)
  }

  /** Everything in the cache is the cassandra SHA of its date. */
  predicate HoldsCassandraShas(cache: map<string, string>, lookup: ShaLookup) {
    forall k :: k in cache ==> cache[k] == lookup.cassandra(k)
  }

  /** The update only ever adds the cassandra SHA of each entry's date, and
      adds every entry's date. */
  lemma {:induction false} RememberAllFacts(cache: map<string, string>, entries: seq<TimeEntry>, lookup: ShaLookup)
    requires HoldsCassandraShas(cache, lookup)
    ensures HoldsCassandraShas(RememberAll(cache, entries, lookup), lookup)
    ensures cache.Keys <= RememberAll(cache, entries, lookup).Keys
    ensures forall e :: e in entries ==> DateKey(e.time) in RememberAll(cache, entries, lookup)
    decreases |entries|
  {
    if |entries| > 0 {
      var next := Remember(cache, DateKey(entries[0].time), lookup);
      RememberAllFacts(next, entries[1..], lookup);
      forall e | e in entries ensures DateKey(e.time) in RememberAll(cache, entries, lookup) {
        if e != entries[0] {
          assert e in entries[1..];
        }
      }
    }
  }

  /** The changes of one time entry, each paired with its entry. */
  function EntryPairs(e: TimeEntry): (r: seq<(TimeEntry, Change)>)
    ensures |r| == |e.changes|
    ensures forall p :: p in r <==> p.0 == e && p.1 in e.changes
  {
    var r := seq(|e.changes|, j requires 0 <= j < |e.changes| => (e, e.changes[j]));
    assert forall j :: 0 <= j < |e.changes| ==> r[j] == (e, e.changes[j]);
    r
  }

  /** The list comprehension's iteration order: time entries, then changes. */
  function Candidates(entries: seq<TimeEntry>): (r: seq<(TimeEntry, Change)>)
    ensures forall p :: p in r <==> p.0 in entries && p.1 in p.0.changes
    decreases |entries|
  {
    if |entries| == 0 then []
    else
      EntryPairs(entries[0]) + Candidates(entries[1..])
  }

  /** The comprehension's filter, in order. */
  function KeptCandidates(cands: seq<(TimeEntry, Change)>, threshold: real): (r: seq<(TimeEntry, Change)>)
    ensures forall p :: p in r <==> p in cands && IsHighlyBad(p.1, threshold)
    ensures |r| <= |cands|
    decreases |cands|
  {
    if |cands| == 0 then []
    else if IsHighlyBad(cands[0].1, threshold) then [cands[0]] + KeptCandidates(cands[1..], threshold)
    else KeptCandidates(cands[1..], threshold)
  }

  /** The rendering of a kept change of one dict, under the cache as it stood
      before that dict. */
  function RenderWithCache(testType: string, p: (TimeEntry, Change), lookup: ShaLookup, cache: map<string, string>): string {
    Render(testType, p.0.time, Slots(cache, DateKey(p.0.time), lookup), p.1)
  }

  /** Lines 66-84: the renderings of one dict's kept changes, in order. */
  function DictLines(testType: string, entries: seq<TimeEntry>, threshold: real, lookup: ShaLookup,
                     cache: map<string, string>): seq<string>
  {
    var kept := KeptCandidates(Candidates(entries), threshold);
    seq(|kept|, i requires 0 <= i < |kept| => RenderWithCache(testType, kept[i], lookup, cache))
  }

  /** The set of renderings, and the cache, accumulated over `dicts`. */
  function SelectFrom(dicts: seq<HunterDict>, threshold: real, lookup: ShaLookup,
                      cache: map<string, string>): set<string>
    decreases |dicts|
  {
    if |dicts| == 0 then {}
    else if |dicts[0]| == 0 then SelectFrom(dicts[1..], threshold, lookup, cache)
    else
      var testType := dicts[0][0].0;
      var entries := dicts[0][0].1;
      (set x | x in DictLines(testType, entries, threshold, lookup, cache))
        + SelectFrom(dicts[1..], threshold, lookup, RememberAll(cache, entries, lookup))
  }

  /** The SHA cache as it stands after processing `dicts` (lines 88-94). */
  function CacheAfter(dicts: seq<HunterDict>, lookup: ShaLookup, cache: map<string, string>): map<string, string>
    decreases |dicts|
  {
    if |dicts| == 0 then cache
    else if |dicts[0]| == 0 then CacheAfter(dicts[1..], lookup, cache)
    else CacheAfter(dicts[1..], lookup, RememberAll(cache, dicts[0][0].1, lookup))
  }

  /** `get_list_of_signif_changes_w_context` before its `Counter` step: the
      set of renderings of the kept changes of every non-empty dict. */
  function Select(dicts: seq<HunterDict>, threshold: real, lookup: ShaLookup): (r: set<string>)
    ensures forall x :: x in r <==> exists n, e, c :: IsKeptLine(dicts, threshold, lookup, x, n, e, c)
  {
    SelectIsKeptLines(dicts, threshold, lookup);
    SelectFrom(dicts, threshold, lookup, map[])
  }

  lemma SelectIsKeptLines(dicts: seq<HunterDict>, threshold: real, lookup: ShaLookup)
    ensures forall x :: x in SelectFrom(dicts, threshold, lookup, map[]) <==>
      exists n, e, c :: IsKeptLine(dicts, threshold, lookup, x, n, e, c)
  {
    forall x ensures x in SelectFrom(dicts, threshold, lookup, map[]) <==>
      exists n, e, c :: IsKeptLine(dicts, threshold, lookup, x, n, e, c)
    {
      if x in SelectFrom(dicts, threshold, lookup, map[]) {
        var n, e, c := SelectFromSound(dicts, threshold, lookup, map[], x);
        assert IsKeptLine(dicts, threshold, lookup, x, n, e, c);
      }
      if exists n, e, c :: IsKeptLine(dicts, threshold, lookup, x, n, e, c) {
        var n, e, c :| IsKeptLine(dicts, threshold, lookup, x, n, e, c);
        SelectFromComplete(dicts, threshold, lookup, map[], n, e, c);
      }
    }
  }

  /** The cache seen by dict `n`. */
  function CacheBefore(dicts: seq<HunterDict>, n: nat, lookup: ShaLookup): map<string, string>
    requires n <= |dicts|
  {
    CacheAfter(dicts[..n], lookup, map[])
  }

  /** A kept change of dict `n` is rendered, under the cache dict `n` sees. */
  predicate IsKeptLine(dicts: seq<HunterDict>, threshold: real, lookup: ShaLookup, x: string,
                       n: nat, e: TimeEntry, c: Change)
  {
    && n < |dicts| && |dicts[n]| > 0
    && e in dicts[n][0].1 && c in e.changes && IsHighlyBad(c, threshold)
    && x == RenderWithCache(dicts[n][0].0, (e, c), lookup, CacheBefore(dicts, n, lookup))
  }

  /** Every kept change of a dict is rendered among its lines. */
  lemma DictLinesHas(testType: string, entries: seq<TimeEntry>, threshold: real, lookup: ShaLookup,
                     cache: map<string, string>, p: (TimeEntry, Change))
    requires p in KeptCandidates(Candidates(entries), threshold)
    ensures RenderWithCache(testType, p, lookup, cache) in DictLines(testType, entries, threshold, lookup, cache)
  {
    var kept := KeptCandidates(Candidates(entries), threshold);
    var i :| 0 <= i < |kept| && kept[i] == p;
    assert DictLines(testType, entries, threshold, lookup, cache)[i] == RenderWithCache(testType, p, lookup, cache);
  }

  /** Every line of a dict renders one of its kept changes. */
  lemma DictLinesFrom(testType: string, entries: seq<TimeEntry>, threshold: real, lookup: ShaLookup,
                      cache: map<string, string>, x: string) returns (p: (TimeEntry, Change))
    requires x in DictLines(testType, entries, threshold, lookup, cache)
    ensures p in KeptCandidates(Candidates(entries), threshold)
    ensures x == RenderWithCache(testType, p, lookup, cache)
  {
    var kept := KeptCandidates(Candidates(entries), threshold);
    var lines := DictLines(testType, entries, threshold, lookup, cache);
    var i :| 0 <= i < |lines| && lines[i] == x;
    p := kept[i];
  }

  /** Shifting the dict index by the first dict. */
  lemma CacheShift(dicts: seq<HunterDict>, n: nat, lookup: ShaLookup, cache: map<string, string>)
    requires 0 < n <= |dicts|
    ensures CacheAfter(dicts[..n], lookup, cache)
         == CacheAfter(dicts[1..][..n - 1], lookup,
              if |dicts[0]| == 0 then cache else RememberAll(cache, dicts[0][0].1, lookup))
  {
    assert dicts[..n][1..] == dicts[1..][..n - 1];
  }

  /** Completeness, generalised over the starting cache. */
  lemma {:induction false} SelectFromComplete(dicts: seq<HunterDict>, threshold: real, lookup: ShaLookup,
                                              cache: map<string, string>, n: nat, e: TimeEntry, c: Change)
    requires n < |dicts| && |dicts[n]| > 0
    requires e in dicts[n][0].1 && c in e.changes && IsHighlyBad(c, threshold)
    ensures RenderWithCache(dicts[n][0].0, (e, c), lookup, CacheAfter(dicts[..n], lookup, cache))
            in SelectFrom(dicts, threshold, lookup, cache)
    decreases n
  {
    if n == 0 {
      assert dicts[..0] == [];
      var x := RenderWithCache(dicts[0][0].0, (e, c), lookup, cache);
      assert (e, c) in KeptCandidates(Candidates(dicts[0][0].1), threshold);
      DictLinesHas(dicts[0][0].0, dicts[0][0].1, threshold, lookup, cache, (e, c));
    } else {
      var next := if |dicts[0]| == 0 then cache else RememberAll(cache, dicts[0][0].1, lookup);
      SelectFromComplete(dicts[1..], threshold, lookup, next, n - 1, e, c);
      CacheShift(dicts, n, lookup, cache);
    }
  }

  /** Soundness, generalised over the starting cache. */
  lemma {:induction false} SelectFromSound(dicts: seq<HunterDict>, threshold: real, lookup: ShaLookup,
                                           cache: map<string, string>, x: string)
    returns (n: nat, e: TimeEntry, c: Change)
    requires x in SelectFrom(dicts, threshold, lookup, cache)
    ensures n < |dicts| && |dicts[n]| > 0
    ensures e in dicts[n][0].1 && c in e.changes && IsHighlyBad(c, threshold)
    ensures x == RenderWithCache(dicts[n][0].0, (e, c), lookup, CacheAfter(dicts[..n], lookup, cache))
    decreases |dicts|
  {
    var next := if |dicts[0]| == 0 then cache else RememberAll(cache, dicts[0][0].1, lookup);
    if |dicts[0]| > 0 && x in DictLines(dicts[0][0].0, dicts[0][0].1, threshold, lookup, cache) {
      var p := DictLinesFrom(dicts[0][0].0, dicts[0][0].1, threshold, lookup, cache, x);
      n, e, c := 0, p.0, p.1;
      assert dicts[..0] == [];
    } else {
      var m;
      m, e, c := SelectFromSound(dicts[1..], threshold, lookup, next, x);
      n := m + 1;
      CacheShift(dicts, n, lookup, cache);
    }
  }

  /** The selection is exactly the kept changes' renderings: every kept change
      of every non-empty dict (its first key only) is rendered ... */
  lemma SelectComplete(dicts: seq<HunterDict>, threshold: real, lookup: ShaLookup,
                       n: nat, e: TimeEntry, c: Change)
    requires n < |dicts| && |dicts[n]| > 0
    requires e in dicts[n][0].1 && c in e.changes && IsHighlyBad(c, threshold)
    ensures IsKeptLine(dicts, threshold, lookup,
              RenderWithCache(dicts[n][0].0, (e, c), lookup, CacheBefore(dicts, n, lookup)), n, e, c)
    ensures RenderWithCache(dicts[n][0].0, (e, c), lookup, CacheBefore(dicts, n, lookup))
            in Select(dicts, threshold, lookup)
  {
    SelectFromComplete(dicts, threshold, lookup, map[], n, e, c);
  }

  /** ... and every selected line is one of them. */
  lemma SelectSound(dicts: seq<HunterDict>, threshold: real, lookup: ShaLookup, x: string)
    returns (n: nat, e: TimeEntry, c: Change)
    requires x in Select(dicts, threshold, lookup)
    ensures IsKeptLine(dicts, threshold, lookup, x, n, e, c)
  {
    n, e, c := SelectFromSound(dicts, threshold, lookup, map[], x);
  }

  /** The cache dict `n` sees holds, for every date of an earlier non-empty
      dict, that date's CASSANDRA SHA. */
  lemma {:induction false} CacheAfterFacts(dicts: seq<HunterDict>, lookup: ShaLookup, cache: map<string, string>)
    requires HoldsCassandraShas(cache, lookup)
    ensures HoldsCassandraShas(CacheAfter(dicts, lookup, cache), lookup)
    ensures cache.Keys <= CacheAfter(dicts, lookup, cache).Keys
    ensures forall m, e :: 0 <= m < |dicts| && |dicts[m]| > 0 && e in dicts[m][0].1 ==>
      DateKey(e.time) in CacheAfter(dicts, lookup, cache)
    decreases |dicts|
  {
    if |dicts| > 0 {
      var next := if |dicts[0]| == 0 then cache else RememberAll(cache, dicts[0][0].1, lookup);
      if |dicts[0]| > 0 {
        RememberAllFacts(cache, dicts[0][0].1, lookup);
      }
      CacheAfterFacts(dicts[1..], lookup, next);
      forall m, e | 0 <= m < |dicts| && |dicts[m]| > 0 && e in dicts[m][0].1
        ensures DateKey(e.time) in CacheAfter(dicts, lookup, cache)
      {
        if m > 0 {
          assert dicts[1..][m - 1] == dicts[m];
        }
      }
    }
  }

  /** The first dict sees an empty cache: its SHA slots are the two lookups. */
  lemma FirstDictSlots(dicts: seq<HunterDict>, key: string, lookup: ShaLookup)
    requires |dicts| > 0
    ensures Slots(CacheBefore(dicts, 0, lookup), key, lookup)
         == (lookup.cassandra(key), lookup.falloutTests(key))
  {
    assert dicts[..0] == [];
  }

  /** The caching quirk: a later dict whose date already appeared in an
      earlier non-empty dict shows the cached CASSANDRA SHA in both slots,
      so the fallout-tests slot holds the cassandra SHA. */
  lemma SeenDateShowsCassandraTwice(dicts: seq<HunterDict>, lookup: ShaLookup, n: nat, m: nat, e: TimeEntry)
    requires m < n <= |dicts| && |dicts[m]| > 0 && e in dicts[m][0].1
    ensures Slots(CacheBefore(dicts, n, lookup), DateKey(e.time), lookup)
         == (lookup.cassandra(DateKey(e.time)), lookup.cassandra(DateKey(e.time)))
  {
    CacheAfterFacts(dicts[..n], lookup, map[]);
    assert dicts[..n][m] == dicts[m];
  }

  /** The caching quirk reaches the e-mail: a kept change of a later dict,
      dated on a day an earlier non-empty dict already had, is rendered with
      the cassandra SHA in both commit slots. */
  lemma SeenDateRendersCassandraTwice(dicts: seq<HunterDict>, lookup: ShaLookup, n: nat, m: nat,
                                      e: TimeEntry, testType: string, p: (TimeEntry, Change))
    requires m < n <= |dicts| && |dicts[m]| > 0 && e in dicts[m][0].1
    requires DateKey(p.0.time) == DateKey(e.time)
    ensures RenderWithCache(testType, p, lookup, CacheBefore(dicts, n, lookup))
         == Render(testType, p.0.time, (lookup.cassandra(DateKey(e.time)), lookup.cassandra(DateKey(e.time))), p.1)
  {
    SeenDateShowsCassandraTwice(dicts, lookup, n, m, e);
  }

  /** The two commit-SHA lookups as the script calls them. Both read the file
      system and may raise: `get_git_sha_for_cassandra` raises `IndexError`
      on a log without a SHA marker (`EtlUtils.CassandraSha`). */
  datatype ShaSource = ShaSource(cassandra: string -> Result<string>, falloutTests: string -> Result<string>)

  /** One lookup call: the cassandra or the fallout-tests lookup of a date key. */
  datatype Call = Call(cassandra: bool, key: string)

  function Perform(src: ShaSource, call: Call): Result<string> {
    if call.cassandra then src.cassandra(call.key) else src.falloutTests(call.key)
  }

  /** Both lookups of an entry's date, cassandra first. Every `get` at lines
      70, 72 and 91-94 evaluates its default argument, cached date or not. */
  function BothCalls(time: string): seq<Call> {
    [Call(true, DateKey(time)), Call(false, DateKey(time))]
  }

  /** The lookups the comprehension makes: two per kept change, in order. */
  function RenderCalls(kept: seq<(TimeEntry, Change)>): seq<Call>
    decreases |kept|
  {
    if |kept| == 0 then [] else BothCalls(kept[0].0.time) + RenderCalls(kept[1..])
  }

  /** The lookups the cache update makes: two per time entry, in order. */
  function UpdateCalls(entries: seq<TimeEntry>): seq<Call>
    decreases |entries|
  {
    if |entries| == 0 then [] else BothCalls(entries[0].time) + UpdateCalls(entries[1..])
  }

  /** Every lookup the selection makes, in call order: for each non-empty
      dict, the rendering's calls and then the cache update's. */
  function AllCalls(dicts: seq<HunterDict>, threshold: real): seq<Call>
    decreases |dicts|
  {
    if |dicts| == 0 then []
    else if |dicts[0]| == 0 then AllCalls(dicts[1..], threshold)
    else
      RenderCalls(KeptCandidates(Candidates(dicts[0][0].1), threshold)) + UpdateCalls(dicts[0][0].1)
        + AllCalls(dicts[1..], threshold)
  }

  /** The position of the first call that raises, if any. */
  function FirstFailing(calls: seq<Call>, src: ShaSource): (r: Option<nat>)
    ensures r.None? <==> forall i :: 0 <= i < |calls| ==> Perform(src, calls[i]).Ok?
    ensures r.Some? ==> r.value < |calls| && Perform(src, calls[r.value]).Err?
    ensures r.Some? ==> forall i :: 0 <= i < r.value ==> Perform(src, calls[i]).Ok?
    decreases |calls|
  {
    if |calls| == 0 then None
    else if Perform(src, calls[0]).Err? then Some(0)
    else
      match FirstFailing(calls[1..], src)
      case None => None
      case Some(i) => Some(i + 1)
  }

  /** The lookups' values where they succeed; the selection only reads them
      once every call has succeeded. */
  function Resolved(src: ShaSource): ShaLookup {
    ShaLookup(
      k => if src.cassandra(k).Ok? then src.cassandra(k).value else "",
      k => if src.falloutTests(k).Ok? then src.falloutTests(k).value else "")
  }

  /** The lookups of a time entry's date are among the cache update's calls. */
  lemma {:induction false} UpdateCallsHas(entries: seq<TimeEntry>, e: TimeEntry)
    requires e in entries
    ensures Call(true, DateKey(e.time)) in UpdateCalls(entries)
    ensures Call(false, DateKey(e.time)) in UpdateCalls(entries)
    decreases |entries|
  {
    if entries[0] != e {
      assert e in entries[1..];
      UpdateCallsHas(entries[1..], e);
    }
  }

  /** ... and so among the selection's calls, for every non-empty dict. */
  lemma {:induction false} AllCallsHas(dicts: seq<HunterDict>, threshold: real, n: nat, e: TimeEntry)
    requires n < |dicts| && |dicts[n]| > 0 && e in dicts[n][0].1
    ensures Call(true, DateKey(e.time)) in AllCalls(dicts, threshold)
    ensures Call(false, DateKey(e.time)) in AllCalls(dicts, threshold)
    decreases n
  {
    if n == 0 {
      UpdateCallsHas(dicts[0][0].1, e);
    } else {
      assert dicts[1..][n - 1] == dicts[n];
      AllCallsHas(dicts[1..], threshold, n - 1, e);
    }
  }

  /** Lines 47-94 with raising lookups: the first lookup that raises aborts
      the whole selection with its exception, whether or not its date has a
      kept change; otherwise every date of every non-empty dict was looked up
      successfully and the selection is built from those values. */
  function SelectChecked(dicts: seq<HunterDict>, threshold: real, src: ShaSource): (r: Result<set<string>>)
    ensures r.Err? <==> exists i :: 0 <= i < |AllCalls(dicts, threshold)| && Perform(src, AllCalls(dicts, threshold)[i]).Err?
    ensures r.Err? ==> exists i :: (0 <= i < |AllCalls(dicts, threshold)|
      && Perform(src, AllCalls(dicts, threshold)[i]) == Err(r.error)
      && forall j :: 0 <= j < i ==> Perform(src, AllCalls(dicts, threshold)[j]).Ok?)
    ensures r.Ok? ==> forall n, e :: 0 <= n < |dicts| && |dicts[n]| > 0 && e in dicts[n][0].1 ==>
      src.cassandra(DateKey(e.time)).Ok? && src.falloutTests(DateKey(e.time)).Ok?
    ensures r.Ok? ==> r.value == Select(dicts, threshold, Resolved(src))
  {
    var calls := AllCalls(dicts, threshold);
    match FirstFailing(calls, src)
    case Some(i) => Err(Perform(src, calls[i]).error)
    case None =>
      AllLookupsOk(dicts, threshold, src);
      Ok(Select(dicts, threshold, Resolved(src)))
  }

  lemma AllLookupsOk(dicts: seq<HunterDict>, threshold: real, src: ShaSource)
    requires forall i :: 0 <= i < |AllCalls(dicts, threshold)| ==> Perform(src, AllCalls(dicts, threshold)[i]).Ok?
    ensures forall n, e :: 0 <= n < |dicts| && |dicts[n]| > 0 && e in dicts[n][0].1 ==>
      src.cassandra(DateKey(e.time)).Ok? && src.falloutTests(DateKey(e.time)).Ok?
  {
    forall n, e | 0 <= n < |dicts| && |dicts[n]| > 0 && e in dicts[n][0].1
      ensures src.cassandra(DateKey(e.time)).Ok? && src.falloutTests(DateKey(e.time)).Ok?
    {
      var calls := AllCalls(dicts, threshold);
      AllCallsHas(dicts, threshold, n, e);
      var i :| 0 <= i < |calls| && calls[i] == Call(true, DateKey(e.time));
      var j :| 0 <= j < |calls| && calls[j] == Call(false, DateKey(e.time));
      assert Perform(src, calls[i]).Ok? && Perform(src, calls[j]).Ok?;
    }
  }

  /** Lines 96-101 over an enumeration of the selection: `Counter` counts each
      element of a set once, so the `val == 1` filter keeps every rendering,
      each exactly once; duplicate renderings collapse and are never dropped.
      A raising lookup propagates. */
  method SignificantChanges(dicts: seq<HunterDict>, threshold: real, src: ShaSource)
    returns (r: Result<seq<string>>)
    ensures r.Err? <==> SelectChecked(dicts, threshold, src).Err?
    ensures r.Err? ==> r.error == SelectChecked(dicts, threshold, src).error
    ensures r.Ok? ==> Distinct(r.value)
    ensures r.Ok? ==> forall x :: x in r.value <==> x in SelectChecked(dicts, threshold, src).value
  {
    var selection := SelectChecked(dicts, threshold, src);
    if selection.Err? {
      return Err(selection.error);
    }
    var order := Enumerate(selection.value);
    CountedOnceOfDistinct(order);
    var lines := CountedOnce(order);
    return Ok(lines);
  }

  /** The changes of a batch not yet in the ledger (line 154). */
  function NewChanges(batch: seq<string>, initialLines: seq<string>): (r: set<string>)
    ensures forall x :: x in r <==> x in batch && x !in initialLines
  {
    (set x | x in batch) - (set x | x in initialLines)
  }

  /** `create_file_w_regressions_sent_by_email`: the new changes, joined in
      the set's iteration order `order`, are returned and appended to the
      ledger file; with no new change, `None` and the ledger is untouched. */
  method CreateLedgerEntry(badChanges: seq<string>, initialLines: seq<string>, ledger: string)
    returns (newText: Option<string>, ledger': string, order: seq<string>)
    ensures Distinct(order)
    ensures forall x :: x in order <==> x in badChanges && x !in initialLines
    ensures newText.None? <==> |order| == 0
    ensures newText.None? ==> ledger' == ledger
    ensures newText.Some? ==> newText.value == Concat(order) && ledger' == ledger + newText.value
    ensures (forall x :: x in badChanges ==> x in initialLines) ==> newText.None? && order == []
  {
    var unseen := NewChanges(badChanges, initialLines);
    if forall x :: x in badChanges ==> x in initialLines {
      assert unseen == {};
    }
    order := Enumerate(unseen);
    if unseen == {} {
      newText := None;
      ledger' := ledger;
    } else {
      var text := Concat(order);
      ledger' := ledger + text;
      newText := Some(text);
    }
  }

  /** The ledger as this program writes it: empty, or ending a line. */
  predicate LedgerEndsLine(ledger: string) {
    |ledger| == 0 || ledger[|ledger| - 1] == '\n'
  }

  /** Idempotence: once the new single-line changes are appended, reading the
      ledger back gives the old lines followed by exactly those changes, so
      reconciling the same batch again finds nothing new. */
  lemma ReconcileIdempotent(batch: seq<string>, ledger: string, order: seq<string>)
    requires LedgerEndsLine(ledger)
    requires forall x :: x in batch ==> IsLine(x)
    requires forall x :: x in order <==> x in NewChanges(batch, ReadLines(ledger))
    ensures ReadLines(ledger + Concat(order)) == ReadLines(ledger) + order
    ensures LedgerEndsLine(ledger + Concat(order))
    ensures NewChanges(batch, ReadLines(ledger + Concat(order))) == {}
  {
    assert forall k :: 0 <= k < |order| ==> IsLine(order[k]) by {
      forall k | 0 <= k < |order| ensures IsLine(order[k]) {
        assert order[k] in order;
      }
    }
    ReadLinesConcat(ledger, order);
    LedgerEndsLineAppend(ledger, order);
  }

  lemma {:induction false} LedgerEndsLineAppend(ledger: string, order: seq<string>)
    requires LedgerEndsLine(ledger)
    requires forall k :: 0 <= k < |order| ==> IsLine(order[k])
    ensures LedgerEndsLine(ledger + Concat(order))
    decreases |order|
  {
    if |order| > 0 {
      var rest := order[1..];
      LedgerEndsLineAppend(ledger + order[0], rest);
      assert ledger + Concat(order) == (ledger + order[0]) + Concat(rest);
    }
  }

  /** The e-mail marker: the blank lines between greeting and sign-off. */
  const MARKER := "\n\n\n"

  /** `create_email_w_hunter_regressions`: the new changes are inserted at
      every `'\n\n\n'` of the template; without one they are lost. */
  function EmailBody(template: string, newChanges: string): (body: string)
    ensures !Contains(template, MARKER) ==> body == template
  {
    Replace(template, MARKER, "\n\n" + newChanges + "\n")
  }

  /** With a template holding the marker once, the body is the template with
      the changes between the two blank lines. */
  lemma EmailBodyInsertsOnce(pre: string, post: string, newChanges: string)
    requires !Contains(pre + "\n\n", MARKER) && !Contains(post, MARKER)
    ensures EmailBody(pre + MARKER + post, newChanges) == pre + "\n\n" + newChanges + "\n" + post
  {
    assert MARKER[..|MARKER| - 1] == "\n\n";
    ReplaceSingle(pre, MARKER, post, "\n\n" + newChanges + "\n");
  }

  /** The e-mail subject of `read_txt_send_email`. */
  function Subject(thresholdText: string): (s: string)
    ensures StartsWith(s, "The most significant (+/- " + thresholdText + "%)")
    ensures EndsWith(s, "performance regressions detected by hunter")
    ensures |s| == |"The most significant (+/- " + thresholdText + "%)"| + 1
                   + |"performance regressions detected by hunter"|
    ensures s[|"The most significant (+/- " + thresholdText + "%)"|] == ' '
  {
    var head := "The most significant (+/- " + thresholdText + "%)";
    var tail := "performance regressions detected by hunter";
    assert (head + " " + tail)[..|head|] == head;
    assert (head + " " + tail)[|head| + 1..] == tail;
    head + " " + tail
  }

  /** Lines appearing in some batch of `batches[..k]`. */
  predicate InSomeBatch(batches: seq<seq<string>>, k: nat, x: string)
    requires k <= |batches|
  {
    exists b :: 0 <= b < k && x in batches[b]
  }

  /** Every change of every batch is a single newline-terminated line. */
  predicate BatchesAreLines(batches: seq<seq<string>>) {
    forall b, x :: 0 <= b < |batches| && x in batches[b] ==> IsLine(x)
  }

  /** Every change of every batch is already a line of the ledger. */
  predicate AllInLedger(batches: seq<seq<string>>, ledger: string) {
    forall b, x :: 0 <= b < |batches| && x in batches[b] ==> x in ReadLines(ledger)
  }

  /** Lines 206-209 for one detector file, given the objects of its JSON
      lines: the last line's dictionary is read (an empty file raises
      `IndexError`), then the selection of its changes, which raises when a
      SHA lookup does. */
  method FileChanges(objects: seq<HunterDict>, threshold: real, src: ShaSource)
    returns (r: Result<seq<string>>)
    ensures |objects| == 0 ==> r == Err(IndexError)
    ensures |objects| > 0 ==> var dicts := [objects[|objects| - 1]];
      && (r.Err? <==> SelectChecked(dicts, threshold, src).Err?)
      && (r.Err? ==> r.error == SelectChecked(dicts, threshold, src).error)
      && (r.Ok? ==> (Distinct(r.value)
            && forall x :: x in r.value <==> x in SelectChecked(dicts, threshold, src).value))
  {
    var dicts := GetListOfDictFromJson(objects);
    if dicts.Err? {
      return Err(dicts.error);
    }
    r := SignificantChanges(dicts.value, threshold, src);
  }

  /** The changes of the files whose selection succeeded before the first one
      that raised, in file order: the files `main` gets to reconcile. */
  function Completed(batches: seq<Result<seq<string>>>): (done: seq<seq<string>>)
    ensures |done| <= |batches|
    ensures forall b :: 0 <= b < |done| ==> batches[b] == Ok(done[b])
    ensures |done| < |batches| ==> batches[|done|].Err?
    decreases |batches|
  {
    if |batches| == 0 || batches[0].Err? then []
    else
      var rest := Completed(batches[1..]);
      assert forall b :: 1 <= b < |batches| ==> batches[1..][b - 1] == batches[b];
      [batches[0].value] + rest
  }

  /** `main`: each detector file's selection (`FileChanges`) is reconciled in
      turn against the ledger as re-read after the previous file's append;
      the collected new text, with leading newline characters stripped, gates
      the e-mail. `appended` is every line written to the ledger, in order.
      A selection that raises aborts the run there: the lines the earlier
      files appended stay in the ledger, and no e-mail is sent. */
  method RunDigest(batches: seq<Result<seq<string>>>, ledger: string, newlineSymbol: string, template: string)
    returns (raised: Option<PyError>, body: Option<string>, ledger': string, appended: seq<string>, digest: string)
    ensures ledger' == ledger + Concat(appended)
    ensures raised.Some? <==> |Completed(batches)| < |batches|
    ensures raised.Some? ==> raised.value == batches[|Completed(batches)|].error
    ensures raised.None? ==> digest == LStrip(Concat(appended), CharSet(newlineSymbol))
    ensures body.Some? <==> raised.None? && digest != ""
    ensures body.Some? ==> body.value == EmailBody(template, digest)
    ensures (LedgerEndsLine(ledger) && BatchesAreLines(Completed(batches))) ==>
      && Distinct(appended)
      && ReadLines(ledger') == ReadLines(ledger) + appended
      && (forall x :: x in appended <==>
            InSomeBatch(Completed(batches), |Completed(batches)|, x) && x !in ReadLines(ledger))
    ensures (LedgerEndsLine(ledger) && BatchesAreLines(Completed(batches))
             && AllInLedger(Completed(batches), ledger)) ==>
      body.None? && ledger' == ledger
  {
    var done := Completed(batches);
    var text;
    ledger', appended, text := ReconcileAll(done, ledger);
    if LedgerEndsLine(ledger) && BatchesAreLines(done) {
      ReconciledMeans(done, ledger, ledger', appended);
    }
    if |done| < |batches| {
      raised, body, digest := Some(batches[|done|].error), None, "";
      return;
    }
    raised := None;
    digest := LStrip(text, CharSet(newlineSymbol));
    if digest != "" {
      body := Some(EmailBody(template, digest));
    } else {
      body := None;
    }
  }

  /** The file loop of `main` (lines 204-216) over the selections that
      succeeded: `text` joins the non-empty new texts the files returned. */
  method ReconcileAll(done: seq<seq<string>>, ledger: string)
    returns (ledger': string, appended: seq<string>, text: string)
    ensures ledger' == ledger + Concat(appended)
    ensures text == Concat(appended)
    ensures (LedgerEndsLine(ledger) && BatchesAreLines(done)) ==> Reconciled(done, |done|, ledger, ledger', appended)
    ensures AllInLedger(done, ledger) ==> appended == []
  {
    var texts: seq<string> := [];
    ledger' := ledger;
    appended := [];
    ghost var wellFormed := LedgerEndsLine(ledger) && BatchesAreLines(done);
    for k := 0 to |done|
      invariant ledger' == ledger + Concat(appended)
      invariant Concat(texts) == Concat(appended)
      invariant wellFormed ==> Reconciled(done, k, ledger, ledger', appended)
      invariant AllInLedger(done, ledger) ==> appended == []
    {
      var newText, next, order := CreateLedgerEntry(done[k], ReadLines(ledger'), ledger');
      if newText.Some? && newText.value != "" {
        ConcatAppend(texts, [newText.value]);
        texts := texts + [newText.value];
      }
      assert next == ledger' + Concat(order);
      if AllInLedger(done, ledger) && appended == [] {
        assert ledger' == ledger;
        AllInLedgerBatch(done, k, ledger);
      }
      if wellFormed {
        ReconcileStep(done, k, ledger, ledger', appended, order);
      }
      ConcatAppend(appended, order);
      appended := appended + order;
      ledger' := next;
    }
    text := Concat(texts);
  }

  /** What holds of a well-formed ledger after the first `k` files: it still
      ends a line, and its lines are the old ones followed by `appended`, the
      new lines of those files, each once. */
  ghost predicate Reconciled(batches: seq<seq<string>>, k: nat, ledger: string, current: string, appended: seq<string>)
    requires k <= |batches|
  {
    && Distinct(appended)
    && LedgerEndsLine(current)
    && ReadLines(current) == ReadLines(ledger) + appended
    && (forall x :: x in appended <==> InSomeBatch(batches, k, x) && x !in ReadLines(ledger))
  }

  lemma ReconciledMeans(done: seq<seq<string>>, ledger: string, current: string, appended: seq<string>)
    requires Reconciled(done, |done|, ledger, current, appended)
    ensures Distinct(appended)
    ensures ReadLines(current) == ReadLines(ledger) + appended
    ensures forall x :: x in appended <==> InSomeBatch(done, |done|, x) && x !in ReadLines(ledger)
  {
  }

  lemma AllInLedgerBatch(batches: seq<seq<string>>, k: nat, ledger: string)
    requires k < |batches| && AllInLedger(batches, ledger)
    ensures forall x :: x in batches[k] ==> x in ReadLines(ledger)
  {
  }

  /** Reconciling one more file keeps `Reconciled`. */
  lemma ReconcileStep(batches: seq<seq<string>>, k: nat, ledger: string, current: string,
                      appended: seq<string>, order: seq<string>)
    requires k < |batches| && BatchesAreLines(batches)
    requires Reconciled(batches, k, ledger, current, appended)
    requires Distinct(order)
    requires forall x :: x in order <==> x in batches[k] && x !in ReadLines(current)
    ensures Reconciled(batches, k + 1, ledger, current + Concat(order), appended + order)
  {
    DigestStep(batches, k, ledger, current, appended, order);
    DigestStepLines(batches, k, ledger, current, appended, order);
  }

  /** One file's reconciliation keeps the ledger's lines equal to the old lines
      followed by everything appended so far. */
  lemma DigestStep(batches: seq<seq<string>>, k: nat, ledger: string, current: string,
                   appended: seq<string>, order: seq<string>)
    requires k < |batches| && BatchesAreLines(batches)
    requires LedgerEndsLine(current) && ReadLines(current) == ReadLines(ledger) + appended
    requires forall x :: x in order <==> x in batches[k] && x !in ReadLines(current)
    ensures LedgerEndsLine(current + Concat(order))
    ensures ReadLines(current + Concat(order)) == ReadLines(ledger) + (appended + order)
  {
    BatchIsLines(batches, k);
    var before := ReadLines(ledger);
    var lines := ReadLines(current);
    OrderIsNewChanges(batches[k], lines, order);
    ReconcileIdempotent(batches[k], current, order);
    assert ReadLines(current + Concat(order)) == lines + order;
    assert lines + order == before + (appended + order);
  }

  /** ... and the lines appended so far are exactly those of the files seen
      that were not in the old ledger, without repetition. */
  lemma DigestStepLines(batches: seq<seq<string>>, k: nat, ledger: string, current: string,
                        appended: seq<string>, order: seq<string>)
    requires k < |batches|
    requires ReadLines(current) == ReadLines(ledger) + appended
    requires Distinct(appended)
    requires forall x :: x in appended <==> InSomeBatch(batches, k, x) && x !in ReadLines(ledger)
    requires Distinct(order)
    requires forall x :: x in order <==> x in batches[k] && x !in ReadLines(current)
    ensures Distinct(appended + order)
    ensures forall x :: x in appended + order <==> InSomeBatch(batches, k + 1, x) && x !in ReadLines(ledger)
  {
    forall x ensures x in appended + order <==> InSomeBatch(batches, k + 1, x) && x !in ReadLines(ledger) {
      InSomeBatchStep(batches, k, x);
    }
    AppendDistinct(appended, order);
  }

  lemma BatchIsLines(batches: seq<seq<string>>, k: nat)
    requires k < |batches| && BatchesAreLines(batches)
    ensures forall x :: x in batches[k] ==> IsLine(x)
  {
  }

  lemma OrderIsNewChanges(batch: seq<string>, lines: seq<string>, order: seq<string>)
    requires forall x :: x in order <==> x in batch && x !in lines
    ensures forall x :: x in order <==> x in NewChanges(batch, lines)
  {
  }

  /** The batches seen after one more file. */
  lemma InSomeBatchStep(batches: seq<seq<string>>, k: nat, x: string)
    requires k < |batches|
    ensures InSomeBatch(batches, k + 1, x) <==> InSomeBatch(batches, k, x) || x in batches[k]
  {
    if InSomeBatch(batches, k + 1, x) && !InSomeBatch(batches, k, x) {
      var b :| 0 <= b < k + 1 && x in batches[b];
      assert b == k;
    }
  }

  lemma AppendDistinct(xs: seq<string>, ys: seq<string>)
    requires Distinct(xs) && Distinct(ys)
    requires forall x :: x in ys ==> x !in xs
    ensures Distinct(xs + ys)
  {
    forall i, j | 0 <= i < j < |xs + ys| ensures (xs + ys)[i] != (xs + ys)[j] {
      if i < |xs| && j >= |xs| {
        assert (xs + ys)[j] in ys;
      }
    }
  }
}

=== FILE: etl_utils.dfy ===
/** The record-level helpers of the CSV pipeline (src/scripts/utils.py):
    picking and merging the phase's stats entries, suffixing and adding
    columns, reading the commit SHAs out of log text, and keeping the last
    detector result. Files, `glob` and pandas are replaced by the values they
    produce: a file is its text, a data frame is its column names and rows. */
module EtlUtils {
  import opened Wrappers
  import opened Strings
  import opened Collections

  /** A JSON value as the stats entries and data-frame cells hold them;
      `Missing` is pandas' NaN. */
  datatype Value = Str(s: string) | Num(n: real) | Items(items: seq<Value>) | Missing

  /** One stats entry: a JSON object. */
  type Record = map<string, Value>

  // ---------------------------------------------------------------- get_relevant_dict

  /** Python's `needle in v`: a substring test on a string, a membership test
      on a list, and a `TypeError` on anything else. */
  function In(needle: string, v: Value): (r: Result<bool>)
    ensures r.Err? <==> !(v.Str? || v.Items?)
    ensures v.Str? ==> r == Ok(exists i: nat :: OccursAt(v.s, needle, i))
    ensures v.Items? ==> r == Ok(exists i :: 0 <= i < |v.items| && v.items[i] == Str(needle))
  {
    match v
    case Str(s) =>
      ContainsIffOccurs(s, needle);
      Ok(Contains(s, needle))
    case Items(xs) => Ok(Str(needle) in xs)
    case _ => Err(TypeError)
  }

  /** The two nested tests on an entry's `test` field. */
  function IsRelevant(entry: Record, phase: string): Result<bool> {
    if "test" !in entry then Err(KeyError("test"))
    else
      var success :- In("result-success", entry["test"]);
      if success then In(phase, entry["test"]) else Ok(false)
  }

  /** An entry that passes both tests without raising. */
  predicate Relevant(entry: Record, phase: string) {
    IsRelevant(entry, phase) == Ok(true)
  }

  /** The loop of `get_relevant_dict`: `acc.update(entry)` for each relevant
      entry, left to right, stopping at the first entry that raises. */
  function MergeRelevant(stats: seq<Record>, phase: string, acc: Record): Result<Record>
    decreases |stats|
  {
    if |stats| == 0 then Ok(acc)
    else
      var relevant :- IsRelevant(stats[0], phase);
      MergeRelevant(stats[1..], phase, if relevant then acc + stats[0] else acc)
  }

  /** `get_relevant_dict(data, phase)`; `stats` is `data['stats']`, `None`
      when the key is missing. */
  function GetRelevantDict(stats: Option<seq<Record>>, phase: string): (r: Result<Record>)
    ensures r.Err? <==> stats.None? || exists i :: 0 <= i < |stats.value| && IsRelevant(stats.value[i], phase).Err?
  {
    if stats.None? then Err(KeyError("stats"))
    else
      MergeRelevantErr(stats.value, phase, map[]);
      MergeRelevant(stats.value, phase, map[])
  }

  lemma {:induction false} MergeRelevantErr(stats: seq<Record>, phase: string, acc: Record)
    ensures MergeRelevant(stats, phase, acc).Err?
        <==> exists i :: 0 <= i < |stats| && IsRelevant(stats[i], phase).Err?
    decreases |stats|
  {
    if |stats| > 0 {
      var next := if IsRelevant(stats[0], phase) == Ok(true) then acc + stats[0] else acc;
      MergeRelevantErr(stats[1..], phase, next);
      if exists i :: 0 <= i < |stats| && IsRelevant(stats[i], phase).Err? {
        var i :| 0 <= i < |stats| && IsRelevant(stats[i], phase).Err?;
        if i > 0 {
          assert stats[1..][i - 1] == stats[i];
        }
      }
      if exists i :: 0 <= i < |stats[1..]| && IsRelevant(stats[1..][i], phase).Err? {
        var i :| 0 <= i < |stats[1..]| && IsRelevant(stats[1..][i], phase).Err?;
        assert stats[i + 1] == stats[1..][i];
      }
    }
  }

  /** Reference reading, from the end: the value of `key` in the LAST
      relevant entry that has it. */
  function LastWith(stats: seq<Record>, phase: string, key: string): Option<Value>
    decreases |stats|
  {
    if |stats| == 0 then None
    else
      var last := stats[|stats| - 1];
      if Relevant(last, phase) && key in last then Some(last[key])
      else LastWith(stats[..|stats| - 1], phase, key)
  }

  /** `LastWith` read from the front: the rest's answer wins over the first
      entry's. */
  lemma {:induction false} LastWithFront(stats: seq<Record>, phase: string, key: string)
    requires |stats| > 0
    ensures LastWith(stats, phase, key)
         == match LastWith(stats[1..], phase, key)
            case Some(v) => Some(v)
            case None => if Relevant(stats[0], phase) && key in stats[0] then Some(stats[0][key]) else None
    decreases |stats|
  {
    if |stats| > 1 {
      var init := stats[..|stats| - 1];
      assert init[1..] == stats[1..][..|stats[1..]| - 1];
      assert init[0] == stats[0];
      LastWithFront(init, phase, key);
    } else {
      assert stats[1..] == [];
    }
  }

  /** The merge keeps, for every key, the value of the last relevant entry
      holding it, and the starting value for keys no relevant entry holds. */
  lemma {:induction false} MergeIsLastWins(stats: seq<Record>, phase: string, acc: Record, key: string)
    requires MergeRelevant(stats, phase, acc).Ok?
    ensures var m := MergeRelevant(stats, phase, acc).value;
      match LastWith(stats, phase, key)
      case Some(v) => key in m && m[key] == v
      case None => (key in m <==> key in acc) && (key in acc ==> m[key] == acc[key])
    decreases |stats|
  {
    if |stats| > 0 {
      var next := if Relevant(stats[0], phase) then acc + stats[0] else acc;
      MergeIsLastWins(stats[1..], phase, next, key);
      LastWithFront(stats, phase, key);
    }
  }

  /** `get_relevant_dict` is the last-wins merge of the relevant entries: a
      key is present exactly when some relevant entry has it, with the value
      of the last such entry. */
  lemma GetRelevantDictIsLastWins(stats: seq<Record>, phase: string, key: string)
    requires GetRelevantDict(Some(stats), phase).Ok?
    ensures var m := GetRelevantDict(Some(stats), phase).value;
      && (key in m <==> LastWith(stats, phase, key).Some?)
      && (key in m ==> m[key] == LastWith(stats, phase, key).value)
  {
    MergeIsLastWins(stats, phase, map[], key);
  }

  /** Without a relevant entry, nothing is returned but `{}`. */
  lemma {:induction false} NoRelevantEntryGivesEmpty(stats: seq<Record>, phase: string)
    requires forall i :: 0 <= i < |stats| ==> IsRelevant(stats[i], phase) == Ok(false)
    ensures GetRelevantDict(Some(stats), phase) == Ok(map[])
  {
    NoRelevantKeepsAcc(stats, phase, map[]);
  }

  lemma {:induction false} NoRelevantKeepsAcc(stats: seq<Record>, phase: string, acc: Record)
    requires forall i :: 0 <= i < |stats| ==> IsRelevant(stats[i], phase) == Ok(false)
    ensures MergeRelevant(stats, phase, acc) == Ok(acc)
    decreases |stats|
  {
    if |stats| > 0 {
      assert IsRelevant(stats[0], phase) == Ok(false);
      assert forall i :: 0 <= i < |stats[1..]| ==> stats[1..][i] == stats[i + 1];
      NoRelevantKeepsAcc(stats[1..], phase, acc);
    }
  }

  // ---------------------------------------------------------------- data frames

  /** A data frame: column names and rows of cells, one per column. */
  datatype Frame = Frame(columns: seq<string>, rows: seq<seq<Value>>)

  predicate Rectangular(f: Frame) {
    forall j :: 0 <= j < |f.rows| ==> |f.rows[j]| == |f.columns|
  }

  /** `add_suffix_to_col`: every column name gets the phase suffix. */
  function AddSuffixToCol(f: Frame, suffix: string): (r: Frame)
    ensures |r.columns| == |f.columns|
    ensures forall i :: 0 <= i < |f.columns| ==> EndsWith(r.columns[i], suffix)
    ensures r.rows == f.rows
  {
    var cols := seq(|f.columns|, i requires 0 <= i < |f.columns| => f.columns[i] + suffix);
    assert forall i :: 0 <= i < |f.columns| ==> cols[i][|cols[i]| - |suffix|..] == suffix;
    Frame(cols, f.rows)
  }

  /** Cutting the suffix off again gives back each original name, so the
      renaming loses nothing. */
  lemma SuffixRoundTrip(f: Frame, suffix: string)
    ensures var r := AddSuffixToCol(f, suffix);
      forall i :: 0 <= i < |f.columns| ==> r.columns[i][..|r.columns[i]| - |suffix|] == f.columns[i]
  {
    var r := AddSuffixToCol(f, suffix);
    forall i | 0 <= i < |f.columns| ensures r.columns[i][..|r.columns[i]| - |suffix|] == f.columns[i] {
      assert r.columns[i] == f.columns[i] + suffix;
    }
  }

  /** Distinct names stay distinct. */
  lemma SuffixKeepsDistinct(f: Frame, suffix: string)
    requires Distinct(f.columns)
    ensures Distinct(AddSuffixToCol(f, suffix).columns)
  {
    var r := AddSuffixToCol(f, suffix);
    SuffixRoundTrip(f, suffix);
    forall i, j | 0 <= i < j < |r.columns| ensures r.columns[i] != r.columns[j] {
      assert f.columns[i] != f.columns[j];
    }
  }

  /** No `.read` name is a `.write` name. */
  lemma PhaseSuffixesDisjoint(a: string, b: string)
    ensures a + ".read" != b + ".write"
  {
    var x := a + ".read";
    var y := b + ".write";
    assert x[|x| - 1] == 'd' && y[|y| - 1] == 'e';
  }

  /** The index of the first column with this name. */
  function ColumnIndex(columns: seq<string>, name: string): (r: Option<nat>)
    ensures r.None? <==> name !in columns
    ensures r.Some? ==> (r.value < |columns| && columns[r.value] == name
      && forall k :: 0 <= k < r.value ==> columns[k] != name)
    decreases |columns|
  {
    if |columns| == 0 then None
    else if columns[0] == name then Some(0)
    else
      match ColumnIndex(columns[1..], name)
      case None => None
      case Some(k) => Some(k + 1)
  }

  /** The cell of row `j` under `name`; NaN when there is no such column. */
  function Cell(f: Frame, j: nat, name: string): Value
    requires Rectangular(f) && j < |f.rows|
  {
    match ColumnIndex(f.columns, name)
    case None => Missing
    case Some(i) => f.rows[j][i]
  }

  /** `df[name] = v` for a scalar `v`: the column is overwritten in place if
      it exists, otherwise appended at the end. */
  function SetColumn(f: Frame, name: string, v: Value): (r: Frame)
    requires Rectangular(f)
    ensures Rectangular(r) && |r.rows| == |f.rows|
    ensures name in f.columns ==> r.columns == f.columns
    ensures name !in f.columns ==> r.columns == f.columns + [name]
  {
    match ColumnIndex(f.columns, name)
    case Some(i) =>
      Frame(f.columns, seq(|f.rows|, j requires 0 <= j < |f.rows| => f.rows[j][i := v]))
    case None =>
      Frame(f.columns + [name], seq(|f.rows|, j requires 0 <= j < |f.rows| => f.rows[j] + [v]))
  }

  /** The set column reads `v` in every row, and every other column reads
      as before. */
  lemma SetColumnCells(f: Frame, name: string, v: Value, j: nat, other: string)
    requires Rectangular(f) && j < |f.rows|
    ensures Cell(SetColumn(f, name, v), j, name) == v
    ensures other != name ==> Cell(SetColumn(f, name, v), j, other) == Cell(f, j, other)
  {
    var r := SetColumn(f, name, v);
    if name !in f.columns {
      ColumnIndexAppend(f.columns, name, other);
      ColumnIndexAppend(f.columns, name, name);
    }
  }

  lemma {:induction false} ColumnIndexAppend(columns: seq<string>, name: string, x: string)
    requires name !in columns
    ensures ColumnIndex(columns + [name], x)
         == if x in columns then ColumnIndex(columns, x) else if x == name then Some(|columns|) else None
    decreases |columns|
  {
    if |columns| > 0 {
      assert (columns + [name])[1..] == columns[1..] + [name];
      ColumnIndexAppend(columns[1..], name, x);
    }
  }

  /** `CASSANDRA_COL_NAME` and `FALLOUT_TESTS_COL_NAME`. */
  const CASSANDRA_COL_NAME: string := "commit"
  const FALLOUT_TESTS_COL_NAME: string := "fallout_tests_commit"

  /** `add_cols_to_metrics_df`: on a copy, the time and the two commits are
      set as columns. */
  function AddColsToMetricsDf(dateTime: string, cassandraCommit: string, falloutTestsCommit: string,
                              f: Frame): (r: Frame)
    requires Rectangular(f)
    ensures Rectangular(r) && |r.rows| == |f.rows|
    ensures forall c :: c in f.columns ==> c in r.columns
    ensures "time" in r.columns && CASSANDRA_COL_NAME in r.columns && FALLOUT_TESTS_COL_NAME in r.columns
  {
    var withTime := SetColumn(f, "time", Str(dateTime));
    var withCommit := SetColumn(withTime, CASSANDRA_COL_NAME, Str(cassandraCommit));
    SetColumn(withCommit, FALLOUT_TESTS_COL_NAME, Str(falloutTestsCommit))
  }

  /** Every row reads the given time and commits, and every other column is
      as it was. */
  lemma AddColsCells(dateTime: string, cassandraCommit: string, falloutTestsCommit: string,
                     f: Frame, j: nat, other: string)
    requires Rectangular(f) && j < |f.rows|
    ensures var r := AddColsToMetricsDf(dateTime, cassandraCommit, falloutTestsCommit, f);
      && Cell(r, j, "time") == Str(dateTime)
      && Cell(r, j, CASSANDRA_COL_NAME) == Str(cassandraCommit)
      && Cell(r, j, FALLOUT_TESTS_COL_NAME) == Str(falloutTestsCommit)
      && (other !in {"time", CASSANDRA_COL_NAME, FALLOUT_TESTS_COL_NAME} ==> Cell(r, j, other) == Cell(f, j, other))
  {
    var withTime := SetColumn(f, "time", Str(dateTime));
    var withCommit := SetColumn(withTime, CASSANDRA_COL_NAME, Str(cassandraCommit));
    SetColumnCells(f, "time", Str(dateTime), j, other);
    SetColumnCells(f, "time", Str(dateTime), j, CASSANDRA_COL_NAME);
    SetColumnCells(f, "time", Str(dateTime), j, FALLOUT_TESTS_COL_NAME);
    SetColumnCells(withTime, CASSANDRA_COL_NAME, Str(cassandraCommit), j, other);
    SetColumnCells(withTime, CASSANDRA_COL_NAME, Str(cassandraCommit), j, "time");
    SetColumnCells(withTime, CASSANDRA_COL_NAME, Str(cassandraCommit), j, FALLOUT_TESTS_COL_NAME);
    SetColumnCells(withCommit, FALLOUT_TESTS_COL_NAME, Str(falloutTestsCommit), j, other);
    SetColumnCells(withCommit, FALLOUT_TESTS_COL_NAME, Str(falloutTestsCommit), j, "time");
    SetColumnCells(withCommit, FALLOUT_TESTS_COL_NAME, Str(falloutTestsCommit), j, CASSANDRA_COL_NAME);
  }

  // ---------------------------------------------------------------- commit SHAs

  /** `' '.join(text.readlines())`: the file's lines, each still ending in
      its newline, joined by single spaces. */
  function LogContent(text: string): (r: string)
    ensures '\n' !in text && '\r' !in text ==> r == text
    ensures IsLine(text) ==> r == text
  {
    OneLineRead(text);
    Join(ReadLines(text), " ")
  }

  /** Text without a line break, or a single line, reads back as itself. */
  lemma OneLineRead(text: string)
    ensures ('\n' !in text && '\r' !in text) || IsLine(text) ==>
      ReadLines(text) == if text == "" then [] else [text]
  {
    if IsLine(text) {
      ReadLinesOfLines([text]);
      assert Concat([text]) == text;
    } else if '\n' !in text && '\r' !in text {
      UniversalPlain(text);
      NoCharNoContains(text, '\n');
    }
  }

  const SHA_MARKER: string := "Git SHA: "

  /** `content.split('Git SHA: ')[1].split(NEWLINE_SYMBOL)[0]`: `IndexError`
      without the marker, `ValueError` for an empty newline symbol. */
  function ShaFromContent(content: string, newline: string): (r: Result<string>)
    ensures r.Err? <==> !Contains(content, SHA_MARKER) || newline == ""
    ensures !Contains(content, SHA_MARKER) ==> r == Err(IndexError)
  {
    var parts := Split(content, SHA_MARKER);
    if |parts| < 2 then Err(IndexError)
    else if newline == "" then Err(ValueError)
    else Ok(Split(parts[1], newline)[0])
  }

  /** The SHA read is the text right after the FIRST marker, up to the next
      newline symbol, the next marker, or the end; it holds neither. */
  lemma ShaFromContentSound(content: string, newline: string) returns (pre: string, post: string)
    requires ShaFromContent(content, newline).Ok?
    ensures content == pre + SHA_MARKER + ShaFromContent(content, newline).value + post
    ensures !Contains(pre, SHA_MARKER)
    ensures !Contains(ShaFromContent(content, newline).value, newline)
    ensures post == "" || StartsWith(post, newline) || StartsWith(post, SHA_MARKER)
    ensures !Contains(ShaFromContent(content, newline).value, SHA_MARKER)
  {
    var parts := Split(content, SHA_MARKER);
    var rest := SplitSecond(content, SHA_MARKER);
    pre := parts[0];
    var piece := parts[1];
    var sha := Split(piece, newline)[0];
    SplitHead(piece, newline);
    PrefixNotContains(piece, SHA_MARKER, |sha|);
    var after := SplitFirst(piece, newline);
    post := if sha == piece then rest else newline + after + rest;
    Regroup(pre + SHA_MARKER, piece, sha, newline, after, rest, post);
  }

  /** Conversely, a log whose only marker is followed by a SHA and the newline
      symbol gives back exactly that SHA. */
  lemma ShaOfMarkerLine(pre: string, sha: string, newline: string, rest: string)
    requires |newline| > 0
    requires !Contains(pre + SHA_MARKER[..|SHA_MARKER| - 1], SHA_MARKER)
    requires !Contains(sha + newline + rest, SHA_MARKER)
    requires !Contains(sha + newline[..|newline| - 1], newline)
    ensures ShaFromContent(pre + SHA_MARKER + sha + newline + rest, newline) == Ok(sha)
  {
    var x := sha + newline + rest;
    SplitCons(pre, SHA_MARKER, x);
    assert pre + SHA_MARKER + sha + newline + rest == pre + SHA_MARKER + x;
    JoinShape(Split(x, SHA_MARKER), SHA_MARKER);
    assert Split(x, SHA_MARKER) == [x];
    SplitCons(sha, newline, rest);
  }

  /** Cutting the piece after the marker at its first newline. */
  lemma Regroup(head: string, piece: string, sha: string, newline: string, after: string, rest: string, post: string)
    requires sha == piece || piece == sha + newline + after
    requires post == if sha == piece then rest else newline + after + rest
    ensures head + piece + rest == head + sha + post
    ensures sha != piece ==> StartsWith(post, newline)
  {
    if sha != piece {
      assert head + piece + rest == head + sha + (newline + after + rest);
      assert post[..|newline|] == newline;
    }
  }

  /** The first non-empty SHA, or `''`. */
  function FirstNonEmpty(shas: seq<string>): (r: string)
    ensures r == "" <==> forall i :: 0 <= i < |shas| ==> shas[i] == ""
    ensures r != "" ==> exists i :: 0 <= i < |shas| && shas[i] == r && forall k :: 0 <= k < i ==> shas[k] == ""
    decreases |shas|
  {
    if |shas| == 0 then ""
    else if shas[0] != "" then shas[0]
    else
      var r := FirstNonEmpty(shas[1..]);
      assert forall i :: 1 <= i < |shas| ==> shas[i] == shas[1..][i - 1];
      if r != "" then
        var i :| 0 <= i < |shas[1..]| && shas[1..][i] == r && forall k :: 0 <= k < i ==> shas[1..][k] == "";
        assert shas[i + 1] == r;
        r
      else r
  }

  /** The SHA read from one log file's text. */
  function ShaOfLog(text: string, newline: string): Result<string> {
    ShaFromContent(LogContent(text), newline)
  }

  /** The values of a run of steps that may each raise, in order, or the
      first exception. */
  function AllOk(rs: seq<Result<string>>): Result<seq<string>>
    decreases |rs|
  {
    if |rs| == 0 then Ok([])
    else
      var first :- rs[0];
      var rest :- AllOk(rs[1..]);
      Ok([first] + rest)
  }

  lemma {:induction false} AllOkFacts(rs: seq<Result<string>>)
    ensures AllOk(rs).Ok? <==> forall i :: 0 <= i < |rs| ==> rs[i].Ok?
    ensures AllOk(rs).Ok? ==> (|AllOk(rs).value| == |rs|
      && forall i :: 0 <= i < |rs| ==> AllOk(rs).value[i] == rs[i].value)
    decreases |rs|
  {
    if |rs| > 0 {
      AllOkFacts(rs[1..]);
      assert forall i :: 1 <= i < |rs| ==> rs[i] == rs[1..][i - 1];
    }
  }

  /** What reading each log file gives, in order. */
  function PerFile(logs: seq<string>, newline: string): (rs: seq<Result<string>>)
    ensures |rs| == |logs|
    ensures forall i :: 0 <= i < |logs| ==> rs[i] == ShaOfLog(logs[i], newline)
  {
    seq(|logs|, i requires 0 <= i < |logs| => ShaOfLog(logs[i], newline))
  }

  /** The string part of `get_git_sha_for_cassandra`, given the texts of the
      log files found for the date: every file is read in order, the first
      that fails stops the loop, and the first non-empty SHA is kept. So any
      file without a SHA marker makes the whole lookup fail; otherwise the
      SHA is that of the first file whose SHA is not empty, and `''` when
      there is none. */
  function CassandraSha(logs: seq<string>, newline: string): (r: Result<string>)
    ensures |logs| == 0 ==> r == Ok("")
    ensures r.Ok? <==> forall i :: 0 <= i < |logs| ==> ShaOfLog(logs[i], newline).Ok?
    ensures r.Ok? ==>
      (r.value == "" <==> forall i :: 0 <= i < |logs| ==> ShaOfLog(logs[i], newline).value == "")
    ensures r.Ok? && r.value != "" ==>
      exists i :: (0 <= i < |logs| && ShaOfLog(logs[i], newline).value == r.value
        && forall k :: 0 <= k < i ==> ShaOfLog(logs[k], newline).value == "")
  {
    var rs := PerFile(logs, newline);
    FirstNonEmptyOfAll(rs);
    var shas :- AllOk(rs);
    Ok(FirstNonEmpty(shas))
  }

  /** What `AllOk` followed by `FirstNonEmpty` keeps of a run of steps. */
  lemma {:induction false} FirstNonEmptyOfAll(rs: seq<Result<string>>)
    ensures AllOk(rs).Ok? <==> forall i :: 0 <= i < |rs| ==> rs[i].Ok?
    ensures AllOk(rs).Ok? ==>
      (FirstNonEmpty(AllOk(rs).value) == "" <==> forall i :: 0 <= i < |rs| ==> rs[i].value == "")
    ensures AllOk(rs).Ok? && FirstNonEmpty(AllOk(rs).value) != "" ==>
      exists i :: (0 <= i < |rs| && rs[i].value == FirstNonEmpty(AllOk(rs).value)
        && forall k :: 0 <= k < i ==> rs[k].value == "")
  {
    AllOkFacts(rs);
    if AllOk(rs).Ok? {
      var shas := AllOk(rs).value;
      if FirstNonEmpty(shas) != "" {
        var i :| 0 <= i < |shas| && shas[i] == FirstNonEmpty(shas) && forall k :: 0 <= k < i ==> shas[k] == "";
        assert rs[i].value == FirstNonEmpty(shas);
      }
    }
  }

  /** The string part of `get_git_sha_for_fallout_tests`: `''` without a log
      file, otherwise the first file's text up to its first comma. */
  function FalloutTestsSha(files: seq<string>): (r: string)
    ensures |files| == 0 ==> r == ""
    ensures ',' !in r
    ensures |files| > 0 ==> var content := LogContent(files[0]);
      && |r| <= |content| && r == content[..|r|]
      && (|r| < |content| ==> content[|r|] == ',')
  {
    if |files| == 0 then ""
    else
      SplitAtCharHead(LogContent(files[0]), ',');
      Split(LogContent(files[0]), ",")[0]
  }

  // ---------------------------------------------------------------- detector JSON

  /** `get_list_of_dict_from_json` of src/scripts/utils.py, given the parsed
      object of each line: only the last one is kept; an empty file is an
      `IndexError`. */
  function GetListOfDictFromJson<T>(objects: seq<T>): (r: Result<seq<T>>)
    ensures r.Ok? <==> |objects| > 0
    ensures r.Err? ==> r.error == IndexError
    ensures r.Ok? ==> |r.value| == 1 && r.value[0] in objects
  {
    if |objects| == 0 then Err(IndexError) else Ok([objects[|objects| - 1]])
  }

  /** A later line supersedes everything before it. */
  lemma LastLineWins<T>(objects: seq<T>, x: T)
    ensures GetListOfDictFromJson(objects + [x]) == Ok([x])
  {
  }
}

=== FILE: hunter_csv.dfy ===
/** `generate_hunter_df` and `get_hunter_df_w_test_type` of
    src/scripts/create_hunter_csv.py: from the parsed `performance-report.json`
    of one test run to the one-row frame fed to the change-point detector,
    together with the run's test type read off its path. */
module HunterCsv {
  import opened Wrappers
  import opened Strings
  import opened EtlUtils
  import opened HunterFrames
  import Calendar
  import Detector

  // ---------------------------------------------------------------- timestamp

  /** `LWT_TEST_RUN_EXEC_TIME`. */
  const LWT_TEST_RUN_EXEC_TIME: string := "23:00:00"

  /** Line 160: the folder's date with `_` turned into `-`, at 11 pm UTC. */
  function Timestamp(dateVal: string): (ts: string)
    ensures |ts| == |dateVal| + 15
    ensures forall i :: 0 <= i < |dateVal| ==> ts[i] == (if dateVal[i] == '_' then '-' else dateVal[i])
    ensures ts[|dateVal|..] == " " + LWT_TEST_RUN_EXEC_TIME + " +0000"
  {
    var ts := ReplaceChar(dateVal, '_', '-') + " " + LWT_TEST_RUN_EXEC_TIME + " +0000";
    assert ts[|dateVal|..] == " " + LWT_TEST_RUN_EXEC_TIME + " +0000";
    ts
  }

  /** The detection time the detector reports for such a row maps back, under
      the digest's date key, to the folder's date: the two scripts agree on
      which date a regression belongs to. */
  lemma TimestampDateKey(dateVal: string)
    requires forall i :: 0 <= i < |dateVal| ==> dateVal[i] != ' ' && dateVal[i] != '-'
    ensures Detector.DateKey(Timestamp(dateVal)) == dateVal
  {
    var ts := Timestamp(dateVal);
    var key := Detector.DateKey(ts);
    assert ts[|dateVal|] == ' ';
    assert |key| == |dateVal|;
    forall i | 0 <= i < |key| ensures key[i] == dateVal[i] {
      assert dateVal[i] != '-';
    }
  }

  /** In particular for a results folder named `%Y_%m_%d`. */
  lemma FolderTimestampDateKey(d: Calendar.Date)
    requires Calendar.Valid(d)
    ensures Detector.DateKey(Timestamp(Calendar.FormatYMD(d))) == Calendar.FormatYMD(d)
  {
    var y, m, dd := Calendar.ShowNat(d.year), Calendar.Pad(d.month, 2), Calendar.Pad(d.day, 2);
    var s := Calendar.FormatYMD(d);
    assert s == y + "_" + m + "_" + dd;
    forall i | 0 <= i < |s| ensures s[i] != ' ' && s[i] != '-' {
      if i < |y| {
        assert s[i] == y[i] && Calendar.IsDigit(y[i]);
      } else if i == |y| {
      } else if i < |y| + 1 + |m| {
        assert s[i] == m[i - |y| - 1] && Calendar.IsDigit(m[i - |y| - 1]);
      } else if i == |y| + 1 + |m| {
      } else {
        assert s[i] == dd[i - |y| - 2 - |m|] && Calendar.IsDigit(dd[i - |y| - 2 - |m|]);
      }
    }
    TimestampDateKey(s);
  }

  // ---------------------------------------------------------------- paths

  /** `path.split(os.sep)[k]` with the POSIX separator; `IndexError` when
      the path has too few components. */
  function PathComponent(path: string, k: nat): (r: Result<string>)
    ensures r.Ok? <==> k < |Split(path, "/")|
    ensures r.Err? ==> r.error == IndexError
  {
    var parts := Split(path, "/");
    if k < |parts| then Ok(parts[k]) else Err(IndexError)
  }

  /** The components of `NIGHTLY_RESULTS_DIR`, `/home/ec2-user/nightly_results`:
      the empty root, then three directories. */
  const RESULTS_ROOT: seq<string> := ["", "home", "ec2-user", "nightly_results"]

  lemma RootHasNoSeparator()
    ensures |RESULTS_ROOT| == 4
    ensures forall k :: 0 <= k < |RESULTS_ROOT| ==> '/' !in RESULTS_ROOT[k]
  {
    assert '/' !in "ec2-user";
    assert '/' !in "nightly_results";
  }

  /** Any component of a path joined from separator-free pieces is its piece. */
  lemma ComponentOfJoin(parts: seq<string>, k: nat)
    requires k < |parts|
    requires forall i :: 0 <= i < |parts| ==> '/' !in parts[i]
    ensures PathComponent(Join(parts, "/"), k) == Ok(parts[k])
  {
    SplitJoinChar(parts, '/');
  }

  /** A report found under `<NIGHTLY_RESULTS_DIR>/<date>/<test type>/...`:
      its components start with the four of the results directory, so its
      date is component 4 and its test type component 5. */
  lemma ReportPathComponents(parts: seq<string>)
    requires |parts| >= 6 && parts[..4] == RESULTS_ROOT
    requires forall i :: 0 <= i < |parts| ==> '/' !in parts[i]
    ensures PathComponent(Join(parts, "/"), 4) == Ok(parts[4])
    ensures PathComponent(Join(parts, "/"), 5) == Ok(parts[5])
  {
    ComponentOfJoin(parts, 4);
    ComponentOfJoin(parts, 5);
  }

  // ---------------------------------------------------------------- one run

  /** What `get_commit_hash_cass_fall_tests` returns: the cassandra and the
      fallout-tests SHA. */
  datatype Commits = Commits(cassandra: string, falloutTests: string)

  /** `pd.DataFrame()`. */
  const EMPTY_FRAME: Frame := Frame([], [])

  /** `DataFrame.empty`: no rows or no columns. */
  predicate IsEmpty(f: Frame) {
    |f.rows| == 0 || |f.columns| == 0
  }

  /** The SHAs a run is stamped with: those of the nightly lookup in the
      prospective mode, otherwise those found until the day after the
      folder's date. */
  function RunCommits(dateVal: string, isProspective: bool, nightly: Commits,
                      commitsUntil: string -> Commits): (r: Result<Commits>)
    ensures isProspective ==> r == Ok(nightly)
    ensures !isProspective ==> (r.Ok? <==> Calendar.RetrospectiveKey(dateVal).Ok?)
    ensures !isProspective && r.Ok? ==> r.value == commitsUntil(Calendar.RetrospectiveKey(dateVal).value)
    ensures !isProspective && r.Err? ==> r.error == Calendar.RetrospectiveKey(dateVal).error
  {
    if isProspective then Ok(nightly)
    else
      var key :- Calendar.RetrospectiveKey(dateVal);
      Ok(commitsUntil(key))
  }

  /** `generate_hunter_df`, given `data.get('stats')` of the first report.
      No report, or an empty `stats` list, gives an empty frame; otherwise
      the read and write figures are picked, stripped of their units,
      blended into one row and stamped with the time and the two SHAs. Each
      of those steps may raise, and the first that does ends the call:
      picking the read entry, then the write entry, the extraction, path
      component 4, and the SHAs of the mode. The unit stripping cannot
      raise here: it needs only `opRate`, which extraction always yields. */
  function GenerateHunterDf(jsonPaths: seq<string>, stats: Option<seq<Record>>, isProspective: bool,
                            nightly: Commits, commitsUntil: string -> Commits): (r: Result<Frame>)
    ensures |jsonPaths| == 0 ==> r == Ok(EMPTY_FRAME)
    ensures |jsonPaths| > 0 && stats == Some([]) ==> r == Ok(EMPTY_FRAME)
    ensures |jsonPaths| > 0 && stats.None? ==> r == Err(KeyError("stats"))
    ensures r.Ok? ==> Rectangular(r.value)
    ensures r.Ok? && |jsonPaths| > 0 && stats.Some? && |stats.value| > 0 ==> |r.value.rows| == 1
    ensures |jsonPaths| > 0 && stats.Some? && |stats.value| > 0 ==>
      FailsAtFirstStep(jsonPaths[0], stats, isProspective, nightly, commitsUntil, r)
  {
    if |jsonPaths| == 0 then Ok(EMPTY_FRAME)
    else if stats.None? then Err(KeyError("stats"))
    else if |stats.value| == 0 then Ok(EMPTY_FRAME)
    else
      var read :- GetRelevantDict(stats, "read");
      var write :- GetRelevantDict(stats, "write");
      var raw :- ExtractMetricsDf(read, write);
      var stripped := StripUnits(raw).value;
      var dateVal :- PathComponent(jsonPaths[0], 4);
      var commits :- RunCommits(dateVal, isProspective, nightly, commitsUntil);
      var blended := CreateHunterDf(stripped).value;
      Ok(AddColsToMetricsDf(Timestamp(dateVal), commits.cassandra, commits.falloutTests, blended))
  }

  /** `r` fails exactly when one of the generation steps of a non-empty
      `stats` list raises, with the error of the first step that does. */
  predicate FailsAtFirstStep(path: string, stats: Option<seq<Record>>, isProspective: bool,
                             nightly: Commits, commitsUntil: string -> Commits, r: Result<Frame>)
  {
    var read := GetRelevantDict(stats, "read");
    var write := GetRelevantDict(stats, "write");
    var raw := if read.Ok? && write.Ok? then ExtractMetricsDf(read.value, write.value) else Err(IndexError);
    var dateVal := PathComponent(path, 4);
    var commits := if dateVal.Ok? then RunCommits(dateVal.value, isProspective, nightly, commitsUntil) else Err(IndexError);
    && (read.Err? ==> r == Err(read.error))
    && (read.Ok? && write.Err? ==> r == Err(write.error))
    && (read.Ok? && write.Ok? && raw.Err? ==> r == Err(raw.error))
    && (raw.Ok? && dateVal.Err? ==> r == Err(dateVal.error))
    && (raw.Ok? && dateVal.Ok? && commits.Err? ==> r == Err(commits.error))
    && (r.Ok? <==> raw.Ok? && dateVal.Ok? && commits.Ok?)
  }

  /** A generated row carries the timestamp of its folder's date and the SHAs
      of its mode. */
  lemma GeneratedRow(jsonPaths: seq<string>, stats: seq<Record>, isProspective: bool,
                     nightly: Commits, commitsUntil: string -> Commits)
    requires |jsonPaths| > 0 && |stats| > 0
    requires GenerateHunterDf(jsonPaths, Some(stats), isProspective, nightly, commitsUntil).Ok?
    ensures var f := GenerateHunterDf(jsonPaths, Some(stats), isProspective, nightly, commitsUntil).value;
      var dateVal := PathComponent(jsonPaths[0], 4);
      var commits := RunCommits(dateVal.value, isProspective, nightly, commitsUntil);
      && dateVal.Ok? && commits.Ok? && |f.rows| == 1
      && Cell(f, 0, "time") == Str(Timestamp(dateVal.value))
      && Cell(f, 0, CASSANDRA_COL_NAME) == Str(commits.value.cassandra)
      && Cell(f, 0, FALLOUT_TESTS_COL_NAME) == Str(commits.value.falloutTests)
  {
    var read := GetRelevantDict(Some(stats), "read").value;
    var write := GetRelevantDict(Some(stats), "write").value;
    var raw := ExtractMetricsDf(read, write).value;
    var stripped := StripUnits(raw).value;
    var dateVal := PathComponent(jsonPaths[0], 4).value;
    var commits := RunCommits(dateVal, isProspective, nightly, commitsUntil).value;
    var blended := CreateHunterDf(stripped).value;
    AddColsCells(Timestamp(dateVal), commits.cassandra, commits.falloutTests, blended, 0, "time");
  }

  /** ... and, under `c.read` and `c.write` for each short name `c`, the
      figure of the last successful read and write entry of `stats`,
      stripped of its units: what the detector is fed. */
  lemma GeneratedFigures(jsonPaths: seq<string>, stats: seq<Record>, isProspective: bool,
                         nightly: Commits, commitsUntil: string -> Commits, i: nat)
    requires |jsonPaths| > 0 && |stats| > 0 && i < |COLS_TO_EXTRACT|
    requires GenerateHunterDf(jsonPaths, Some(stats), isProspective, nightly, commitsUntil).Ok?
    ensures GetRelevantDict(Some(stats), "read").Ok? && GetRelevantDict(Some(stats), "write").Ok?
    ensures var f := GenerateHunterDf(jsonPaths, Some(stats), isProspective, nightly, commitsUntil).value;
      && |f.rows| == 1
      && Cell(f, 0, RENAMED_COLS[i] + ".read") == StrippedFigure(GetRelevantDict(Some(stats), "read").value, i)
      && Cell(f, 0, RENAMED_COLS[i] + ".write") == StrippedFigure(GetRelevantDict(Some(stats), "write").value, i)
  {
    var read := GetRelevantDict(Some(stats), "read").value;
    var write := GetRelevantDict(Some(stats), "write").value;
    var raw := ExtractMetricsDf(read, write).value;
    var stripped := StripUnits(raw).value;
    var dateVal := PathComponent(jsonPaths[0], 4).value;
    var commits := RunCommits(dateVal, isProspective, nightly, commitsUntil).value;
    var blended := CreateHunterDf(stripped).value;
    PhaseFigures(read, write, i);
    NotStampColumn(RENAMED_COLS[i], ".read");
    NotStampColumn(RENAMED_COLS[i], ".write");
    AddColsCells(Timestamp(dateVal), commits.cassandra, commits.falloutTests, blended, 0, RENAMED_COLS[i] + ".read");
    AddColsCells(Timestamp(dateVal), commits.cassandra, commits.falloutTests, blended, 0, RENAMED_COLS[i] + ".write");
  }

  /** A phase column is none of the three stamp columns. */
  lemma NotStampColumn(name: string, suffix: string)
    requires suffix == ".read" || suffix == ".write"
    ensures name + suffix !in {"time", CASSANDRA_COL_NAME, FALLOUT_TESTS_COL_NAME}
  {
    var x := name + suffix;
    assert x[|x| - |suffix|..] == suffix;
    assert x[|x| - 2] == suffix[|suffix| - 2];
  }

  /** A run's frame and its test type. */
  datatype Run = Run(frame: Frame, testType: string)

  /** `get_hunter_df_w_test_type`: `(empty, '')` when there is no report or
      nothing was generated; otherwise the frame with path component 5 as
      the test type, and `None` (the function falls off its end) when that
      component is empty. */
  function GetHunterDfWTestType(jsonPaths: seq<string>, stats: Option<seq<Record>>, isProspective: bool,
                                nightly: Commits, commitsUntil: string -> Commits): (r: Result<Option<Run>>)
    ensures |jsonPaths| == 0 ==> r == Ok(Some(Run(EMPTY_FRAME, "")))
    ensures |jsonPaths| > 0 && stats == Some([]) ==> r == Ok(Some(Run(EMPTY_FRAME, "")))
    ensures r.Ok? && r.value.Some? ==> Rectangular(r.value.value.frame)
    ensures r.Ok? && r.value.Some? && r.value.value.testType != "" ==>
      && !IsEmpty(r.value.value.frame)
      && PathComponent(jsonPaths[0], 5) == Ok(r.value.value.testType)
      && GenerateHunterDf(jsonPaths, stats, isProspective, nightly, commitsUntil) == Ok(r.value.value.frame)
    ensures r.Ok? && r.value.None? ==> PathComponent(jsonPaths[0], 5) == Ok("")
    ensures var df := GenerateHunterDf(jsonPaths, stats, isProspective, nightly, commitsUntil);
      && (df.Err? ==> r == Err(df.error))
      && (df.Ok? ==> (r.Err? <==> |jsonPaths| > 0 && !IsEmpty(df.value) && PathComponent(jsonPaths[0], 5).Err?))
      && (df.Ok? && r.Err? ==> r.error == IndexError)
  {
    var df :- GenerateHunterDf(jsonPaths, stats, isProspective, nightly, commitsUntil);
    if |jsonPaths| == 0 || IsEmpty(df) then Ok(Some(Run(EMPTY_FRAME, "")))
    else
      var testType :- PathComponent(jsonPaths[0], 5);
      if testType != "" then Ok(Some(Run(df, testType))) else Ok(None)
  }

  /** The empty frame comes with the empty test type and nothing else does:
      a run either has both a frame and a type or neither. */
  lemma TypedIffNonEmpty(jsonPaths: seq<string>, stats: Option<seq<Record>>, isProspective: bool,
                         nightly: Commits, commitsUntil: string -> Commits)
    requires GetHunterDfWTestType(jsonPaths, stats, isProspective, nightly, commitsUntil).Ok?
    requires GetHunterDfWTestType(jsonPaths, stats, isProspective, nightly, commitsUntil).value.Some?
    ensures var run := GetHunterDfWTestType(jsonPaths, stats, isProspective, nightly, commitsUntil).value.value;
      run.testType == "" <==> IsEmpty(run.frame)
  {
  }
}

=== FILE: hunter_frames.dfy ===
/** The record-level rules src/scripts/create_hunter_csv.py applies to the
    performance figures of one test run: picking and renaming the metric
    columns, stripping the unit suffixes, and blending the read and write
    rows into one row. A DataFrame is a list of column names over rows of
    cells (`EtlUtils.Frame`); row labels are the positions 0, 1, ... */
module HunterFrames {
  import opened Wrappers
  import opened Strings
  import opened Collections
  import opened EtlUtils

  // ---------------------------------------------------------------- extraction

  /** `LIST_OF_COLS_TO_EXTRACT`. */
  const COLS_TO_EXTRACT: seq<string> := [
    "Total Operations", "Op Rate", "Min Latency", "Avg Latency",
    "Median Latency", "95th Latency", "99th Latency", "99.9th Latency",
    "Max Latency", "Median Absolute Deviation", "Interquartile Range"
  ]

  /** The values of `DICT_OF_RENAMED_COLS`, position by position. */
  const RENAMED_COLS: seq<string> := [
    "totalOps", "opRate", "minLat", "avgLat", "medianLat", "p95", "p99",
    "p99.9", "maxLat", "MAD", "IQR"
  ]

  /** One phase's dictionary as a row over the extracted columns; a key the
      dictionary lacks reads as NaN. */
  function PhaseRow(d: Record): (row: seq<Value>)
    ensures |row| == |COLS_TO_EXTRACT|
  {
    seq(|COLS_TO_EXTRACT|, i requires 0 <= i < |COLS_TO_EXTRACT| =>
      if COLS_TO_EXTRACT[i] in d then d[COLS_TO_EXTRACT[i]] else Missing)
  }

  /** The first column to extract that neither phase has. */
  function FirstAbsent(read: Record, write: Record, from: nat): (r: Option<nat>)
    requires from <= |COLS_TO_EXTRACT|
    ensures r.None? <==> forall i :: from <= i < |COLS_TO_EXTRACT| ==>
      COLS_TO_EXTRACT[i] in read || COLS_TO_EXTRACT[i] in write
    ensures r.Some? ==> (from <= r.value < |COLS_TO_EXTRACT|
      && COLS_TO_EXTRACT[r.value] !in read && COLS_TO_EXTRACT[r.value] !in write)
    decreases |COLS_TO_EXTRACT| - from
  {
    if from == |COLS_TO_EXTRACT| then None
    else if COLS_TO_EXTRACT[from] !in read && COLS_TO_EXTRACT[from] !in write then Some(from)
    else FirstAbsent(read, write, from + 1)
  }

  /** `extract_metrics_df`: a frame of the read row and the write row,
      restricted to the extracted columns and renamed; a column neither
      phase has is a `KeyError`. */
  function ExtractMetricsDf(read: Record, write: Record): (r: Result<Frame>)
    ensures r.Err? <==> exists i :: (0 <= i < |COLS_TO_EXTRACT| &&
      COLS_TO_EXTRACT[i] !in read && COLS_TO_EXTRACT[i] !in write)
    ensures r.Ok? ==> r.value.columns == RENAMED_COLS && |r.value.rows| == 2 && Rectangular(r.value)
  {
    match FirstAbsent(read, write, 0)
    case Some(i) => Err(KeyError(COLS_TO_EXTRACT[i]))
    case None => Ok(Frame(RENAMED_COLS, [PhaseRow(read), PhaseRow(write)]))
  }

  /** Every figure lands in its own phase's row under its short name. */
  lemma ExtractedCells(read: Record, write: Record, i: nat)
    requires ExtractMetricsDf(read, write).Ok? && i < |COLS_TO_EXTRACT|
    ensures var f := ExtractMetricsDf(read, write).value;
      && f.rows[0][i] == (if COLS_TO_EXTRACT[i] in read then read[COLS_TO_EXTRACT[i]] else Missing)
      && f.rows[1][i] == (if COLS_TO_EXTRACT[i] in write then write[COLS_TO_EXTRACT[i]] else Missing)
      && f.columns[i] == RENAMED_COLS[i]
  {
  }

  // ---------------------------------------------------------------- units

  /** The characters `.str.rstrip(' op/sec')` removes. */
  const OP_RATE_UNITS: set<char> := CharSet(" op/sec")

  /** The characters `.str.rstrip(' ms')` removes. */
  const LATENCY_UNITS: set<char> := CharSet(" ms")

  /** `Series.str.rstrip` on one cell: a text loses its trailing characters
      from the set; anything else becomes NaN. */
  function StripCell(v: Value, units: set<char>): (r: Value)
    ensures r.Str? <==> v.Str?
    ensures r.Str? ==> StartsWith(v.s, r.s) && (|r.s| == 0 || r.s[|r.s| - 1] !in units)
    ensures r.Str? ==> forall k :: |r.s| <= k < |v.s| ==> v.s[k] in units
    ensures !v.Str? ==> r == Missing
  {
    match v
    case Str(s) => Str(RStrip(s, units))
    case _ => Missing
  }

  /** Which characters a column's cells lose: none for `totalOps`, the
      throughput units for `opRate`, the latency units for the rest. */
  function UnitsOf(column: string): Option<set<char>> {
    if column == "totalOps" then None
    else if column == "opRate" then Some(OP_RATE_UNITS)
    else Some(LATENCY_UNITS)
  }

  function StripRow(columns: seq<string>, row: seq<Value>): (r: seq<Value>)
    requires |row| == |columns|
    ensures |r| == |row|
  {
    seq(|row|, i requires 0 <= i < |row| =>
      match UnitsOf(columns[i])
      case None => row[i]
      case Some(units) => StripCell(row[i], units))
  }

  /** Lines 151-156: `df['opRate']` (a `KeyError` without that column) loses
      its throughput units, every other column but `totalOps` its latency
      units. */
  function StripUnits(f: Frame): (r: Result<Frame>)
    requires Rectangular(f)
    ensures r.Ok? <==> "opRate" in f.columns
    ensures r.Err? ==> r.error == KeyError("opRate")
    ensures r.Ok? ==> r.value.columns == f.columns && |r.value.rows| == |f.rows| && Rectangular(r.value)
  {
    if "opRate" !in f.columns then Err(KeyError("opRate"))
    else Ok(Frame(f.columns, seq(|f.rows|, j requires 0 <= j < |f.rows| => StripRow(f.columns, f.rows[j]))))
  }

  /** Each cell: `totalOps` is untouched; elsewhere a text loses exactly its
      trailing characters from its column's unit set (the throughput units
      for `opRate`, the latency units for the rest), and a non-text becomes
      NaN. */
  lemma StripUnitsCells(f: Frame, j: nat, i: nat)
    requires Rectangular(f) && StripUnits(f).Ok? && j < |f.rows| && i < |f.columns|
    ensures var v, w := f.rows[j][i], StripUnits(f).value.rows[j][i];
      var units := if f.columns[i] == "opRate" then OP_RATE_UNITS else LATENCY_UNITS;
      && (f.columns[i] == "totalOps" ==> w == v)
      && (f.columns[i] != "totalOps" && v.Str? ==> w.Str? && StartsWith(v.s, w.s))
      && (f.columns[i] != "totalOps" && w.Str? ==> |w.s| == 0 || w.s[|w.s| - 1] !in units)
      && (f.columns[i] != "totalOps" && w.Str? ==> forall k :: |w.s| <= k < |v.s| ==> v.s[k] in units)
      && (f.columns[i] != "totalOps" && !v.Str? ==> w == Missing)
  {
  }

  /** A reading written as a number followed by its unit loses exactly the
      unit. */
  lemma StripUnitsReading(f: Frame, j: nat, i: nat, number: string, unit: string)
    requires Rectangular(f) && StripUnits(f).Ok? && j < |f.rows| && i < |f.columns|
    requires f.columns[i] != "totalOps" && f.rows[j][i] == Str(number + unit)
    requires |number| > 0 && '0' <= number[|number| - 1] <= '9'
    requires f.columns[i] == "opRate" ==> unit == " op/s" || unit == " op/sec"
    requires f.columns[i] != "opRate" ==> unit == " ms"
    ensures StripUnits(f).value.rows[j][i] == Str(number)
  {
    var units := if f.columns[i] == "opRate" then OP_RATE_UNITS else LATENCY_UNITS;
    assert forall k :: 0 <= k < |unit| ==> unit[k] in units;
    RStripUnit(number, unit, units);
  }

  lemma StripCellIdempotent(v: Value, units: set<char>)
    ensures StripCell(StripCell(v, units), units) == StripCell(v, units)
  {
    if v.Str? {
      RStripIdempotent(v.s, units);
    }
  }

  lemma StripRowIdempotent(columns: seq<string>, row: seq<Value>)
    requires |row| == |columns|
    ensures StripRow(columns, StripRow(columns, row)) == StripRow(columns, row)
  {
    var once := StripRow(columns, row);
    forall i | 0 <= i < |row| ensures StripRow(columns, once)[i] == once[i] {
      match UnitsOf(columns[i])
      case None =>
      case Some(units) => StripCellIdempotent(row[i], units);
    }
  }

  /** Stripping twice strips no more than once. */
  lemma StripUnitsIdempotent(f: Frame)
    requires Rectangular(f) && StripUnits(f).Ok?
    ensures StripUnits(StripUnits(f).value) == StripUnits(f)
  {
    var g := StripUnits(f).value;
    forall j | 0 <= j < |f.rows| ensures StripRow(g.columns, g.rows[j]) == g.rows[j] {
      StripRowIdempotent(f.columns, f.rows[j]);
    }
    var again := StripUnits(g).value;
    assert forall j :: 0 <= j < |g.rows| ==> again.rows[j] == g.rows[j];
    assert again == g;
  }

  // ---------------------------------------------------------------- blending

  /** The names of `b` that `a` does not have, in order. */
  function NewNames(a: seq<string>, b: seq<string>): (r: seq<string>)
    ensures forall x :: x in r <==> x in b && x !in a
    decreases |b|
  {
    if |b| == 0 then []
    else (if b[0] in a then [] else [b[0]]) + NewNames(a, b[1..])
  }

  /** The columns of an outer `pd.concat(..., axis=0)`: those of the first
      frame, then the new ones of the second. */
  function UnionColumns(a: seq<string>, b: seq<string>): (u: seq<string>)
    ensures forall x :: x in u <==> x in a || x in b
    ensures |u| >= |a| && u[..|a|] == a
  {
    a + NewNames(a, b)
  }

  lemma {:induction false} NewNamesDisjoint(a: seq<string>, b: seq<string>)
    requires forall x :: x in b ==> x !in a
    ensures NewNames(a, b) == b
    decreases |b|
  {
    if |b| > 0 {
      NewNamesDisjoint(a, b[1..]);
      assert b == [b[0]] + b[1..];
    }
  }

  /** A row of `f` laid out over `columns`, NaN where `f` has no such column. */
  function Reindex(f: Frame, columns: seq<string>, j: nat): (row: seq<Value>)
    requires Rectangular(f) && j < |f.rows|
    ensures |row| == |columns|
  {
    seq(|columns|, i requires 0 <= i < |columns| => Cell(f, j, columns[i]))
  }

  /** `pd.concat([a, b])`: the rows of `a` then those of `b`, over the union
      of the columns. */
  function ConcatRows(a: Frame, b: Frame): (r: Frame)
    requires Rectangular(a) && Rectangular(b)
    ensures Rectangular(r) && |r.rows| == |a.rows| + |b.rows|
    ensures r.columns == UnionColumns(a.columns, b.columns)
  {
    var columns := UnionColumns(a.columns, b.columns);
    Frame(columns,
      seq(|a.rows|, j requires 0 <= j < |a.rows| => Reindex(a, columns, j)) +
      seq(|b.rows|, j requires 0 <= j < |b.rows| => Reindex(b, columns, j)))
  }

  /** Every cell of the concatenation is the cell of the frame its row came
      from (NaN under a column that frame lacks). */
  lemma ConcatRowsCells(a: Frame, b: Frame, j: nat, name: string)
    requires Rectangular(a) && Rectangular(b) && j < |a.rows| + |b.rows|
    requires name in a.columns || name in b.columns
    ensures var r := ConcatRows(a, b);
      Cell(r, j, name) == if j < |a.rows| then Cell(a, j, name) else Cell(b, j - |a.rows|, name)
  {
  }

  /** `pd.concat(frames)`; an empty list is a `ValueError`. */
  function ConcatAll(frames: seq<Frame>): (r: Result<Frame>)
    requires forall k :: 0 <= k < |frames| ==> Rectangular(frames[k])
    ensures r.Err? <==> |frames| == 0
    ensures r.Ok? ==> Rectangular(r.value)
    decreases |frames|
  {
    if |frames| == 0 then Err(ValueError)
    else if |frames| == 1 then Ok(frames[0])
    else
      Ok(ConcatRows(ConcatAll(frames[..|frames| - 1]).value, frames[|frames| - 1]))
  }

  /** The concatenation holds as many rows as all the frames together. */
  lemma {:induction false} ConcatAllRows(frames: seq<Frame>)
    requires forall k :: 0 <= k < |frames| ==> Rectangular(frames[k])
    requires |frames| > 0
    ensures |ConcatAll(frames).value.rows| == RowCount(frames)
    decreases |frames|
  {
    if |frames| > 1 {
      ConcatAllRows(frames[..|frames| - 1]);
      RowCountSnoc(frames[..|frames| - 1], frames[|frames| - 1]);
      assert frames == frames[..|frames| - 1] + [frames[|frames| - 1]];
    }
  }

  function RowCount(frames: seq<Frame>): nat
    decreases |frames|
  {
    if |frames| == 0 then 0 else |frames[0].rows| + RowCount(frames[1..])
  }

  lemma {:induction false} RowCountSnoc(frames: seq<Frame>, f: Frame)
    ensures RowCount(frames + [f]) == RowCount(frames) + |f.rows|
    decreases |frames|
  {
    if |frames| > 0 {
      assert (frames + [f])[1..] == frames[1..] + [f];
      RowCountSnoc(frames[1..], f);
    }
  }

  /** `first.combine_first(second)` over the same labels: the first value
      unless it is NaN. */
  function CombineFirst(first: seq<Value>, second: seq<Value>): (r: seq<Value>)
    requires |first| == |second|
    ensures |r| == |first|
    ensures forall i :: 0 <= i < |r| && first[i] != Missing ==> r[i] == first[i]
    ensures forall i :: 0 <= i < |r| && first[i] == Missing ==> r[i] == second[i]
  {
    seq(|first|, i requires 0 <= i < |first| => if first[i] != Missing then first[i] else second[i])
  }

  /** `pd.DataFrame(df.loc[j]).T`: row `j` alone. */
  function RowFrame(f: Frame, j: nat): (r: Frame)
    requires Rectangular(f) && j < |f.rows|
    ensures Rectangular(r) && r.columns == f.columns && r.rows == [f.rows[j]]
  {
    Frame(f.columns, [f.rows[j]])
  }

  /** `create_hunter_df`: the read row (label 0) with `.read` names and the
      write row (label 1) with `.write` names, stacked and blended into one
      row; a missing label is a `KeyError`. */
  function CreateHunterDf(f: Frame): (r: Result<Frame>)
    requires Rectangular(f)
    ensures r.Err? <==> |f.rows| < 2
    ensures r.Ok? ==> Rectangular(r.value) && |r.value.rows| == 1
  {
    if |f.rows| == 0 then Err(KeyError("0"))
    else if |f.rows| == 1 then Err(KeyError("1"))
    else
      var readRow := AddSuffixToCol(RowFrame(f, 0), ".read");
      var writeRow := AddSuffixToCol(RowFrame(f, 1), ".write");
      var stacked := ConcatRows(readRow, writeRow);
      Ok(Frame(stacked.columns, [CombineFirst(stacked.rows[0], stacked.rows[1])]))
  }

  /** The names `add_suffix_to_col` gives. */
  function Suffixed(columns: seq<string>, suffix: string): (r: seq<string>)
    ensures |r| == |columns|
    ensures forall i :: 0 <= i < |columns| ==> r[i] == columns[i] + suffix
  {
    seq(|columns|, i requires 0 <= i < |columns| => columns[i] + suffix)
  }

  lemma SuffixedOf(f: Frame, suffix: string)
    ensures AddSuffixToCol(f, suffix) == Frame(Suffixed(f.columns, suffix), f.rows)
  {
  }

  /** Distinct names stay distinct under one suffix ... */
  lemma SuffixedDistinct(columns: seq<string>, suffix: string)
    requires Distinct(columns)
    ensures Distinct(Suffixed(columns, suffix))
  {
    SuffixKeepsDistinct(Frame(columns, []), suffix);
    SuffixedOf(Frame(columns, []), suffix);
  }

  /** ... and no `.write` name is a `.read` name. */
  lemma PhaseNamesDisjoint(columns: seq<string>)
    ensures forall x :: x in Suffixed(columns, ".write") ==> x !in Suffixed(columns, ".read")
  {
    var a, b := Suffixed(columns, ".read"), Suffixed(columns, ".write");
    forall p, q | 0 <= p < |columns| && 0 <= q < |columns| ensures a[p] != b[q] {
      PhaseSuffixesDisjoint(columns[p], columns[q]);
    }
  }

  /** In a list without repetitions a name is found at its own position. */
  lemma ColumnIndexOfDistinct(columns: seq<string>, i: nat)
    requires Distinct(columns) && i < |columns|
    ensures ColumnIndex(columns, columns[i]) == Some(i)
  {
  }

  lemma DistinctJoin(a: seq<string>, b: seq<string>)
    requires Distinct(a) && Distinct(b)
    requires forall x :: x in b ==> x !in a
    ensures Distinct(a + b)
  {
    var c := a + b;
    forall p, q | 0 <= p < q < |c| ensures c[p] != c[q] {
      if p < |a| && q >= |a| {
        assert c[q] == b[q - |a|] && c[q] in b;
      }
    }
  }

  function Nans(n: nat): (r: seq<Value>)
    ensures |r| == n && forall i :: 0 <= i < n ==> r[i] == Missing
  {
    seq(n, _ => Missing)
  }

  /** A one-row frame laid out over its own columns followed by foreign ones. */
  lemma ReindexOwnFirst(f: Frame, b: seq<string>)
    requires Rectangular(f) && |f.rows| == 1 && Distinct(f.columns)
    requires forall x :: x in b ==> x !in f.columns
    ensures Reindex(f, f.columns + b, 0) == f.rows[0] + Nans(|b|)
  {
    var a := f.columns;
    forall k | 0 <= k < |a| + |b| ensures Reindex(f, a + b, 0)[k] == (f.rows[0] + Nans(|b|))[k] {
      if k < |a| {
        ColumnIndexOfDistinct(a, k);
      } else {
        assert (a + b)[k] == b[k - |a|] && b[k - |a|] in b;
      }
    }
  }

  /** A one-row frame laid out over foreign columns followed by its own. */
  lemma ReindexOwnSecond(f: Frame, a: seq<string>)
    requires Rectangular(f) && |f.rows| == 1 && Distinct(f.columns)
    requires forall x :: x in f.columns ==> x !in a
    ensures Reindex(f, a + f.columns, 0) == Nans(|a|) + f.rows[0]
  {
    var b := f.columns;
    forall k | 0 <= k < |a| + |b| ensures Reindex(f, a + b, 0)[k] == (Nans(|a|) + f.rows[0])[k] {
      if k < |a| {
        assert (a + b)[k] == a[k] && a[k] in a;
      } else {
        ColumnIndexOfDistinct(b, k - |a|);
        assert (a + b)[k] == b[k - |a|];
      }
    }
  }

  /** Blending a row padded on the right with one padded on the left. */
  lemma CombinePadded(x: seq<Value>, y: seq<Value>)
    ensures CombineFirst(x + Nans(|y|), Nans(|x|) + y) == x + y
  {
  }

  /** With distinct column names, blending puts the read row's values under
      the `.read` names and then the write row's values under the `.write`
      names: nothing is lost and nothing is taken from the other phase. */
  lemma BlendIsSideBySide(f: Frame)
    requires Rectangular(f) && |f.rows| >= 2 && Distinct(f.columns)
    ensures CreateHunterDf(f) ==
      Ok(Frame(Suffixed(f.columns, ".read") + Suffixed(f.columns, ".write"), [f.rows[0] + f.rows[1]]))
  {
    var a, b := Suffixed(f.columns, ".read"), Suffixed(f.columns, ".write");
    var readRow := AddSuffixToCol(RowFrame(f, 0), ".read");
    var writeRow := AddSuffixToCol(RowFrame(f, 1), ".write");
    SuffixedOf(RowFrame(f, 0), ".read");
    SuffixedOf(RowFrame(f, 1), ".write");
    SuffixedDistinct(f.columns, ".read");
    SuffixedDistinct(f.columns, ".write");
    PhaseNamesDisjoint(f.columns);
    NewNamesDisjoint(a, b);
    ReindexOwnFirst(readRow, b);
    ReindexOwnSecond(writeRow, a);
    var stacked := ConcatRows(readRow, writeRow);
    assert stacked.rows[0] == f.rows[0] + Nans(|b|);
    assert stacked.rows[1] == Nans(|a|) + f.rows[1];
    CombinePadded(f.rows[0], f.rows[1]);
  }

  /** Reading the blended row back by name: column `c` of the read row is
      under `c.read`, column `c` of the write row under `c.write`. */
  lemma BlendCells(f: Frame, i: nat)
    requires Rectangular(f) && |f.rows| >= 2 && Distinct(f.columns) && i < |f.columns|
    ensures CreateHunterDf(f).Ok?
    ensures Cell(CreateHunterDf(f).value, 0, f.columns[i] + ".read") == f.rows[0][i]
    ensures Cell(CreateHunterDf(f).value, 0, f.columns[i] + ".write") == f.rows[1][i]
  {
    BlendIsSideBySide(f);
    var n := |f.columns|;
    var a, b := Suffixed(f.columns, ".read"), Suffixed(f.columns, ".write");
    var row := f.rows[0] + f.rows[1];
    SuffixedDistinct(f.columns, ".read");
    SuffixedDistinct(f.columns, ".write");
    PhaseNamesDisjoint(f.columns);
    DistinctJoin(a, b);
    ColumnIndexOfDistinct(a + b, i);
    ColumnIndexOfDistinct(a + b, n + i);
    assert (a + b)[i] == f.columns[i] + ".read";
    assert (a + b)[n + i] == f.columns[i] + ".write";
    assert row[i] == f.rows[0][i] && row[n + i] == f.rows[1][i];
  }

  // ---------------------------------------------------------------- one run's figures

  /** The short names are distinct. */
  lemma RenamedDistinct()
    ensures Distinct(RENAMED_COLS)
  {
    forall p, q | 0 <= p < q < |RENAMED_COLS| ensures RENAMED_COLS[p] != RENAMED_COLS[q] {
      assert |RENAMED_COLS[p]| != |RENAMED_COLS[q]| || RENAMED_COLS[p][0] != RENAMED_COLS[q][0]
        || RENAMED_COLS[p][|RENAMED_COLS[p]| - 1] != RENAMED_COLS[q][|RENAMED_COLS[q]| - 1]
        || RENAMED_COLS[p][1] != RENAMED_COLS[q][1];
    }
  }

  /** A phase's figure for extracted column `i`, NaN when the phase lacks it. */
  function Figure(d: Record, i: nat): Value
    requires i < |COLS_TO_EXTRACT|
  {
    if COLS_TO_EXTRACT[i] in d then d[COLS_TO_EXTRACT[i]] else Missing
  }

  /** That figure with the units of its column stripped. */
  function StrippedFigure(d: Record, i: nat): Value
    requires i < |COLS_TO_EXTRACT|
  {
    match UnitsOf(RENAMED_COLS[i])
    case None => Figure(d, i)
    case Some(units) => StripCell(Figure(d, i), units)
  }

  /** Extraction, unit stripping and blending composed: the one row of a
      run holds, under `c.read` and `c.write`, the read and the write
      phase's figure for `c`, stripped of its units. */
  lemma PhaseFigures(read: Record, write: Record, i: nat)
    requires ExtractMetricsDf(read, write).Ok? && i < |COLS_TO_EXTRACT|
    ensures StripUnits(ExtractMetricsDf(read, write).value).Ok?
    ensures CreateHunterDf(StripUnits(ExtractMetricsDf(read, write).value).value).Ok?
    ensures Cell(CreateHunterDf(StripUnits(ExtractMetricsDf(read, write).value).value).value, 0,
                 RENAMED_COLS[i] + ".read") == StrippedFigure(read, i)
    ensures Cell(CreateHunterDf(StripUnits(ExtractMetricsDf(read, write).value).value).value, 0,
                 RENAMED_COLS[i] + ".write") == StrippedFigure(write, i)
  {
    var raw := ExtractMetricsDf(read, write).value;
    assert "opRate" == raw.columns[1];
    var stripped := StripUnits(raw).value;
    ExtractedCells(read, write, i);
    assert stripped.rows[0][i] == StripRow(raw.columns, raw.rows[0])[i];
    assert stripped.rows[1][i] == StripRow(raw.columns, raw.rows[1])[i];
    RenamedDistinct();
    BlendCells(stripped, i);
  }
}

=== FILE: hunter_routing.dfy ===
/** The main block of src/scripts/create_hunter_csv.py: every run is routed
    to one of six buckets by the first partition marker its test type
    contains, and the buckets are written out. In the prospective (nightly)
    mode the bucket's history gets the run appended; in the retrospective
    mode all runs of a bucket are stacked. */
module HunterRouting {
  import opened Wrappers
  import opened Strings
  import opened Collections
  import opened EtlUtils
  import opened HunterFrames
  import opened HunterCsv

  // ---------------------------------------------------------------- test names

  /** `lwt-<mode>-<size>-partitions`. */
  function TestName(mode: string, size: string): string {
    "lwt-" + mode + "-" + size + "-partitions"
  }

  /** `-<mode>-<size>-`. */
  function TypeMarker(mode: string, size: string): string {
    "-" + mode + "-" + size + "-"
  }

  /** The mode and size of each bucket, in the order the markers are tried. */
  const BUCKET_MODES: seq<string> := ["fixed", "rated", "fixed", "rated", "fixed", "rated"]
  const BUCKET_SIZES: seq<string> := ["100", "100", "1000", "1000", "10000", "10000"]

  /** `SUBSTR_TESTS_NAMES`: `-fixed-100-`, `-rated-100-`, `-fixed-1000-`,
      `-rated-1000-`, `-fixed-10000-`, `-rated-10000-`. */
  const SUBSTR_TESTS_NAMES: seq<string> := [
    TypeMarker("fixed", "100"), TypeMarker("rated", "100"),
    TypeMarker("fixed", "1000"), TypeMarker("rated", "1000"),
    TypeMarker("fixed", "10000"), TypeMarker("rated", "10000")
  ]

  /** `LWT_TESTS_NAMES`: `lwt-fixed-100-partitions`, `lwt-fixed-1000-partitions`,
      `lwt-fixed-10000-partitions`, `lwt-rated-100-partitions`,
      `lwt-rated-1000-partitions`, `lwt-rated-10000-partitions`. */
  const LWT_TESTS_NAMES: seq<string> := [
    TestName("fixed", "100"), TestName("fixed", "1000"), TestName("fixed", "10000"),
    TestName("rated", "100"), TestName("rated", "1000"), TestName("rated", "10000")
  ]

  /** The bucket each of `LWT_TESTS_NAMES` belongs in. */
  const BUCKET_OF_LWT_TEST: seq<nat> := [0, 2, 4, 1, 3, 5]

  /** The `if '-fixed-100-' in t: ... elif ...` chain: the first marker the
      test type contains; `None` is the branch that only logs an error. */
  function Route(t: string): (r: Option<nat>)
    ensures r.Some? ==> r.value < 6 && Contains(t, SUBSTR_TESTS_NAMES[r.value])
    ensures r.Some? ==> forall k :: 0 <= k < r.value ==> !Contains(t, SUBSTR_TESTS_NAMES[k])
    ensures r.None? <==> forall k :: 0 <= k < 6 ==> !Contains(t, SUBSTR_TESTS_NAMES[k])
  {
    if Contains(t, SUBSTR_TESTS_NAMES[0]) then Some(0)
    else if Contains(t, SUBSTR_TESTS_NAMES[1]) then Some(1)
    else if Contains(t, SUBSTR_TESTS_NAMES[2]) then Some(2)
    else if Contains(t, SUBSTR_TESTS_NAMES[3]) then Some(3)
    else if Contains(t, SUBSTR_TESTS_NAMES[4]) then Some(4)
    else if Contains(t, SUBSTR_TESTS_NAMES[5]) then Some(5)
    else None
  }

  /** A non-empty piece of a name without a dash. */
  predicate Word(s: string) {
    |s| > 0 && '-' !in s
  }

  /** The dashes of a test name are exactly its three separators. */
  lemma DashesOfTestName(mode: string, size: string, q: nat)
    requires Word(mode) && Word(size) && q < |TestName(mode, size)|
    ensures TestName(mode, size)[q] == '-' <==> q == 3 || q == 4 + |mode| || q == 5 + |mode| + |size|
  {
    var s := TestName(mode, size);
    var tail := "partitions";
    assert s == "lwt" + "-" + mode + "-" + size + "-" + tail;
    if q < 3 {
      assert s[q] == "lwt"[q];
    } else if 3 < q < 4 + |mode| {
      assert s[q] == mode[q - 4];
    } else if 4 + |mode| < q < 5 + |mode| + |size| {
      assert s[q] == size[q - 5 - |mode|];
    } else if q > 5 + |mode| + |size| {
      assert s[q] == tail[q - 6 - |mode| - |size|];
    }
  }

  /** A marker can only sit on the three dashes of a test name, which fixes
      where it starts and how long its two words are. */
  lemma MarkerOccurrence(mode: string, size: string, mode2: string, size2: string, i: nat)
    requires Word(mode) && Word(size) && Word(mode2) && Word(size2)
    requires OccursAt(TestName(mode, size), TypeMarker(mode2, size2), i)
    ensures i == 3 && |mode2| == |mode| && |size2| == |size|
  {
    var s, p := TestName(mode, size), TypeMarker(mode2, size2);
    var m2, n2 := |mode2|, |size2|;
    assert s[i..i + |p|] == p;
    assert s[i] == p[0] == '-';
    assert s[i + 1 + m2] == p[1 + m2] == '-';
    assert s[i + 2 + m2 + n2] == p[2 + m2 + n2] == '-';
    DashesOfTestName(mode, size, i);
    DashesOfTestName(mode, size, i + 1 + m2);
    DashesOfTestName(mode, size, i + 2 + m2 + n2);
  }

  /** A marker at the first dash, with words as long as the name's, spells
      out the name's own mode and size. */
  lemma MarkerAtThree(mode: string, size: string, mode2: string, size2: string)
    requires |mode2| == |mode| && |size2| == |size|
    requires OccursAt(TestName(mode, size), TypeMarker(mode2, size2), 3)
    ensures mode2 == mode && size2 == size
  {
    var s, p := TestName(mode, size), TypeMarker(mode2, size2);
    assert s[3..3 + |p|] == p;
    forall q | 0 <= q < |mode| ensures mode2[q] == mode[q] {
      assert mode2[q] == p[1 + q] == s[4 + q] == mode[q];
    }
    forall q | 0 <= q < |size| ensures size2[q] == size[q] {
      assert size2[q] == p[2 + |mode| + q] == s[5 + |mode| + q] == size[q];
    }
  }

  lemma OwnMarker(mode: string, size: string)
    ensures OccursAt(TestName(mode, size), TypeMarker(mode, size), 3)
  {
    var s, p := TestName(mode, size), TypeMarker(mode, size);
    assert s == "lwt" + p + "partitions";
    assert s[3..3 + |p|] == p;
  }

  /** A test name contains the marker of its own mode and size and no other. */
  lemma MarkerInTestName(mode: string, size: string, mode2: string, size2: string)
    requires Word(mode) && Word(size) && Word(mode2) && Word(size2)
    ensures Contains(TestName(mode, size), TypeMarker(mode2, size2)) <==> mode == mode2 && size == size2
  {
    var s, p := TestName(mode, size), TypeMarker(mode2, size2);
    ContainsIffOccurs(s, p);
    if mode == mode2 && size == size2 {
      OwnMarker(mode, size);
    }
    if Contains(s, p) {
      var i: nat :| OccursAt(s, p, i);
      MarkerOccurrence(mode, size, mode2, size2, i);
      MarkerAtThree(mode, size, mode2, size2);
    }
  }

  lemma BucketsAreMarkers(k: nat)
    requires k < 6
    ensures SUBSTR_TESTS_NAMES[k] == TypeMarker(BUCKET_MODES[k], BUCKET_SIZES[k])
    ensures Word(BUCKET_MODES[k]) && Word(BUCKET_SIZES[k])
  {
  }

  /** The test name of a bucket's mode and size is routed to that bucket. */
  lemma RouteOfTestName(k: nat)
    requires k < 6
    ensures Route(TestName(BUCKET_MODES[k], BUCKET_SIZES[k])) == Some(k)
  {
    var t := TestName(BUCKET_MODES[k], BUCKET_SIZES[k]);
    forall j | 0 <= j < 6 ensures Contains(t, SUBSTR_TESTS_NAMES[j]) <==> j == k {
      BucketsAreMarkers(j);
      BucketsAreMarkers(k);
      MarkerInTestName(BUCKET_MODES[k], BUCKET_SIZES[k], BUCKET_MODES[j], BUCKET_SIZES[j]);
    }
  }

  /** The LWT test names are the test names of their buckets. */
  lemma LwtTestIsBucketName(j: nat)
    requires j < 6
    ensures BUCKET_OF_LWT_TEST[j] < 6
    ensures LWT_TESTS_NAMES[j] == TestName(BUCKET_MODES[BUCKET_OF_LWT_TEST[j]], BUCKET_SIZES[BUCKET_OF_LWT_TEST[j]])
  {
  }

  /** No two LWT tests share a bucket. */
  lemma LwtBucketsDistinct()
    ensures Distinct(BUCKET_OF_LWT_TEST)
  {
  }

  /** Each of the six LWT tests lands in its own bucket. */
  lemma EachLwtTestHitsItsOwnBucket(j: nat)
    requires j < 6
    ensures Route(LWT_TESTS_NAMES[j]) == Some(BUCKET_OF_LWT_TEST[j])
  {
    var b := BUCKET_OF_LWT_TEST[j];
    var t := LWT_TESTS_NAMES[j];
    LwtTestIsBucketName(j);
    assert t == TestName(BUCKET_MODES[b], BUCKET_SIZES[b]);
    RouteOfTestName(b);
  }

  // ---------------------------------------------------------------- runs

  predicate RunsRectangular(runs: seq<Run>) {
    forall i :: 0 <= i < |runs| ==> Rectangular(runs[i].frame)
  }

  /** `hunter_df, type_of_test = get_hunter_df_w_test_type(...)` for each
      report list in turn: the first exception ends the script, and a `None`
      cannot be unpacked (`TypeError`). */
  function Unpack(outcomes: seq<Result<Option<Run>>>): (r: Result<seq<Run>>)
    ensures r.Ok? <==> forall i :: 0 <= i < |outcomes| ==> outcomes[i].Ok? && outcomes[i].value.Some?
    ensures r.Ok? ==> (|r.value| == |outcomes| &&
      forall i :: 0 <= i < |outcomes| ==> outcomes[i] == Ok(Some(r.value[i])))
    decreases |outcomes|
  {
    if |outcomes| == 0 then Ok([])
    else if outcomes[0].Err? then Err(outcomes[0].error)
    else if outcomes[0].value.None? then Err(TypeError)
    else
      var rest := Unpack(outcomes[1..]);
      assert forall i :: 1 <= i < |outcomes| ==> outcomes[i] == outcomes[1..][i - 1];
      if rest.Err? then rest
      else
        var r := [outcomes[0].value.value] + rest.value;
        assert forall i :: 1 <= i < |outcomes| ==> r[i] == rest.value[i - 1];
        Ok(r)
  }

  // ---------------------------------------------------------------- prospective

  /** Lines 264-270: the runs with a test type and a non-empty frame. */
  function Kept(runs: seq<Run>): (r: seq<Run>)
    ensures forall x :: x in r <==> x in runs && x.testType != "" && !IsEmpty(x.frame)
    decreases |runs|
  {
    if |runs| == 0 then []
    else (if runs[0].testType != "" && !IsEmpty(runs[0].frame) then [runs[0]] else []) + Kept(runs[1..])
  }

  /** The prospective loop over the kept runs, in order: a routed run sets
      its bucket's `concat_df_*` to the bucket's history with the run
      appended, replacing what an earlier run of that bucket had set. */
  function Assign(history: seq<Frame>, runs: seq<Run>, route: string -> Option<nat>): (m: map<nat, Frame>)
    requires |history| == 6 && forall k :: 0 <= k < 6 ==> Rectangular(history[k])
    requires RunsRectangular(runs)
    ensures forall k :: k in m ==> k < 6
    decreases |runs|
  {
    if |runs| == 0 then map[]
    else
      var init := runs[..|runs| - 1];
      var last := runs[|runs| - 1];
      var m := Assign(history, init, route);
      match route(last.testType)
      case Some(k) => if k < 6 then m[k := ConcatRows(history[k], last.frame)] else m
      case None => m
  }

  /** Reference: the last run routed to bucket `k`. */
  function LastRoutedTo(runs: seq<Run>, k: nat, route: string -> Option<nat>): (r: Option<Run>)
    ensures r.Some? ==> r.value in runs && route(r.value.testType) == Some(k)
    ensures r.None? <==> forall i :: 0 <= i < |runs| ==> route(runs[i].testType) != Some(k)
    decreases |runs|
  {
    if |runs| == 0 then None
    else
      var tail := LastRoutedTo(runs[1..], k, route);
      assert forall i :: 1 <= i < |runs| ==> runs[i] == runs[1..][i - 1];
      if tail.Some? then tail
      else if route(runs[0].testType) == Some(k) then Some(runs[0])
      else None
  }

  lemma {:induction false} LastRoutedToSnoc(runs: seq<Run>, x: Run, k: nat, route: string -> Option<nat>)
    ensures LastRoutedTo(runs + [x], k, route) ==
      if route(x.testType) == Some(k) then Some(x) else LastRoutedTo(runs, k, route)
    decreases |runs|
  {
    if |runs| > 0 {
      assert (runs + [x])[1..] == runs[1..] + [x];
      LastRoutedToSnoc(runs[1..], x, k, route);
    }
  }

  /** The prospective loop leaves each bucket with the history followed by
      the LAST run routed to it; earlier runs of the same bucket are lost,
      and a bucket no run reaches is never set. */
  lemma {:induction false} AssignIsLastWins(history: seq<Frame>, runs: seq<Run>, k: nat, route: string -> Option<nat>)
    requires |history| == 6 && forall j :: 0 <= j < 6 ==> Rectangular(history[j])
    requires RunsRectangular(runs) && k < 6
    ensures k in Assign(history, runs, route) <==> LastRoutedTo(runs, k, route).Some?
    ensures k in Assign(history, runs, route) ==>
      (Rectangular(LastRoutedTo(runs, k, route).value.frame) &&
      Assign(history, runs, route)[k] == ConcatRows(history[k], LastRoutedTo(runs, k, route).value.frame))
    decreases |runs|
  {
    if |runs| > 0 {
      var init := runs[..|runs| - 1];
      var last := runs[|runs| - 1];
      AssignIsLastWins(history, init, k, route);
      assert runs == init + [last];
      LastRoutedToSnoc(init, last, k, route);
    }
  }

  /** The names of the six `concat_df_*` variables, in bucket order. */
  const CONCAT_NAMES: seq<string> := [
    "concat_df_100_fixed", "concat_df_100_rated", "concat_df_1000_fixed",
    "concat_df_1000_rated", "concat_df_10000_fixed", "concat_df_10000_rated"
  ]

  /** The first bucket from `from` on that was never set. */
  function FirstUnset(m: map<nat, Frame>, from: nat): (r: Option<nat>)
    requires from <= 6
    ensures r.None? <==> forall k :: from <= k < 6 ==> k in m
    ensures r.Some? ==> (from <= r.value < 6 && r.value !in m
      && forall k :: from <= k < r.value ==> k in m)
    decreases 6 - from
  {
    if from == 6 then None
    else if from !in m then Some(from)
    else FirstUnset(m, from + 1)
  }

  /** What a row of saves leaves behind: the frames written, in bucket
      order, and the exception that stopped the row, if one did. */
  datatype Saved = Saved(written: seq<Frame>, raised: Option<PyError>)

  /** Saving the six `concat_df_*` variables in bucket order. The files
      before the first variable never assigned are written; that variable
      is a `NameError` and nothing after it is saved. */
  function SaveAssigned(m: map<nat, Frame>): (r: Saved)
    ensures r.raised.None? <==> AllSet(m)
    ensures r.raised.None? ==> |r.written| == 6
    ensures r.raised.Some? ==> (|r.written| < 6 && |r.written| !in m &&
      r.raised.value == NameError(CONCAT_NAMES[|r.written|]))
    ensures forall k :: 0 <= k < |r.written| ==> k in m && r.written[k] == m[k]
  {
    match FirstUnset(m, 0)
    case Some(k) => Saved(seq(k, j requires 0 <= j < k && j in m => m[j]), Some(NameError(CONCAT_NAMES[k])))
    case None => Saved([m[0], m[1], m[2], m[3], m[4], m[5]], None)
  }

  /** The saves of the prospective main, given its kept runs: the files
      are written in bucket order, each with the last kept run of its
      bucket appended to its history, up to the first bucket no kept run
      reached, whose save is a `NameError`. */
  predicate SavesLastRuns(history: seq<Frame>, kept: seq<Run>, r: Saved)
    requires |history| == 6 && forall k :: 0 <= k < 6 ==> Rectangular(history[k])
    requires RunsRectangular(kept)
  {
    && (r.raised.None? <==> AllReached(kept, Route))
    && (r.raised.None? ==> |r.written| == 6)
    && (forall k :: 0 <= k < |r.written| ==>
          k < 6 && LastRoutedTo(kept, k, Route).Some? &&
          r.written[k] == ConcatRows(history[k], LastRoutedTo(kept, k, Route).value.frame))
    && (r.raised.Some? ==>
          |r.written| < 6 && LastRoutedTo(kept, |r.written|, Route).None? &&
          r.raised.value == NameError(CONCAT_NAMES[|r.written|]))
  }

  lemma SaveAssignedSavesLast(history: seq<Frame>, kept: seq<Run>)
    requires |history| == 6 && forall k :: 0 <= k < 6 ==> Rectangular(history[k])
    requires RunsRectangular(kept)
    ensures SavesLastRuns(history, kept, SaveAssigned(Assign(history, kept, Route)))
  {
    AssignAll(history, kept, Route);
  }

  /** The prospective main. An untyped report raises before anything is
      written; otherwise the saves are those of its kept runs. */
  function ProspectiveRun(history: seq<Frame>, outcomes: seq<Result<Option<Run>>>): (r: Saved)
    requires |history| == 6 && forall k :: 0 <= k < 6 ==> Rectangular(history[k])
    requires forall i :: 0 <= i < |outcomes| && outcomes[i].Ok? && outcomes[i].value.Some? ==>
      Rectangular(outcomes[i].value.value.frame)
    ensures Unpack(outcomes).Err? ==> r == Saved([], Some(Unpack(outcomes).error))
    ensures Unpack(outcomes).Ok? ==> (RunsRectangular(Kept(Unpack(outcomes).value)) &&
      SavesLastRuns(history, Kept(Unpack(outcomes).value), r))
  {
    match Unpack(outcomes)
    case Err(e) => Saved([], Some(e))
    case Ok(runs) =>
      KeptRectangular(outcomes);
      SaveAssignedSavesLast(history, Kept(runs));
      SaveAssigned(Assign(history, Kept(runs), Route))
  }

  lemma KeptRectangular(outcomes: seq<Result<Option<Run>>>)
    requires forall i :: 0 <= i < |outcomes| && outcomes[i].Ok? && outcomes[i].value.Some? ==>
      Rectangular(outcomes[i].value.value.frame)
    requires Unpack(outcomes).Ok?
    ensures RunsRectangular(Kept(Unpack(outcomes).value))
  {
    RunsOfOutcomes(outcomes);
    var runs := Unpack(outcomes).value;
    var kept := Kept(runs);
    forall i | 0 <= i < |kept| ensures Rectangular(kept[i].frame) {
      assert kept[i] in runs;
    }
  }

  predicate AllSet(m: map<nat, Frame>) {
    forall k :: 0 <= k < 6 ==> k in m
  }

  predicate AllReached(runs: seq<Run>, route: string -> Option<nat>) {
    forall k :: 0 <= k < 6 ==> LastRoutedTo(runs, k, route).Some?
  }

  /** The six buckets are all set exactly when each was reached by a run,
      and each holds its history with the last run routed to it. */
  lemma AssignAll(history: seq<Frame>, runs: seq<Run>, route: string -> Option<nat>)
    requires |history| == 6 && forall j :: 0 <= j < 6 ==> Rectangular(history[j])
    requires RunsRectangular(runs)
    ensures AllSet(Assign(history, runs, route)) <==> AllReached(runs, route)
    ensures forall k :: 0 <= k < 6 ==> (k in Assign(history, runs, route) <==> LastRoutedTo(runs, k, route).Some?)
    ensures forall k :: 0 <= k < 6 && LastRoutedTo(runs, k, route).Some? ==>
      (k in Assign(history, runs, route) &&
       Assign(history, runs, route)[k] == ConcatRows(history[k], LastRoutedTo(runs, k, route).value.frame))
  {
    var m := Assign(history, runs, route);
    forall k | 0 <= k < 6 ensures (k in m <==> LastRoutedTo(runs, k, route).Some?)
      && (k in m ==> m[k] == ConcatRows(history[k], LastRoutedTo(runs, k, route).value.frame))
    {
      AssignIsLastWins(history, runs, k, route);
    }
    if !AllSet(m) {
      var k :| 0 <= k < 6 && k !in m;
      assert LastRoutedTo(runs, k, route).None?;
    }
    if !AllReached(runs, route) {
      var k :| 0 <= k < 6 && LastRoutedTo(runs, k, route).None?;
      assert k !in m;
    }
  }

  // ---------------------------------------------------------------- retrospective

  /** The retrospective loop: a routed run with a non-empty frame is appended
      to its bucket's list. */
  function Buckets(runs: seq<Run>, route: string -> Option<nat>): (b: seq<seq<Frame>>)
    ensures |b| == 6
    ensures RunsRectangular(runs) ==>
      forall k, i :: 0 <= k < 6 && 0 <= i < |b[k]| ==> Rectangular(b[k][i])
    decreases |runs|
  {
    if |runs| == 0 then [[], [], [], [], [], []]
    else
      var b := Buckets(runs[..|runs| - 1], route);
      var last := runs[|runs| - 1];
      match route(last.testType)
      case Some(k) => if k >= 6 || IsEmpty(last.frame) then b else b[k := b[k] + [last.frame]]
      case None => b
  }

  /** Reference: the non-empty frames routed to bucket `k`, in order. */
  function RoutedFrames(runs: seq<Run>, k: nat, route: string -> Option<nat>): (r: seq<Frame>)
    ensures forall f :: f in r ==> exists i :: (0 <= i < |runs| && runs[i].frame == f &&
      route(runs[i].testType) == Some(k) && !IsEmpty(f))
    ensures RunsRectangular(runs) ==> forall i :: 0 <= i < |r| ==> Rectangular(r[i])
    decreases |runs|
  {
    if |runs| == 0 then []
    else
      var rest := RoutedFrames(runs[1..], k, route);
      assert forall i :: 1 <= i < |runs| ==> runs[i] == runs[1..][i - 1];
      (if route(runs[0].testType) == Some(k) && !IsEmpty(runs[0].frame) then [runs[0].frame] else []) + rest
  }

  lemma {:induction false} RoutedFramesSnoc(runs: seq<Run>, x: Run, k: nat, route: string -> Option<nat>)
    ensures RoutedFrames(runs + [x], k, route) ==
      RoutedFrames(runs, k, route) + (if route(x.testType) == Some(k) && !IsEmpty(x.frame) then [x.frame] else [])
    decreases |runs|
  {
    if |runs| > 0 {
      assert (runs + [x])[1..] == runs[1..] + [x];
      RoutedFramesSnoc(runs[1..], x, k, route);
    }
  }

  /** Unlike the prospective loop, nothing is lost: bucket `k` holds every
      non-empty frame routed to it, in order. */
  lemma {:induction false} BucketsKeepAll(runs: seq<Run>, k: nat, route: string -> Option<nat>)
    requires k < 6
    ensures Buckets(runs, route)[k] == RoutedFrames(runs, k, route)
    decreases |runs|
  {
    if |runs| > 0 {
      var init := runs[..|runs| - 1];
      var last := runs[|runs| - 1];
      BucketsKeepAll(init, k, route);
      BucketsSnoc(runs, k, route);
      assert runs == init + [last];
      RoutedFramesSnoc(init, last, k, route);
    }
  }

  /** One more run adds its frame to bucket `k` exactly when it is routed
      there and not empty. */
  lemma BucketsSnoc(runs: seq<Run>, k: nat, route: string -> Option<nat>)
    requires k < 6 && |runs| > 0
    ensures var last := runs[|runs| - 1];
      Buckets(runs, route)[k] == Buckets(runs[..|runs| - 1], route)[k]
        + (if route(last.testType) == Some(k) && !IsEmpty(last.frame) then [last.frame] else [])
  {
    var b := Buckets(runs[..|runs| - 1], route);
    var last := runs[|runs| - 1];
    match route(last.testType)
    case Some(j) =>
      if j >= 6 || IsEmpty(last.frame) {
        assert Buckets(runs, route) == b;
      } else {
        assert Buckets(runs, route) == b[j := b[j] + [last.frame]];
      }
    case None =>
      assert Buckets(runs, route) == b;
  }

  /** `pd.concat` of each bucket in turn; an empty bucket is a `ValueError`. */
  function ConcatBuckets(buckets: seq<seq<Frame>>): (r: Result<seq<Frame>>)
    requires forall k, i :: 0 <= k < |buckets| && 0 <= i < |buckets[k]| ==> Rectangular(buckets[k][i])
    ensures r.Ok? <==> forall k :: 0 <= k < |buckets| ==> |buckets[k]| > 0
    ensures r.Ok? ==> (|r.value| == |buckets| &&
      forall k :: 0 <= k < |buckets| ==> r.value[k] == ConcatAll(buckets[k]).value)
    decreases |buckets|
  {
    if |buckets| == 0 then Ok([])
    else if |buckets[0]| == 0 then Err(ValueError)
    else
      var tail := buckets[1..];
      assert forall k :: 0 <= k < |tail| ==> tail[k] == buckets[k + 1];
      var rest := ConcatBuckets(tail);
      if rest.Err? then rest
      else
        var r := [ConcatAll(buckets[0]).value] + rest.value;
        assert forall k :: 1 <= k < |buckets| ==> r[k] == rest.value[k - 1];
        Ok(r)
  }

  /** `f'hunter-{t}.csv'`. */
  function CsvName(t: string): string {
    "hunter-" + t + ".csv"
  }

  lemma CsvNameInjective(a: string, b: string)
    requires CsvName(a) == CsvName(b)
    ensures a == b
  {
    assert |a| == |b|;
    assert a == CsvName(a)[7..7 + |a|];
    assert b == CsvName(b)[7..7 + |b|];
  }

  /** Lines 360-380: a file for each distinct test type that routes. */
  function Saves(types: seq<string>, frames: seq<Frame>, route: string -> Option<nat>): (r: seq<(string, Frame)>)
    requires |frames| == 6
    ensures forall i :: 0 <= i < |r| ==> exists j :: (0 <= j < |types| && route(types[j]).Some? &&
      route(types[j]).value < 6 && r[i] == (CsvName(types[j]), frames[route(types[j]).value]))
    decreases |types|
  {
    if |types| == 0 then []
    else
      var rest := Saves(types[1..], frames, route);
      var k := route(types[0]);
      var r := (if k.Some? && k.value < 6 then [(CsvName(types[0]), frames[k.value])] else []) + rest;
      assert forall i :: 0 <= i < |r| ==> exists j :: (0 <= j < |types| && route(types[j]).Some? &&
        route(types[j]).value < 6 && r[i] == (CsvName(types[j]), frames[route(types[j]).value])) by {
        forall i | 0 <= i < |r| ensures exists j :: (0 <= j < |types| && route(types[j]).Some? &&
          route(types[j]).value < 6 && r[i] == (CsvName(types[j]), frames[route(types[j]).value]))
        {
          var off := |r| - |rest|;
          if i < off {
            assert r[i] == (CsvName(types[0]), frames[route(types[0]).value]);
          } else {
            assert r[i] == rest[i - off];
            var j :| 0 <= j < |types[1..]| && route(types[1..][j]).Some? && route(types[1..][j]).value < 6 &&
              rest[i - off] == (CsvName(types[1..][j]), frames[route(types[1..][j]).value]);
            assert types[1..][j] == types[j + 1];
          }
        }
      }
      r
  }

  /** Each file is named after one of the given types that routes. */
  lemma SavesNamedAfter(types: seq<string>, frames: seq<Frame>, route: string -> Option<nat>)
    requires |frames| == 6
    ensures forall i :: 0 <= i < |Saves(types, frames, route)| ==>
      exists t :: t in types && route(t).Some? && route(t).value < 6 && Saves(types, frames, route)[i].0 == CsvName(t)
  {
    var r := Saves(types, frames, route);
    forall i | 0 <= i < |r|
      ensures exists t :: t in types && route(t).Some? && route(t).value < 6 && r[i].0 == CsvName(t)
    {
      var j :| 0 <= j < |types| && route(types[j]).Some? && route(types[j]).value < 6 &&
        r[i] == (CsvName(types[j]), frames[route(types[j]).value]);
      assert types[j] in types;
    }
  }

  /** Lines 327-328: the test types of all runs, empty ones left out. */
  function TypesOf(runs: seq<Run>): (r: seq<string>)
    ensures forall t :: t in r <==> t != "" && exists i :: 0 <= i < |runs| && runs[i].testType == t
    decreases |runs|
  {
    if |runs| == 0 then []
    else
      var rest := TypesOf(runs[1..]);
      assert forall i :: 1 <= i < |runs| ==> runs[i] == runs[1..][i - 1];
      (if runs[0].testType != "" then [runs[0].testType] else []) + rest
  }

  /** A file is written for every distinct test type that routes, too. */
  lemma {:induction false} SavesComplete(types: seq<string>, frames: seq<Frame>, route: string -> Option<nat>, j: nat)
    requires |frames| == 6 && j < |types|
    requires route(types[j]).Some? && route(types[j]).value < 6
    ensures (CsvName(types[j]), frames[route(types[j]).value]) in Saves(types, frames, route)
    decreases |types|
  {
    if j > 0 {
      assert types[1..][j - 1] == types[j];
      SavesComplete(types[1..], frames, route, j - 1);
    }
  }

  /** Distinct test types give distinct file names. */
  lemma {:induction false} SavesNamesDistinct(types: seq<string>, frames: seq<Frame>, route: string -> Option<nat>)
    requires |frames| == 6 && Distinct(types)
    ensures forall i, j :: 0 <= i < j < |Saves(types, frames, route)| ==>
      Saves(types, frames, route)[i].0 != Saves(types, frames, route)[j].0
    decreases |types|
  {
    if |types| > 0 {
      var r := Saves(types, frames, route);
      var rest := Saves(types[1..], frames, route);
      SavesNamesDistinct(types[1..], frames, route);
      var off := |r| - |rest|;
      assert forall i :: off <= i < |r| ==> r[i] == rest[i - off];
      forall i, j | 0 <= i < j < |r| ensures r[i].0 != r[j].0 {
        if i < off {
          assert r[i].0 == CsvName(types[0]);
          var j' :| 0 <= j' < |types[1..]| && route(types[1..][j']).Some? && route(types[1..][j']).value < 6 &&
            rest[j - off] == (CsvName(types[1..][j']), frames[route(types[1..][j']).value]);
          assert types[1..][j'] == types[j' + 1] != types[0];
          if r[i].0 == r[j].0 {
            CsvNameInjective(types[0], types[j' + 1]);
          }
        } else {
          assert r[i] == rest[i - off] && r[j] == rest[j - off];
          assert rest[i - off].0 != rest[j - off].0;
        }
      }
    }
  }

  /** Every bucket received at least one non-empty frame. */
  predicate AllRouted(runs: seq<Run>, route: string -> Option<nat>) {
    forall k :: 0 <= k < 6 ==> |RoutedFrames(runs, k, route)| > 0
  }

  /** Lines 330-380 after the reports are read: stack each bucket, then
      write one file per distinct test type that routes. */
  function WriteBuckets(runs: seq<Run>, route: string -> Option<nat>): (r: Result<seq<(string, Frame)>>)
    requires RunsRectangular(runs)
    ensures r.Ok? ==> forall i :: 0 <= i < |r.value| ==>
      exists t :: t in TypesOf(runs) && route(t).Some? && route(t).value < 6 && r.value[i].0 == CsvName(t)
  {
    var frames :- ConcatBuckets(Buckets(runs, route));
    var files := Saves(Unique(TypesOf(runs)), frames, route);
    SavesNamedAfter(Unique(TypesOf(runs)), frames, route);
    Ok(files)
  }

  /** The files of a retrospective rebuild of `runs`: one per test type
      seen that routes, named after it and holding every non-empty frame
      routed to its bucket, stacked in order; no two share a name. */
  predicate FilesOfRuns(runs: seq<Run>, files: seq<(string, Frame)>)
    requires RunsRectangular(runs)
  {
    && (forall i :: 0 <= i < |files| ==>
          exists t :: (t in TypesOf(runs) && Route(t).Some? && Route(t).value < 6 &&
            files[i].0 == CsvName(t) &&
            ConcatAll(RoutedFrames(runs, Route(t).value, Route)) == Ok(files[i].1)))
    && (forall t :: t in TypesOf(runs) && Route(t).Some? && Route(t).value < 6 ==>
          exists i :: 0 <= i < |files| && files[i].0 == CsvName(t))
    && (forall i, j :: 0 <= i < j < |files| ==> files[i].0 != files[j].0)
  }

  /** The retrospective main: the files written, as (name, frame) pairs.
      An untyped report raises before anything is written; so does an
      empty bucket, whose `pd.concat` raises `ValueError`. */
  function RetrospectiveRun(outcomes: seq<Result<Option<Run>>>): (r: Result<seq<(string, Frame)>>)
    requires forall i :: 0 <= i < |outcomes| && outcomes[i].Ok? && outcomes[i].value.Some? ==>
      Rectangular(outcomes[i].value.value.frame)
    ensures Unpack(outcomes).Err? ==> r == Err(Unpack(outcomes).error)
    ensures Unpack(outcomes).Ok? ==> (r.Ok? <==> AllRouted(Unpack(outcomes).value, Route))
    ensures Unpack(outcomes).Ok? && r.Err? ==> r.error == ValueError
    ensures r.Ok? ==> RunsRectangular(Unpack(outcomes).value) && FilesOfRuns(Unpack(outcomes).value, r.value)
  {
    match Unpack(outcomes)
    case Err(e) => Err(e)
    case Ok(runs) =>
      RunsOfOutcomes(outcomes);
      RetrospectiveFacts(runs);
      WriteBuckets(runs, Route)
  }

  lemma RunsOfOutcomes(outcomes: seq<Result<Option<Run>>>)
    requires forall i :: 0 <= i < |outcomes| && outcomes[i].Ok? && outcomes[i].value.Some? ==>
      Rectangular(outcomes[i].value.value.frame)
    requires Unpack(outcomes).Ok?
    ensures RunsRectangular(Unpack(outcomes).value)
  {
    var runs := Unpack(outcomes).value;
    forall i | 0 <= i < |runs| ensures Rectangular(runs[i].frame) {
      assert outcomes[i] == Ok(Some(runs[i]));
    }
  }

  /** The stacking succeeds exactly when every bucket received a non-empty
      frame. */
  lemma WriteBucketsOk(runs: seq<Run>, route: string -> Option<nat>)
    requires RunsRectangular(runs)
    ensures WriteBuckets(runs, route).Ok? <==> AllRouted(runs, route)
  {
    var b := Buckets(runs, route);
    forall k | 0 <= k < 6 ensures b[k] == RoutedFrames(runs, k, route) {
      BucketsKeepAll(runs, k, route);
    }
    if !AllRouted(runs, route) {
      var k :| 0 <= k < 6 && |RoutedFrames(runs, k, route)| == 0;
      assert |b[k]| == 0;
    }
  }

  /** With every bucket reached, the run writes the saves of the stacked
      buckets. */
  lemma WriteBucketsIs(runs: seq<Run>, route: string -> Option<nat>)
    requires RunsRectangular(runs) && AllRouted(runs, route)
    ensures ConcatBuckets(Buckets(runs, route)).Ok?
    ensures WriteBuckets(runs, route) == Ok(Saves(Unique(TypesOf(runs)), ConcatBuckets(Buckets(runs, route)).value, route))
  {
    WriteBucketsOk(runs, route);
  }

  /** The stacked bucket `k` is the stack of the frames routed to it. */
  lemma StackedBucket(runs: seq<Run>, route: string -> Option<nat>, k: nat)
    requires RunsRectangular(runs) && AllRouted(runs, route) && k < 6
    ensures ConcatBuckets(Buckets(runs, route)).Ok?
    ensures ConcatBuckets(Buckets(runs, route)).value[k] == ConcatAll(RoutedFrames(runs, k, route)).value
  {
    WriteBucketsIs(runs, route);
    BucketsKeepAll(runs, k, route);
  }

  /** File `i` is named after a test type seen and holds all the frames
      routed to that type's bucket, stacked in order. */
  lemma SavedFile(runs: seq<Run>, route: string -> Option<nat>, i: nat)
    requires RunsRectangular(runs) && AllRouted(runs, route)
    requires WriteBuckets(runs, route).Ok? && i < |WriteBuckets(runs, route).value|
    ensures exists t :: (t in TypesOf(runs) && route(t).Some? && route(t).value < 6 &&
        WriteBuckets(runs, route).value[i].0 == CsvName(t) &&
        ConcatAll(RoutedFrames(runs, route(t).value, route)) == Ok(WriteBuckets(runs, route).value[i].1))
  {
    WriteBucketsIs(runs, route);
    var frames := ConcatBuckets(Buckets(runs, route)).value;
    var types := Unique(TypesOf(runs));
    var files := Saves(types, frames, route);
    assert exists j :: (0 <= j < |types| && route(types[j]).Some? && route(types[j]).value < 6 &&
      files[i] == (CsvName(types[j]), frames[route(types[j]).value]));
    var j :| 0 <= j < |types| && route(types[j]).Some? && route(types[j]).value < 6 &&
      files[i] == (CsvName(types[j]), frames[route(types[j]).value]);
    assert types[j] in types;
    StackedBucket(runs, route, route(types[j]).value);
  }

  /** No two files share a name. */
  lemma WriteBucketsNamesDistinct(runs: seq<Run>, route: string -> Option<nat>)
    requires RunsRectangular(runs) && AllRouted(runs, route)
    ensures WriteBuckets(runs, route).Ok?
    ensures forall i, j :: 0 <= i < j < |WriteBuckets(runs, route).value| ==>
      WriteBuckets(runs, route).value[i].0 != WriteBuckets(runs, route).value[j].0
  {
    WriteBucketsIs(runs, route);
    SavesNamesDistinct(Unique(TypesOf(runs)), ConcatBuckets(Buckets(runs, route)).value, route);
  }

  /** Each file is named after a test type seen and holds all the frames
      routed to that type's bucket, stacked in order. */
  lemma WriteBucketsFiles(runs: seq<Run>, route: string -> Option<nat>)
    requires RunsRectangular(runs) && AllRouted(runs, route)
    ensures WriteBuckets(runs, route).Ok?
    ensures forall i :: 0 <= i < |WriteBuckets(runs, route).value| ==>
      exists t :: (t in TypesOf(runs) && route(t).Some? && route(t).value < 6 &&
        WriteBuckets(runs, route).value[i].0 == CsvName(t) &&
        ConcatAll(RoutedFrames(runs, route(t).value, route)) == Ok(WriteBuckets(runs, route).value[i].1))
  {
    WriteBucketsOk(runs, route);
    var files := WriteBuckets(runs, route).value;
    forall i | 0 <= i < |files|
      ensures exists t :: (t in TypesOf(runs) && route(t).Some? && route(t).value < 6 &&
        files[i].0 == CsvName(t) && ConcatAll(RoutedFrames(runs, route(t).value, route)) == Ok(files[i].1))
    {
      SavedFile(runs, route, i);
    }
  }

  /** Conversely, every test type seen that routes gets its file. */
  lemma WriteBucketsCovers(runs: seq<Run>, route: string -> Option<nat>, t: string)
    requires RunsRectangular(runs) && WriteBuckets(runs, route).Ok?
    requires t in TypesOf(runs) && route(t).Some? && route(t).value < 6
    ensures exists i :: 0 <= i < |WriteBuckets(runs, route).value| && WriteBuckets(runs, route).value[i].0 == CsvName(t)
  {
    var frames := ConcatBuckets(Buckets(runs, route)).value;
    var types := Unique(TypesOf(runs));
    var j :| 0 <= j < |types| && types[j] == t;
    SavesComplete(types, frames, route, j);
    var files := Saves(types, frames, route);
    assert WriteBuckets(runs, route) == Ok(files);
    var i :| 0 <= i < |files| && files[i] == (CsvName(t), frames[route(t).value]);
  }

  /** Everything the retrospective main promises about the files of one
      set of runs under the script's routing. */
  lemma RetrospectiveFacts(runs: seq<Run>)
    requires RunsRectangular(runs)
    ensures WriteBuckets(runs, Route).Ok? <==> AllRouted(runs, Route)
    ensures WriteBuckets(runs, Route).Err? ==> WriteBuckets(runs, Route).error == ValueError
    ensures WriteBuckets(runs, Route).Ok? ==> FilesOfRuns(runs, WriteBuckets(runs, Route).value)
  {
    WriteBucketsOk(runs, Route);
    if AllRouted(runs, Route) {
      RetrospectiveFiles(runs);
    } else {
      ConcatBucketsError(Buckets(runs, Route));
    }
  }

  lemma RetrospectiveFiles(runs: seq<Run>)
    requires RunsRectangular(runs) && AllRouted(runs, Route)
    ensures WriteBuckets(runs, Route).Ok?
    ensures FilesOfRuns(runs, WriteBuckets(runs, Route).value)
  {
    WriteBucketsFiles(runs, Route);
    WriteBucketsNamesDistinct(runs, Route);
    var files := WriteBuckets(runs, Route).value;
    forall t | t in TypesOf(runs) && Route(t).Some? && Route(t).value < 6
      ensures exists i :: 0 <= i < |files| && files[i].0 == CsvName(t)
    {
      WriteBucketsCovers(runs, Route, t);
    }
  }

  /** `pd.concat([])` raises `ValueError`, and that is the only error of
      the stacking. */
  lemma {:induction false} ConcatBucketsError(buckets: seq<seq<Frame>>)
    requires forall k, i :: 0 <= k < |buckets| && 0 <= i < |buckets[k]| ==> Rectangular(buckets[k][i])
    ensures ConcatBuckets(buckets).Err? ==> ConcatBuckets(buckets).error == ValueError
    decreases |buckets|
  {
    if |buckets| > 0 && |buckets[0]| > 0 {
      assert forall k :: 1 <= k < |buckets| ==> buckets[1..][k - 1] == buckets[k];
      ConcatBucketsError(buckets[1..]);
    }
  }
}

=== FILE: legacy.dfy ===
/** The first version of the digest (src/scripts/cassandra_email/create_send_email.py):
    no ledger and no SHA cache; the first detector dict is split into the bad
    changes and the bad changes beyond the threshold, and one of the two
    lists is mailed unconditionally. */
module LegacyDigest {
  import opened Wrappers
  import opened Strings
  import opened Detector
  import Digest

  /** `THRESH_PERF_REGRESS` of the legacy constants. */
  const THRESH: real := 11.0
  const THRESH_TEXT: string := "11"

  /** `ALL_BAD_SIGNIF_CHANGES`: mail every bad change, or only those beyond
      the threshold. */
  const ALL_BAD_SIGNIF_CHANGES: bool := false

  /** The one test whose changes are read, whatever the dict's first key. */
  const FIXED_KEY: string := "lwt-fixed-100-partitions"

  /** `TEMPLATE_MSG` of the legacy constants, spelt in pieces: a greeting,
      the marker (three newlines) and the signature, which together read
      "Hello,\n\nPlease find the performance regressions detected by hunter
      as follows:\n\n\n\nBest regards,\n\nMarianne". */
  const TEMPLATE: string := GREETING + Digest.MARKER + SIGNATURE

  const PLEASE: string := "Please find the " + "performance regressions " + "detected by hunter " + "as follows:"
  const GREETING: string := "Hello," + "\n\n" + PLEASE
  const SIGNATURE: string := "\n" + "Best regards," + "\n\n" + "Marianne"

  /** The legacy sentence's first line, without its newline. */
  function Context(testType: string, time: string, shas: (string, string)): string {
    Digest.Head(testType, time) + Digest.ShaPhrase(shas) + ":"
  }

  /** The legacy sentence: like the digest's, except that the verdict goes on
      a second, tab-indented line. */
  function Render(testType: string, time: string, shas: (string, string), c: Change): (line: string)
    ensures StartsWith(line, Digest.Head(testType, time))
    ensures EndsWith(line, "\t " + Digest.Verdict(c) + "\n")
  {
    var first := Context(testType, time, shas) + "\n";
    var second := "\t " + Digest.Verdict(c) + "\n";
    assert (first + second)[..|Digest.Head(testType, time)|] == Digest.Head(testType, time);
    assert (first + second)[|first|..] == second;
    first + second
  }

  lemma ConcatTwo(a: string, b: string)
    ensures Concat([a, b]) == a + b
  {
    assert [a, b][1..] == [b];
    assert Concat([b]) == b + Concat([]);
  }

  /** With newline-free fields, a legacy sentence reads back as exactly two
      lines: the context, then the tab-indented verdict. */
  lemma RenderSpansTwoLines(testType: string, time: string, shas: (string, string), c: Change)
    requires Digest.NoNewline(testType) && Digest.NoNewline(time)
    requires Digest.NoNewline(shas.0) && Digest.NoNewline(shas.1)
    requires Digest.NoNewline(c.metric) && Digest.NoNewline(c.percent.text)
    ensures ReadLines(Render(testType, time, shas, c))
         == [Context(testType, time, shas) + "\n", "\t " + Digest.Verdict(c) + "\n"]
  {
    Digest.HeadNoNewline(testType, time);
    Digest.ShaPhraseNoNewline(shas);
    Digest.VerdictNoNewline(c);
    var context := Context(testType, time, shas);
    var verdict := "\t " + Digest.Verdict(c);
    Digest.NoNewlineConcat3(Digest.Head(testType, time), Digest.ShaPhrase(shas), ":");
    Digest.NoNewlineConcat3("\t ", Digest.Verdict(c), "");
    assert verdict + "" == verdict;
    Digest.LineOfSentence(context);
    Digest.LineOfSentence(verdict);
    ConcatTwo(context + "\n", verdict + "\n");
    ReadLinesOfLines([context + "\n", verdict + "\n"]);
  }

  /** A bad change in its metric's direction, of any size. */
  predicate IsBad(c: Change) {
    if IsThroughput(c.metric) then c.percent.value < 0.0 else c.percent.value > 0.0
  }

  /** A bad change that also lies beyond the threshold (the nested test). */
  predicate IsBeyond(c: Change, threshold: real) {
    if IsThroughput(c.metric) then c.percent.value < 0.0 && c.percent.value < -threshold
    else c.percent.value > 0.0 && c.percent.value > threshold
  }

  /** For a non-negative threshold the nested test is the digest's filter,
      and "bad" is that filter at threshold zero. */
  lemma BeyondIsHighlyBad(c: Change, threshold: real)
    requires threshold >= 0.0
    ensures IsBeyond(c, threshold) <==> Digest.IsHighlyBad(c, threshold)
    ensures IsBad(c) <==> Digest.IsHighlyBad(c, 0.0)
  {
  }

  /** The non-negative threshold above is needed: for every negative
      threshold some change passes the digest's filter but not the nested
      test, which still demands a bad direction. */
  lemma NegativeThresholdDiffers(threshold: real)
    requires threshold < 0.0
    ensures exists c :: Digest.IsHighlyBad(c, threshold) && !IsBeyond(c, threshold)
  {
    var c := Change("p99", Percent("", threshold / 2.0));
    assert Digest.IsHighlyBad(c, threshold) && !IsBeyond(c, threshold);
  }

  /** Both lists of `get_lists_of_signif_changes_w_context`. */
  datatype Lists = Lists(bad: seq<string>, beyond: seq<string>)

  /** `ys` keeps some of the elements of `xs`, in order. */
  predicate IsSubsequence(ys: seq<string>, xs: seq<string>)
    decreases |xs|
  {
    if |ys| == 0 then true
    else if |xs| == 0 then false
    else if ys[0] == xs[0] then IsSubsequence(ys[1..], xs[1..])
    else IsSubsequence(ys, xs[1..])
  }

  /** The SHAs of a date, looked up afresh for every time entry. */
  function Shas(time: string, lookup: Digest.ShaLookup): (string, string) {
    (lookup.cassandra(DateKey(time)), lookup.falloutTests(DateKey(time)))
  }

  /** The inner loops over the (time entry, change) pairs, in order: each
      rendering is appended to the bad list when bad, and also to the beyond
      list when beyond the threshold. */
  function Classify(testType: string, cands: seq<(TimeEntry, Change)>, lookup: Digest.ShaLookup,
                    threshold: real): (r: Lists)
    ensures |r.beyond| <= |r.bad| <= |cands|
    ensures IsSubsequence(r.beyond, r.bad)
    decreases |cands|
  {
    if |cands| == 0 then Lists([], [])
    else
      var p := cands[0];
      var rest := Classify(testType, cands[1..], lookup, threshold);
      var line := Render(testType, p.0.time, Shas(p.0.time, lookup), p.1);
      if !IsBad(p.1) then rest
      else if IsBeyond(p.1, threshold) then Lists([line] + rest.bad, [line] + rest.beyond)
      else
        SubsequenceOfLonger(rest.beyond, rest.bad, line);
        Lists([line] + rest.bad, rest.beyond)
  }

  /** The renderings of `ps`, in order. */
  function RenderEach(testType: string, ps: seq<(TimeEntry, Change)>, lookup: Digest.ShaLookup): (r: seq<string>)
    ensures |r| == |ps|
    decreases |ps|
  {
    if |ps| == 0 then []
    else [Render(testType, ps[0].0.time, Shas(ps[0].0.time, lookup), ps[0].1)] + RenderEach(testType, ps[1..], lookup)
  }

  /** For a non-negative threshold, the legacy lists are the digest's
      filter at threshold zero and at the threshold, rendered in the legacy
      form, order and repetitions kept. */
  lemma {:induction false} ClassifyIsDigestFilter(testType: string, cands: seq<(TimeEntry, Change)>,
                                                  lookup: Digest.ShaLookup, threshold: real)
    requires threshold >= 0.0
    ensures Classify(testType, cands, lookup, threshold).bad
         == RenderEach(testType, Digest.KeptCandidates(cands, 0.0), lookup)
    ensures Classify(testType, cands, lookup, threshold).beyond
         == RenderEach(testType, Digest.KeptCandidates(cands, threshold), lookup)
    decreases |cands|
  {
    if |cands| > 0 {
      ClassifyIsDigestFilter(testType, cands[1..], lookup, threshold);
      BeyondIsHighlyBad(cands[0].1, threshold);
    }
  }

  /** `get_lists_of_signif_changes_w_context` on the list of dicts: the loop
      returns inside its first iteration, so only the first dict is read;
      `next(iter(d))` on an empty dict raises `StopIteration`, a dict without
      the fixed key raises `KeyError`, and an empty list falls through to
      `None`. */
  function Select(dicts: seq<HunterDict>, lookup: Digest.ShaLookup): (r: Result<Option<Lists>>)
    ensures r.Ok? <==> |dicts| == 0 || (|dicts[0]| > 0 && Get(dicts[0], FIXED_KEY).Some?)
    ensures r == Ok(None) <==> |dicts| == 0
    ensures r.Err? ==> r.error == (if |dicts[0]| == 0 then StopIteration else KeyError(FIXED_KEY))
  {
    if |dicts| == 0 then Ok(None)
    else if |dicts[0]| == 0 then Err(StopIteration)
    else
      match Get(dicts[0], FIXED_KEY)
      case None => Err(KeyError(FIXED_KEY))
      case Some(entries) =>
        Ok(Some(Classify(dicts[0][0].0, Digest.Candidates(entries), lookup, THRESH)))
  }

  /** Dicts after the first are never looked at. */
  lemma SelectReadsFirstDictOnly(d: HunterDict, rest: seq<HunterDict>, lookup: Digest.ShaLookup)
    ensures Select([d] + rest, lookup) == Select([d], lookup)
  {
  }

  /** The lines selected are the first dict's fixed-key changes, labelled
      with the dict's FIRST key as the test type. */
  lemma SelectedLists(dicts: seq<HunterDict>, lookup: Digest.ShaLookup)
    requires |dicts| > 0 && |dicts[0]| > 0 && Get(dicts[0], FIXED_KEY).Some?
    ensures var cands := Digest.Candidates(Get(dicts[0], FIXED_KEY).value);
      && Select(dicts, lookup).value.Some?
      && Select(dicts, lookup).value.value.bad == RenderEach(dicts[0][0].0, Digest.KeptCandidates(cands, 0.0), lookup)
      && Select(dicts, lookup).value.value.beyond == RenderEach(dicts[0][0].0, Digest.KeptCandidates(cands, THRESH), lookup)
  {
    ClassifyIsDigestFilter(dicts[0][0].0, Digest.Candidates(Get(dicts[0], FIXED_KEY).value), lookup, THRESH);
  }

  /** `create_email_w_hunter_regressions`: the chosen list, one sentence
      per `"\n"`-joined item, put in place of the template's marker. The
      body is written even when the list is empty. */
  function Body(lists: Lists, allBad: bool): (body: string)
    ensures body == GREETING + "\n\n" + Join(if allBad then lists.bad else lists.beyond, "\n") + "\n" + SIGNATURE
  {
    TemplateBody(Join(if allBad then lists.bad else lists.beyond, "\n"));
    Digest.EmailBody(TEMPLATE, Join(if allBad then lists.bad else lists.beyond, "\n"))
  }

  /** The subject of `read_txt_send_email`. */
  function Subject(allBad: bool): (subject: string)
    ensures EndsWith(subject, "performance regressions detected by hunter")
    ensures !allBad ==> subject == Digest.Subject(THRESH_TEXT)
    ensures allBad ==> subject == "All " + "performance regressions detected by hunter"
  {
    var tail := "performance regressions detected by hunter";
    var head := if allBad then "All " else "The most significant (+/- " + THRESH_TEXT + "%) ";
    assert (head + tail)[|head|..] == tail;
    head + tail
  }

  /** `main`: the subject and body mailed, or the exception that stops it. An
      empty list of dicts makes the selection `None`, whose unpacking raises
      `TypeError`. */
  function Main(dicts: seq<HunterDict>, lookup: Digest.ShaLookup): (r: Result<(string, string)>)
    ensures r.Ok? <==> |dicts| > 0 && |dicts[0]| > 0 && Get(dicts[0], FIXED_KEY).Some?
    ensures |dicts| == 0 ==> r == Err(TypeError)
    ensures r.Ok? ==> r.value.0 == Subject(ALL_BAD_SIGNIF_CHANGES)
  {
    match Select(dicts, lookup)
    case Err(e) => Err(e)
    case Ok(None) => Err(TypeError)
    case Ok(Some(lists)) => Ok((Subject(ALL_BAD_SIGNIF_CHANGES), Body(lists, ALL_BAD_SIGNIF_CHANGES)))
  }

  /** With the shipped flag, the mail lists the first dict's fixed-key changes
      beyond the threshold, in the detector's order, repetitions kept. */
  lemma MainMailsBeyondThreshold(dicts: seq<HunterDict>, lookup: Digest.ShaLookup)
    requires |dicts| > 0 && |dicts[0]| > 0 && Get(dicts[0], FIXED_KEY).Some?
    ensures var kept := Digest.KeptCandidates(Digest.Candidates(Get(dicts[0], FIXED_KEY).value), THRESH);
      Main(dicts, lookup) == Ok((Digest.Subject(THRESH_TEXT),
        GREETING + "\n\n" + Join(RenderEach(dicts[0][0].0, kept, lookup), "\n") + "\n" + SIGNATURE))
  {
    SelectedLists(dicts, lookup);
  }

  /** No run of three newlines. */
  predicate NoMarker(s: string) {
    forall i :: 0 <= i && i + 2 < |s| ==> !(s[i] == '\n' && s[i + 1] == '\n' && s[i + 2] == '\n')
  }

  lemma NoMarkerNotContains(s: string)
    requires NoMarker(s)
    ensures !Contains(s, Digest.MARKER)
  {
    ContainsIffOccurs(s, Digest.MARKER);
    forall i: nat ensures !OccursAt(s, Digest.MARKER, i) {
      if i + 3 <= |s| {
        var w := s[i..i + 3];
        assert w[0] == s[i] && w[1] == s[i + 1] && w[2] == s[i + 2];
        assert !(w[0] == '\n' && w[1] == '\n' && w[2] == '\n');
      }
    }
  }

  lemma NoMarkerLeadingNewline(b: string)
    requires Digest.NoNewline(b)
    ensures NoMarker("\n" + b)
  {
    var s := "\n" + b;
    forall i | 0 <= i && i + 2 < |s| ensures !(s[i] == '\n' && s[i + 1] == '\n' && s[i + 2] == '\n') {
      assert s[i + 1] == b[i] && b[i] in b;
    }
  }

  /** Two blank-line-free texts joined by one blank line have no run of
      three newlines, unless a newline touches the join. */
  lemma NoMarkerJoin(a: string, b: string)
    requires NoMarker(a) && NoMarker(b)
    requires |a| == 0 || a[|a| - 1] != '\n'
    requires |b| == 0 || b[0] != '\n'
    ensures NoMarker(a + "\n\n" + b)
  {
    var s := a + "\n\n" + b;
    forall i | 0 <= i && i + 2 < |s| ensures !(s[i] == '\n' && s[i + 1] == '\n' && s[i + 2] == '\n') {
      if i + 2 < |a| {
        assert s[i] == a[i] && s[i + 1] == a[i + 1] && s[i + 2] == a[i + 2];
      } else if i + 1 == |a| {
        assert s[i] == a[i];
      } else if i + 2 == |a| {
        assert s[i + 1] == a[i + 1];
      } else if i == |a| {
        assert s[i + 2] == b[0];
      } else if i == |a| + 1 {
        assert s[i + 1] == b[0];
      } else {
        var j := i - |a| - 2;
        assert s[i] == b[j] && s[i + 1] == b[j + 1] && s[i + 2] == b[j + 2];
      }
    }
  }

  /** The legacy template holds the marker exactly once, between the
      greeting and the signature, so the body is the greeting, a blank line,
      the chosen changes and the signature after another blank line. */
  lemma TemplateBody(text: string)
    ensures Digest.EmailBody(TEMPLATE, text) == GREETING + "\n\n" + text + "\n" + SIGNATURE
  {
    GreetingNoMarker();
    SignatureNoMarker();
    Digest.EmailBodyInsertsOnce(GREETING, SIGNATURE, text);
  }

  lemma GreetingNoMarker()
    ensures !Contains(GREETING + "\n\n", Digest.MARKER)
  {
    var words := ["Please find the ", "performance regressions ", "detected by hunter ", "as follows:"];
    Digest.NoNewlineConcat5(words[0], words[1], words[2], words[3], "");
    assert PLEASE == words[0] + words[1] + words[2] + words[3] + "";
    Digest.NoNewlineConcat3("Hello,", "", "");
    assert "Hello," + "" + "" == "Hello,";
    NoMarkerNoNewline("Hello,");
    NoMarkerNoNewline(PLEASE);
    NoMarkerJoin("Hello,", PLEASE);
    assert GREETING[|GREETING| - 1] == ':';
    NoMarkerJoin(GREETING, "");
    assert GREETING + "\n\n" + "" == GREETING + "\n\n";
    NoMarkerNotContains(GREETING + "\n\n");
  }

  lemma SignatureNoMarker()
    ensures !Contains(SIGNATURE, Digest.MARKER)
  {
    Digest.NoNewlineConcat3("Best regards,", "", "");
    Digest.NoNewlineConcat3("Marianne", "", "");
    assert "Best regards," + "" + "" == "Best regards,";
    assert "Marianne" + "" + "" == "Marianne";
    NoMarkerLeadingNewline("Best regards,");
    NoMarkerNoNewline("Marianne");
    NoMarkerJoin("\n" + "Best regards,", "Marianne");
    NoMarkerNotContains(SIGNATURE);
  }

  lemma NoMarkerNoNewline(s: string)
    requires Digest.NoNewline(s)
    ensures NoMarker(s)
  {
    forall i | 0 <= i && i + 2 < |s| ensures s[i] != '\n' {
      assert s[i] in s;
    }
  }

  /** A subsequence stays one when an element is put in front. */
  lemma {:induction false} SubsequenceOfLonger(ys: seq<string>, xs: seq<string>, x: string)
    requires IsSubsequence(ys, xs)
    ensures IsSubsequence(ys, [x] + xs)
    decreases |xs|, 1
  {
    assert ([x] + xs)[1..] == xs;
    if |ys| > 0 && ys[0] == x {
      SubsequenceDropHead(ys, xs);
    }
  }

  /** Dropping the first element of a subsequence keeps it one. */
  lemma {:induction false} SubsequenceDropHead(ys: seq<string>, xs: seq<string>)
    requires |ys| > 0 && IsSubsequence(ys, xs)
    ensures IsSubsequence(ys[1..], xs)
    decreases |xs|, 0
  {
    assert xs == [xs[0]] + xs[1..];
    if ys[0] == xs[0] {
      SubsequenceOfLonger(ys[1..], xs[1..], xs[0]);
    } else {
      SubsequenceDropHead(ys, xs[1..]);
      SubsequenceOfLonger(ys[1..], xs[1..], xs[0]);
    }
  }
}

=== FILE: strings.dfy ===
/** Python `str` operations used by the digest pipeline, on `seq<char>`:
    `startswith`, `in`, `find`, `split`, `join`, `replace`, `rstrip`,
    `lstrip` and file `readlines`. */
module Strings {
  import opened Wrappers

  predicate StartsWith(s: string, prefix: string) {
    |prefix| <= |s| && s[..|prefix|] == prefix
  }

  predicate EndsWith(s: string, suffix: string) {
    |suffix| <= |s| && s[|s| - |suffix|..] == suffix
  }

  /** `sub` occurs in `s` starting at index `i`. */
  predicate OccursAt(s: string, sub: string, i: nat) {
    i + |sub| <= |s| && s[i..i + |sub|] == sub
  }

  lemma StartsWithOccurs(s: string, sub: string)
    ensures StartsWith(s, sub) <==> OccursAt(s, sub, 0)
  {
    if |sub| <= |s| {
      assert s[0..|sub|] == s[..|sub|];
    }
  }

  /** An occurrence past index 0 is an occurrence in the tail. */
  lemma OccursInTail(s: string, sub: string)
    requires |s| > 0
    ensures forall i: nat :: 1 <= i ==> (OccursAt(s, sub, i) <==> OccursAt(s[1..], sub, i - 1))
  {
    forall i: nat | 1 <= i
      ensures OccursAt(s, sub, i) <==> OccursAt(s[1..], sub, i - 1)
    {
      if i + |sub| <= |s| {
        assert s[1..][i - 1..i - 1 + |sub|] == s[i..i + |sub|];
      }
    }
  }

  /** Index of the leftmost occurrence of `sub` in `s` (Python's `str.find`,
      with `None` for -1). */
  function FindFirst(s: string, sub: string): (r: Option<nat>)
    ensures r.Some? ==> OccursAt(s, sub, r.value)
    ensures r.Some? ==> forall i: nat :: i < r.value ==> !OccursAt(s, sub, i)
    ensures r.None? ==> forall i: nat :: !OccursAt(s, sub, i)
    decreases |s|
  {
    StartsWithOccurs(s, sub);
    if StartsWith(s, sub) then Some(0)
    else if |s| == 0 then None
    else
      OccursInTail(s, sub);
      match FindFirst(s[1..], sub)
      case None => None
      case Some(k) => Some(k + 1)
  }

  /** The leftmost occurrence is the one with no occurrence before it. */
  lemma FindFirstIs(s: string, sub: string, i: nat)
    requires OccursAt(s, sub, i)
    requires forall j: nat :: j < i ==> !OccursAt(s, sub, j)
    ensures FindFirst(s, sub) == Some(i)
  {
  }

  /** Python's `sub in s`. */
  predicate Contains(s: string, sub: string) {
    FindFirst(s, sub).Some?
  }

  lemma ContainsIffOccurs(s: string, sub: string)
    ensures Contains(s, sub) <==> exists i: nat :: OccursAt(s, sub, i)
  {
  }

  /** Python's `sep.join(parts)`. */
  function Join(parts: seq<string>, sep: string): string
    decreases |parts|
  {
    if |parts| == 0 then ""
    else if |parts| == 1 then parts[0]
    else parts[0] + sep + Join(parts[1..], sep)
  }

  /** Python's `''.join(parts)`. */
  function Concat(parts: seq<string>): string
    decreases |parts|
  {
    if |parts| == 0 then "" else parts[0] + Concat(parts[1..])
  }

  lemma {:induction false} ConcatAppend(a: seq<string>, b: seq<string>)
    ensures Concat(a + b) == Concat(a) + Concat(b)
    decreases |a|
  {
    if |a| == 0 {
      assert a + b == b;
    } else {
      assert (a + b)[1..] == a[1..] + b;
      ConcatAppend(a[1..], b);
    }
  }

  /** No prefix of `s` shorter than the occurrence at `i` holds `sub`. */
  lemma NoOccurrenceInPrefix(s: string, sub: string, i: nat)
    requires |sub| > 0 && i <= |s|
    requires forall j: nat :: j < i ==> !OccursAt(s, sub, j)
    ensures !Contains(s[..i], sub)
  {
    if Contains(s[..i], sub) {
      var j := FindFirst(s[..i], sub).value;
      assert s[..i][j..j + |sub|] == s[j..j + |sub|];
      assert OccursAt(s, sub, j);
      assert false;
    }
  }

  /** A prefix of text without `sub` is without `sub` too. */
  lemma PrefixNotContains(s: string, sub: string, k: nat)
    requires !Contains(s, sub) && k <= |s|
    ensures !Contains(s[..k], sub)
  {
    if Contains(s[..k], sub) {
      var j := FindFirst(s[..k], sub).value;
      assert s[..k][j..j + |sub|] == s[j..j + |sub|];
      assert OccursAt(s, sub, j);
      assert false;
    }
  }

  /** Python's `s.split(sep)` for a non-empty separator: the pieces between
      the successive leftmost non-overlapping occurrences of `sep`. */
  function Split(s: string, sep: string): (parts: seq<string>)
    requires |sep| > 0
    ensures |parts| >= 1
    ensures Join(parts, sep) == s
    ensures forall k :: 0 <= k < |parts| ==> !Contains(parts[k], sep)
    ensures |parts| == 1 <==> !Contains(s, sep)
    decreases |s|
  {
    match FindFirst(s, sep)
    case None => [s]
    case Some(i) =>
      var head := s[..i];
      var tail := s[i + |sep|..];
      var rest := Split(tail, sep);
      NoOccurrenceInPrefix(s, sep, i);
      SplitStep(s, sep, i, head, tail, rest);
      [head] + rest
  }

  lemma SplitStep(s: string, sep: string, i: nat, head: string, tail: string, rest: seq<string>)
    requires OccursAt(s, sep, i) && head == s[..i] && tail == s[i + |sep|..]
    requires |rest| >= 1 && Join(rest, sep) == tail
    ensures Join([head] + rest, sep) == s
  {
    assert ([head] + rest)[1..] == rest;
    assert s == head + s[i..i + |sep|] + tail;
  }

  /** The first piece of a split is the text before the first occurrence. */
  lemma SplitHead(s: string, sep: string)
    requires |sep| > 0
    ensures FindFirst(s, sep).None? ==> Split(s, sep)[0] == s
    ensures FindFirst(s, sep).Some? ==> Split(s, sep)[0] == s[..FindFirst(s, sep).value]
  {
  }

  /** The first piece of a split at a one-character separator is the prefix
      before the first occurrence of that character. */
  lemma SplitAtCharHead(s: string, c: char)
    ensures var key := Split(s, [c])[0];
      && |key| <= |s| && key == s[..|key|]
      && c !in key
      && (|key| < |s| ==> s[|key|] == c)
  {
    SplitHead(s, [c]);
    var key := Split(s, [c])[0];
    var end := if FindFirst(s, [c]).Some? then FindFirst(s, [c]).value else |s|;
    assert key == s[..end];
    forall j | 0 <= j < end ensures s[j] != c {
      if s[j] == c {
        assert s[j..j + 1] == [c];
        assert OccursAt(s, [c], j);
      }
    }
    assert forall j :: 0 <= j < |key| ==> key[j] == s[j];
    if end < |s| {
      assert s[end..end + 1] == [c];
    }
  }

  /** A joined sequence is its first part, followed by the separator and
      the join of the rest when there is more than one part. */
  lemma JoinShape(parts: seq<string>, sep: string)
    requires |parts| >= 1
    ensures |parts| == 1 ==> Join(parts, sep) == parts[0]
    ensures |parts| > 1 ==> Join(parts, sep) == parts[0] + sep + Join(parts[1..], sep)
  {
  }

  /** When `sep` occurs, `s.split(sep)[1]` is the text between its first and
      its second occurrence (or the end). */
  lemma SplitSecond(s: string, sep: string) returns (rest: string)
    requires |sep| > 0 && Contains(s, sep)
    ensures |Split(s, sep)| >= 2
    ensures s == Split(s, sep)[0] + sep + Split(s, sep)[1] + rest
    ensures rest == "" || StartsWith(rest, sep)
  {
    rest := JoinSecond(Split(s, sep), sep);
  }

  /** A join of at least two parts opens with the first two around `sep`. */
  lemma JoinSecond(parts: seq<string>, sep: string) returns (rest: string)
    requires |parts| >= 2
    ensures Join(parts, sep) == parts[0] + sep + parts[1] + rest
    ensures rest == "" || StartsWith(rest, sep)
  {
    var tail := parts[1..];
    JoinShape(parts, sep);
    JoinShape(tail, sep);
    if |tail| == 1 {
      rest := "";
    } else {
      rest := sep + Join(tail[1..], sep);
      assert rest[..|sep|] == sep;
    }
    assert Join(parts, sep) == parts[0] + sep + (parts[1] + rest);
  }


  /** When `sep` occurs, the first piece followed by `sep` opens `s`. */
  lemma SplitFirst(s: string, sep: string) returns (rest: string)
    requires |sep| > 0
    ensures Split(s, sep)[0] == s || s == Split(s, sep)[0] + sep + rest
  {
    var parts := Split(s, sep);
    JoinShape(parts, sep);
    rest := if |parts| > 1 then Join(parts[1..], sep) else "";
  }

  /** Python's `s.replace(target, repl)` for a non-empty `target`: every leftmost
      non-overlapping occurrence of `target` is replaced. */
  function Replace(s: string, target: string, repl: string): string
    requires |target| > 0
  {
    Join(Split(s, target), repl)
  }

  /** A string without the character `c` does not contain `[c]`. */
  lemma NoCharNoContains(s: string, c: char)
    requires c !in s
    ensures !Contains(s, [c])
  {
    forall i: nat ensures !OccursAt(s, [c], i) {
      if i + 1 <= |s| {
        assert s[i..i + 1] == [s[i]];
      }
    }
  }

  lemma SliceOfPrefix(s: string, n: nat, i: nat, j: nat)
    requires i <= j <= n <= |s|
    ensures s[..n][i..j] == s[i..j]
  {
  }

  /** Splitting at a first separator preceded by no other occurrence. */
  lemma SplitCons(pre: string, sep: string, post: string)
    requires |sep| > 0
    requires !Contains(pre + sep[..|sep| - 1], sep)
    ensures Split(pre + sep + post, sep) == [pre] + Split(post, sep)
  {
    var s := pre + sep + post;
    assert s[|pre|..|pre| + |sep|] == sep;
    var w := pre + sep[..|sep| - 1];
    assert s[..|w|] == w;
    forall j: nat | j < |pre| ensures !OccursAt(s, sep, j) {
      assert !OccursAt(w, sep, j);
      SliceOfPrefix(s, |w|, j, j + |sep|);
    }
    FindFirstIs(s, sep, |pre|);
    assert s[..|pre|] == pre;
    assert s[|pre| + |sep|..] == post;
  }
  /** Splitting at a one-character separator that the first piece lacks. */
  lemma SplitCharCons(pre: string, c: char, post: string)
    requires c !in pre
    ensures Split(pre + [c] + post, [c]) == [pre] + Split(post, [c])
  {
    NoCharNoContains(pre, c);
    assert pre + [c][..0] == pre;
    SplitCons(pre, [c], post);
  }

  /** A text without the separator character splits into itself. */
  lemma SplitNoChar(s: string, c: char)
    requires c !in s
    ensures Split(s, [c]) == [s]
  {
    NoCharNoContains(s, c);
    JoinShape(Split(s, [c]), [c]);
  }
  /** Two pieces joined by a character neither holds split back. */
  lemma SplitTwoChar(b: string, c: string, ch: char)
    requires ch !in b && ch !in c
    ensures Split(b + [ch] + c, [ch]) == [b, c]
  {
    SplitNoChar(c, ch);
    SplitCharCons(b, ch, c);
  }

  /** Three pieces joined by a character none of them holds split back. */
  lemma SplitThreeChar(a: string, b: string, c: string, ch: char)
    requires ch !in a && ch !in b && ch !in c
    ensures Split(a + [ch] + b + [ch] + c, [ch]) == [a, b, c]
  {
    var bc := b + [ch] + c;
    AppendAssoc(a + [ch] + b, [ch], c);
    AppendAssoc(a + [ch], b, [ch] + c);
    AppendAssoc(b, [ch], c);
    SplitTwoChar(b, c, ch);
    SplitCharCons(a, ch, bc);
  }



  /** Joining pieces without the separator character and splitting again
      gives back the pieces. */
  lemma {:induction false} SplitJoinChar(parts: seq<string>, c: char)
    requires |parts| > 0
    requires forall k :: 0 <= k < |parts| ==> c !in parts[k]
    ensures Split(Join(parts, [c]), [c]) == parts
    decreases |parts|
  {
    NoCharNoContains(parts[0], c);
    if |parts| > 1 {
      assert parts[0] + [c][..0] == parts[0];
      SplitCons(parts[0], [c], Join(parts[1..], [c]));
      SplitJoinChar(parts[1..], c);
    }
  }

  lemma ReplaceSingle(pre: string, target: string, post: string, repl: string)
    requires |target| > 0
    requires !Contains(pre + target[..|target| - 1], target)
    requires !Contains(post, target)
    ensures Replace(pre + target + post, target, repl) == pre + repl + post
  {
    var s := pre + target + post;
    assert s[|pre|..|pre| + |target|] == target;
    var w := pre + target[..|target| - 1];
    forall j: nat | j < |pre| ensures !OccursAt(s, target, j) {
      assert !OccursAt(w, target, j);
      if j + |target| <= |s| {
        assert s[j..j + |target|] == w[j..j + |target|];
      }
    }
    FindFirstIs(s, target, |pre|);
    assert s[..|pre|] == pre;
    assert s[|pre| + |target|..] == post;
    assert Split(post, target) == [post];
    assert Split(s, target) == [pre] + Split(post, target);
    assert Split(s, target) == [pre, post];
    assert [pre, post][1..] == [post];
    assert Join([pre, post], repl) == pre + repl + post;
  }

  /** With no occurrence of `target`, `replace` changes nothing. */
  lemma ReplaceAbsent(s: string, target: string, repl: string)
    requires |target| > 0
    requires !Contains(s, target)
    ensures Replace(s, target, repl) == s
  {
  }

  /** Python's `s.replace(a, b)` for one-character `a` and `b`. */
  function ReplaceChar(s: string, a: char, b: char): (r: string)
    ensures |r| == |s|
    ensures forall i :: 0 <= i < |s| ==> r[i] == (if s[i] == a then b else s[i])
  {
    seq(|s|, i requires 0 <= i < |s| => if s[i] == a then b else s[i])
  }

  /** Python's `s.rstrip(chars)`: `chars` is a SET of characters, removed from
      the end for as long as the last character is one of them. */
  function RStrip(s: string, chars: set<char>): (r: string)
    ensures |r| <= |s| && r == s[..|r|]
    ensures |r| == 0 || r[|r| - 1] !in chars
    ensures forall i :: |r| <= i < |s| ==> s[i] in chars
    decreases |s|
  {
    if |s| > 0 && s[|s| - 1] in chars then RStrip(s[..|s| - 1], chars) else s
  }

  /** Stripping twice strips nothing more. */
  lemma RStripIdempotent(s: string, chars: set<char>)
    ensures RStrip(RStrip(s, chars), chars) == RStrip(s, chars)
  {
  }

  /** Stripping undoes appending a unit made only of stripped characters, as
      long as the value itself does not end in one of them. */
  lemma {:induction false} RStripUnit(v: string, unit: string, chars: set<char>)
    requires |v| == 0 || v[|v| - 1] !in chars
    requires forall i :: 0 <= i < |unit| ==> unit[i] in chars
    ensures RStrip(v + unit, chars) == v
    decreases |unit|
  {
    if |unit| == 0 {
      assert v + unit == v;
    } else {
      var s := v + unit;
      assert s[..|s| - 1] == v + unit[..|unit| - 1];
      RStripUnit(v, unit[..|unit| - 1], chars);
    }
  }

  /** Python's `s.lstrip(chars)`. */
  function LStrip(s: string, chars: set<char>): (r: string)
    ensures |r| <= |s| && r == s[|s| - |r|..]
    ensures |r| == 0 || r[0] !in chars
    ensures forall i :: 0 <= i < |s| - |r| ==> s[i] in chars
    decreases |s|
  {
    if |s| > 0 && s[0] in chars then LStrip(s[1..], chars) else s
  }

  /** The set of characters of a string, as `strip` reads its argument. */
  function CharSet(s: string): (cs: set<char>)
    ensures forall c :: c in cs <==> c in s
  {
    set c | c in s
  }

  /** Python's universal-newline translation when a text file is read:
      `'\r\n'` and a lone `'\r'` each become `'\n'`. */
  function Universal(s: string): (t: string)
    ensures '\r' !in t
    ensures |t| <= |s|
    decreases |s|
  {
    if |s| == 0 then ""
    else if s[0] == '\r' then "\n" + Universal(if |s| > 1 && s[1] == '\n' then s[2..] else s[1..])
    else [s[0]] + Universal(s[1..])
  }

  /** Text without `'\r'` is read as written. */
  lemma {:induction false} UniversalPlain(s: string)
    ensures '\r' !in s ==> Universal(s) == s
    decreases |s|
  {
    if |s| > 0 && '\r' !in s {
      assert s[0] != '\r';
      UniversalPlain(s[1..]);
      assert s == [s[0]] + s[1..];
    }
  }

  /** Translation splits at any point that does not cut a `'\r\n'` pair. */
  lemma {:induction false} UniversalAppend(a: string, b: string)
    requires !(|a| > 0 && a[|a| - 1] == '\r' && |b| > 0 && b[0] == '\n')
    ensures Universal(a + b) == Universal(a) + Universal(b)
    decreases |a|
  {
    if |a| == 0 {
      assert a + b == b;
    } else {
      var h, rest := UniversalUncons(a, b);
      UniversalAppend(rest, b);
      AppendAssoc(h, Universal(rest), Universal(b));
    }
  }

  /** The first step of translating `a`, shared by `a + b` when the step does not reach into `b`. */
  lemma UniversalUncons(a: string, b: string) returns (h: string, rest: string)
    requires |a| > 0
    requires !(a[|a| - 1] == '\r' && |b| > 0 && b[0] == '\n')
    ensures |rest| < |a|
    ensures |rest| > 0 ==> rest[|rest| - 1] == a[|a| - 1]
    ensures Universal(a) == h + Universal(rest)
    ensures Universal(a + b) == h + Universal(rest + b)
  {
    var n := if a[0] == '\r' && |a| > 1 && a[1] == '\n' then 2 else 1;
    rest := a[n..];
    h := if a[0] == '\r' then "\n" else [a[0]];
    UniversalHead(a, n);
    assert (a + b)[0] == a[0] && (n == 2 ==> (a + b)[1] == a[1]);
    UniversalHead(a + b, n);
    DropOfAppend(a, b, n);
  }

  /** Dropping a prefix of `a` from `a + b` leaves the rest of `a`, then `b`. */
  lemma DropOfAppend(a: string, b: string, n: nat)
    requires n <= |a|
    ensures (a + b)[n..] == a[n..] + b
  {
  }

  /** One step of translation: the first `n` characters of `s` become `Universal(s[..n])`. */
  lemma UniversalHead(s: string, n: nat)
    requires 0 < n <= |s|
    requires n == 1 ==> s[0] != '\r' || |s| == 1 || s[1] != '\n'
    requires n == 2 ==> s[0] == '\r' && s[1] == '\n'
    requires n <= 2
    ensures Universal(s) == (if s[0] == '\r' then "\n" else [s[0]]) + Universal(s[n..])
  {
  }

  /** Wherever it stands, a `'\r\n'` pair is read as one `'\n'`. */
  lemma UniversalCrLf(a: string, b: string)
    ensures Universal(a + "\r\n" + b) == Universal(a) + "\n" + Universal(b)
  {
    var x := "\r\n" + b;
    assert a + "\r\n" + b == a + x;
    UniversalAppend(a, x);
    assert x[0] == '\r' && x[1] == '\n' && x[2..] == b;
  }

  /** ... and so is a `'\r'` that no `'\n'` follows. */
  lemma UniversalLoneCr(a: string, b: string)
    requires |b| == 0 || b[0] != '\n'
    ensures Universal(a + "\r" + b) == Universal(a) + "\n" + Universal(b)
  {
    var x := "\r" + b;
    assert a + "\r" + b == a + x;
    UniversalAppend(a, x);
    assert x[0] == '\r' && x[1..] == b;
    assert !(|x| > 1 && x[1] == '\n');
  }

  /** Text that ends a line still ends one once translated. */
  lemma {:induction false} UniversalEndsLine(s: string)
    requires |s| > 0 && s[|s| - 1] == '\n'
    ensures |Universal(s)| > 0 && Universal(s)[|Universal(s)| - 1] == '\n'
    decreases |s|
  {
    if s[0] == '\r' {
      if s[1] == '\n' {
        if |s| > 2 {
          UniversalEndsLine(s[2..]);
        }
      } else {
        UniversalEndsLine(s[1..]);
      }
    } else if |s| > 1 {
      UniversalEndsLine(s[1..]);
    }
  }

  /** A single line as `readlines` returns it: `'\n'`-terminated, with no
      other line ending inside. */
  predicate IsLine(x: string) {
    |x| > 0 && x[|x| - 1] == '\n' && '\n' !in x[..|x| - 1] && '\r' !in x
  }

  /** The text up to and including the first newline is a single line. */
  lemma FirstLine(s: string, i: nat)
    requires '\r' !in s
    requires FindFirst(s, "\n") == Some(i)
    ensures i < |s| && IsLine(s[..i + 1])
  {
    assert OccursAt(s, "\n", i);
    assert s[i] == '\n';
    NoNewlineBefore(s, i);
  }

  lemma NoNewlineBefore(s: string, i: nat)
    requires i <= |s|
    requires forall j: nat :: j < i ==> !OccursAt(s, "\n", j)
    ensures forall j :: 0 <= j < i ==> s[j] != '\n'
  {
    forall j | 0 <= j < i ensures s[j] != '\n' {
      assert !OccursAt(s, "\n", j);
      assert s[j..j + 1] == [s[j]];
    }
  }

  /** Translated text cut after each `'\n'`: each piece keeps its `'\n'`; a
      final piece without one is kept as is. */
  function SplitLines(s: string): seq<string>
    decreases |s|
  {
    if |s| == 0 then []
    else
      match FindFirst(s, "\n")
      case None => [s]
      case Some(i) =>
        assert OccursAt(s, "\n", i);
        [s[..i + 1]] + SplitLines(s[i + 1..])
  }

  /** `lines` are the text `s` cut into lines after the line-ending
      translation: they concatenate back to the translated text (to `s`
      itself when it holds no `'\r'`), none is empty, and every one but
      the last is a single `'\n'`-terminated line. */
  predicate LinesOf(s: string, lines: seq<string>) {
    && Concat(lines) == Universal(s)
    && ('\r' !in s ==> Concat(lines) == s)
    && (forall k :: 0 <= k < |lines| ==> lines[k] != "")
    && (forall k :: 0 <= k < |lines| - 1 ==> IsLine(lines[k]))
  }

  /** Python's `f.readlines()` on a file opened in text mode with contents
      `s`: line endings are translated to `'\n'`, then the text is cut after
      each `'\n'`. Nothing is lost but the translation. */
  function ReadLines(s: string): seq<string> {
    SplitLines(Universal(s))
  }

  lemma {:induction false} SplitLinesRoundTrip(s: string)
    requires '\r' !in s
    ensures Concat(SplitLines(s)) == s
    ensures forall k :: 0 <= k < |SplitLines(s)| ==> SplitLines(s)[k] != ""
    ensures forall k :: 0 <= k < |SplitLines(s)| - 1 ==> IsLine(SplitLines(s)[k])
    decreases |s|
  {
    if |s| > 0 {
      match FindFirst(s, "\n")
      case None =>
      case Some(i) =>
        FirstLine(s, i);
        var rest := s[i + 1..];
        assert '\r' !in rest by {
          assert forall j :: 0 <= j < |rest| ==> rest[j] == s[i + 1 + j];
        }
        SplitLinesRoundTrip(s[i + 1..]);
        var lines := SplitLines(s);
        assert lines == [s[..i + 1]] + SplitLines(s[i + 1..]);
        assert lines[1..] == SplitLines(s[i + 1..]);
        assert s == s[..i + 1] + s[i + 1..];
    }
  }

  /** `readlines` loses nothing but the line-ending translation. */
  lemma ReadLinesRoundTrip(s: string)
    ensures LinesOf(s, ReadLines(s))
  {
    SplitLinesRoundTrip(Universal(s));
    UniversalPlain(s);
  }

  /** Lines hold no `'\r'`, so neither does their concatenation. */
  lemma {:induction false} ConcatOfLinesPlain(xs: seq<string>)
    requires forall k :: 0 <= k < |xs| ==> IsLine(xs[k])
    ensures '\r' !in Concat(xs)
    decreases |xs|
  {
    if |xs| > 0 {
      ConcatOfLinesPlain(xs[1..]);
      assert IsLine(xs[0]);
    }
  }

  /** Splitting a line followed by more text yields that line first. */
  lemma {:induction false} SplitLinesCons(x: string, rest: string)
    requires IsLine(x)
    ensures SplitLines(x + rest) == [x] + SplitLines(rest)
  {
    var s := x + rest;
    var n := |x| - 1;
    assert OccursAt(s, "\n", n) by { assert s[n..n + 1] == [x[n]]; }
    forall j: nat | j < n ensures !OccursAt(s, "\n", j) {
      assert s[j..j + 1] == [x[j]];
      assert x[j] == x[..n][j];
    }
    assert FindFirst(s, "\n") == Some(n);
    assert s[..n + 1] == x;
    assert s[n + 1..] == rest;
  }

  lemma {:induction false} SplitLinesOfLines(xs: seq<string>)
    requires forall k :: 0 <= k < |xs| ==> IsLine(xs[k])
    ensures SplitLines(Concat(xs)) == xs
    decreases |xs|
  {
    if |xs| > 0 {
      SplitLinesCons(xs[0], Concat(xs[1..]));
      SplitLinesOfLines(xs[1..]);
    }
  }

  /** Lines written one after another are read back. */
  lemma ReadLinesOfLines(xs: seq<string>)
    requires forall k :: 0 <= k < |xs| ==> IsLine(xs[k])
    ensures ReadLines(Concat(xs)) == xs
  {
    ConcatOfLinesPlain(xs);
    UniversalPlain(Concat(xs));
    SplitLinesOfLines(xs);
  }

  /** Non-empty `'\n'`-terminated text starts with a whole line. */
  lemma SplitFirstLine(text: string) returns (line: string, rest: string)
    requires '\r' !in text
    requires |text| > 0 && text[|text| - 1] == '\n'
    ensures IsLine(line) && text == line + rest && |rest| < |text|
    ensures '\r' !in rest
    ensures |rest| == 0 || rest[|rest| - 1] == '\n'
  {
    assert OccursAt(text, "\n", |text| - 1) by {
      assert text[|text| - 1..|text|] == "\n";
    }
    var i := FindFirst(text, "\n").value;
    FirstLine(text, i);
    line := text[..i + 1];
    rest := text[i + 1..];
    assert text == line + rest;
    assert forall j :: 0 <= j < |rest| ==> rest[j] == text[i + 1 + j];
  }

  lemma AppendAssoc(a: string, b: string, c: string)
    ensures (a + b) + c == a + (b + c)
  {
  }

  lemma {:induction false} SplitLinesConcatStep(line: string, rest: string, c: string, xs: seq<string>)
    requires IsLine(line)
    requires SplitLines(rest + c) == SplitLines(rest) + xs
    ensures SplitLines(line + (rest + c)) == SplitLines(line + rest) + xs
  {
    SplitLinesCons(line, rest);
    SplitLinesCons(line, rest + c);
  }

  lemma {:induction false} SplitLinesConcat(prefix: string, xs: seq<string>)
    requires forall k :: 0 <= k < |xs| ==> IsLine(xs[k])
    requires '\r' !in prefix
    requires |prefix| == 0 || prefix[|prefix| - 1] == '\n'
    ensures SplitLines(prefix + Concat(xs)) == SplitLines(prefix) + xs
    decreases |prefix|
  {
    if |prefix| == 0 {
      assert prefix + Concat(xs) == Concat(xs);
      SplitLinesOfLines(xs);
    } else {
      var line, rest := SplitFirstLine(prefix);
      var c := Concat(xs);
      SplitLinesConcat(rest, xs);
      SplitLinesConcatStep(line, rest, c, xs);
      AppendAssoc(line, rest, c);
    }
  }

  /** Lines appended behind text that ends a line are read back after that
      text's own lines, whatever line endings the text itself uses. */
  lemma ReadLinesConcat(prefix: string, xs: seq<string>)
    requires forall k :: 0 <= k < |xs| ==> IsLine(xs[k])
    requires |prefix| == 0 || prefix[|prefix| - 1] == '\n'
    ensures ReadLines(prefix + Concat(xs)) == ReadLines(prefix) + xs
  {
    UniversalAppend(prefix, Concat(xs));
    ConcatOfLinesPlain(xs);
    UniversalPlain(Concat(xs));
    if |prefix| > 0 {
      UniversalEndsLine(prefix);
    }
    SplitLinesConcat(Universal(prefix), xs);
  }
}

=== FILE: wrappers.dfy ===
/** Option and Result types for the partial operations of the digest
    pipeline, and the Python exceptions those operations can raise. */
module Wrappers {

  /** A value that may be absent; Python's `None` return. */
  datatype Option<+T> = None | Some(value: T)

  /** The exceptions the modelled Python code can raise on malformed input. */
  datatype PyError =
    | IndexError        // a list index past the end (`xs[1]`, `xs[-1]` on `[]`)
    | KeyError(key: string)  // a missing dictionary or DataFrame key
    | StopIteration     // `next(iter({}))`
    | TypeError         // unpacking `None`, `in` on a number
    | ValueError        // `int('x')`, an invalid calendar date, `pd.concat([])`
    | OverflowError     // a date past the last representable day, or a C `int` argument out of range
    | NameError(name: string)  // a local variable read before any assignment

  /** Either a value or the exception the Python code would raise. */
  datatype Result<+T> = Ok(value: T) | Err(error: PyError) {

    predicate IsFailure() {
      Err?
    }

    function PropagateFailure<U>(): Result<U>
      requires Err?
    {
      Err(error)
    }

    function Extract(): T
      requires Ok?
    {
      value
    }
  }
}
